=== FILE: README.md ===
# JavaScript OOP exercises: a Dafny model

This project models six small JavaScript modules, each written as
immutable data and pure functions, plus a few methods with loops:

- **Battle manager** (`Battle`). It has validated commanders, army units
  and spells, all drawing on one shared id counter. A manager registers
  them and answers exact-match queries, sorting units by speed (fastest
  first) and then by name. It also casts spells and resolves a one-sided
  battle.
- **Course** (`Course`). It covers validation of the course title and
  presentation titles, student registration with sequential ids, the
  student list, homework submission and exam-result ingestion. Ingestion
  is not atomic.
- **Media** (`Media`). Playables (audio and video) and playlists share
  one id counter. The module formats `play()` lines and covers playlist
  lookup, removal by id or by object, and pagination.
- **Doubly linked list** (`LinkedList`). Nodes live in an arena (a
  `seq<Node>`) and links are integer indices, with `-1` as `null`. A
  ghost node order ties each list to its abstract value `Items(l)`. Every
  operation is specified against that sequence: append, prepend, insert,
  at, removeAt, first, last, length, toArray and toString.
- **Shopping cart** (`Cart`). It covers add, remove-first-match, the
  price sum, distinct sorted product types, and grouping by product name
  with per-group totals.
- **Prime range** (`Primes`). A sieve of Eratosthenes over a `bool`
  array, followed by collection of the marked indices in `[from, to]`.
  The sieve is modelled twice: as written, where it keeps 6 (see
  Findings), and as evidently intended.

Shared modules:

- `Results` holds `Option` and `Result`.
- `Strings` holds decimal rendering and parsing, split/join and
  code-point string order.
- `Sequences` holds find-index, filter and an insertion sort,
  parameterised by a test or an ordering.

A JavaScript `throw` becomes an `Err` carrying an error kind. Module
state (the IIFE closures and the id generators) becomes an explicit state
value or counter, which is passed in and returned. The identity of an
army unit becomes its id: a commander's army holds unit ids. Commanders
themselves are plain values (see Left out).

Two behaviours of the code are easy to miss, and the model follows
them:

- **An `ArmyUnit` consumes an id even when a stat check fails.** The id
  is drawn after the name and alignment checks but before the damage,
  health, count and speed setters
  (`07-Exam-Practice/Battlemanager/task/solution.js:147-152`). So a unit
  that fails a stat check still advances the counter. `battle` also
  advances it, because it builds throwaway units.
- **A failing spell effect leaves its earlier writes in place.** A spell
  effect runs before the mana deduction. When one of its setters rejects
  a value, the writes before it stay on the target unit and the mana is
  not deducted. The state is not left wholly untouched.

## Model

| member | source | states |
|---|---|---|
| Battle.HasForeignSymbol | 07-Exam-Practice/Battlemanager/task/solution.js:44-48 | The symbol check fires exactly when some character is outside A-Z, a-z and space |
| Battle.CheckName | 07-Exam-Practice/Battlemanager/task/solution.js:38-48 | A name passes iff it has 2 to 20 characters, all letters or spaces; a bad length is reported before bad symbols |
| Battle.CheckNonNegative | 07-Exam-Practice/Battlemanager/task/solution.js:50-63 | Mana and count pass iff non-negative, otherwise the role's own error kind |
| Battle.CheckBetween | 07-Exam-Practice/Battlemanager/task/solution.js:65-81 | Damage, health and speed pass iff they lie in [1, bound], otherwise the role's own error kind |
| Battle.ParseAlignment | 07-Exam-Practice/Battlemanager/task/solution.js:136-142 | Exactly "evil", "good" and "neutral" are accepted, and the parsed alignment prints back as the input |
| Battle.ParseAlignmentName | 07-Exam-Practice/Battlemanager/task/solution.js:136-142 | Printing an alignment and parsing it again gives the same alignment |
| Battle.NewSpell | 07-Exam-Practice/Battlemanager/task/solution.js:90-115 | A spell is built iff its effect takes one argument, its name is valid and its cost is non-negative; the effect is checked first, then the name, then the cost |
| Battle.StatsError | 07-Exam-Practice/Battlemanager/task/solution.js:149-152 | The stat setters succeed together iff damage is in [1,100], health in [1,200], count is non-negative and speed is in [1,100] |
| Battle.NewArmyUnit | 07-Exam-Practice/Battlemanager/task/solution.js:145-190 | A unit is built iff its record is valid; it gets the current counter value as id; the counter advances once the name and alignment pass, even if a stat then fails |
| Battle.MintedIdsIncrease | 07-Exam-Practice/Battlemanager/task/solution.js:24-29 | Units built one after another get strictly increasing ids, all drawn from the counter's range |
| Battle.NewCommander | 07-Exam-Practice/Battlemanager/task/solution.js:192-207 | A commander is built iff name, alignment and mana are valid (checked in that order); the spellbook and army start empty |
| Battle.CommanderIndex | 07-Exam-Practice/Battlemanager/task/solution.js:229 | Finds the first commander with the given name, or reports that none has it |
| Battle.AddCommanders | 07-Exam-Practice/Battlemanager/task/solution.js:224-227 | Commanders are appended in order with no duplicate check; units and the counter are untouched; validity is kept |
| Battle.AddArmyUnitTo | 07-Exam-Practice/Battlemanager/task/solution.js:228-233 | Fails iff no commander has the name; otherwise only the first such commander's army gains the unit's id, and the unit joins the flat index |
| Battle.RebuildSpells | 07-Exam-Practice/Battlemanager/task/solution.js:243-247 | Rebuilding succeeds iff every spell is valid, and then gives the spells back unchanged; any failure becomes InvalidSpellObject |
| Battle.AddSpellsTo | 07-Exam-Practice/Battlemanager/task/solution.js:234-251 | An unknown commander gives InvalidCommander; one invalid spell fails the whole call with nothing appended; otherwise all spells are appended in order to that commander only |
| Battle.FindCommanders | 07-Exam-Practice/Battlemanager/task/solution.js:252-255 | Returns exactly the commanders whose queried fields all match, each as often as it is registered |
| Battle.FindCommandersInOrder | 07-Exam-Practice/Battlemanager/task/solution.js:252-255 | The matches come in registration order: commanders registered later are listed after the earlier matches |
| Battle.UnitIndex | 07-Exam-Practice/Battlemanager/task/solution.js:257 | Finds the first unit in the flat index with the given id, or reports that none has it |
| Battle.FindArmyUnitById | 07-Exam-Practice/Battlemanager/task/solution.js:256-258 | Returns the first unit with the id, and nothing iff no unit has it |
| Battle.RanksBeforeTotal | 07-Exam-Practice/Battlemanager/task/solution.js:264-270 | The speed-then-name ordering relates every pair of units, so the sort is well defined |
| Battle.FindArmyUnits | 07-Exam-Practice/Battlemanager/task/solution.js:259-271 | Returns a permutation of exactly the matching units, ordered by speed (fastest first), with ties in name order |
| Battle.SetStat | 07-Exam-Practice/Battlemanager/task/solution.js:159-189 | One setter accepts a value iff it is in the stat's range; it changes that stat only and keeps the unit valid |
| Battle.ApplyWrites | 07-Exam-Practice/Battlemanager/task/solution.js:291 | Running an effect keeps the unit's identity and validity; a failure is always a stat error |
| Battle.ApplyWritesConcat | 07-Exam-Practice/Battlemanager/task/solution.js:291 | Running two bodies in turn is running their concatenation: the second starts from the first's unit unless the first failed |
| Battle.ApplyWritesStopsAt | 07-Exam-Practice/Battlemanager/task/solution.js:291 | A setter rejecting write n ends the effect with that setter's error and the unit as the first n writes left it |
| Battle.ReplaceUnit | 07-Exam-Practice/Battlemanager/task/solution.js:289-291 | Writing to a unit changes every index entry with its id and nothing else |
| Battle.SpellIndex | 07-Exam-Practice/Battlemanager/task/solution.js:279 | Finds the first spell with the given name in a spellbook, or reports that none has it |
| Battle.CastOn | 07-Exam-Practice/Battlemanager/task/solution.js:289-295 | Runs the effect before paying; every entry of the target becomes what the effect body makes of it; the cast fails iff a setter rejects a write, with that error, or iff the target is missing and the body writes; a failure leaves every commander's mana alone; success deducts exactly the cost from the caster; only the target unit can change |
| Battle.Spellcast | 07-Exam-Practice/Battlemanager/task/solution.js:272-296 | Checks the caster, then the spell, then the mana, each failure leaving the state unchanged; once those pass, the target becomes what the spell's effect makes of it and the cast fails iff the effect does; success deducts exactly the cost, and mana stays non-negative; units other than the target are untouched |
| Battle.CeilDiv | 07-Exam-Practice/Battlemanager/task/solution.js:307 | Rounds a quotient up: the result is the least q with a <= q * b |
| Battle.CeilDivUnique | 07-Exam-Practice/Battlemanager/task/solution.js:307 | Any integer bracketing the quotient that way is the rounded-up quotient |
| Battle.RemainingCount | 07-Exam-Practice/Battlemanager/task/solution.js:307-309 | The defender's new count is the least non-negative n whose n full stacks cover the health left after the attack |
| Battle.RemainingCountKills | 07-Exam-Practice/Battlemanager/task/solution.js:307-309 | The same count equals the old count minus the whole units killed, clamped at 0 |
| Battle.RemainingCountBounded | 07-Exam-Practice/Battlemanager/task/solution.js:307-309 | A battle between valid participants never raises the defender's count |
| Battle.Battle | 07-Exam-Practice/Battlemanager/task/solution.js:298-312 | Fails with InvalidBattleParticipant iff either record is invalid; otherwise only the defender's count changes; registered commanders and units are untouched |
| Course.HasDoubleWhitespace | 03-Modules-and-Patterns/tasks/task-1.js:54 | The `\s{2,}` search fires exactly when two whitespace characters are adjacent |
| Course.TitleRejected | 03-Modules-and-Patterns/tasks/task-1.js:54-65 | A title is rejected iff it is empty, starts or ends with whitespace, or has two whitespace characters in a row |
| Course.FirstBadTitle | 03-Modules-and-Patterns/tasks/task-1.js:64-68 | Finds the first invalid presentation title, every earlier title being valid |
| Course.PushPresentations | 03-Modules-and-Patterns/tasks/task-1.js:72-77 | The new presentations follow the old ones, in input order, with ids that continue the count |
| Course.Init | 03-Modules-and-Patterns/tasks/task-1.js:53-79 | Fails for no presentations, then for a bad course title, then for a bad presentation title, changing nothing; otherwise sets the title and appends the numbered presentations |
| Course.MatchesStudentNameShape | 03-Modules-and-Patterns/tasks/task-1.js:82 | The left-to-right scan accepts exactly the names of the shape `^[A-Z][a-z]+ [A-Z][a-z]*$` |
| Course.AddStudent | 03-Modules-and-Patterns/tasks/task-1.js:81-99 | Accepts exactly the names of that shape; the new student's id is the previous count plus one, with no submissions and no score |
| Course.SplitStudentName | 03-Modules-and-Patterns/tasks/task-1.js:103 | A valid student name splits at its one space into exactly two parts |
| Course.GetAllStudents | 03-Modules-and-Patterns/tasks/task-1.js:101-110 | One record per student in insertion order, keeping the id; the first name and last name joined by a space give back the full name |
| Course.StudentIndex | 03-Modules-and-Patterns/tasks/task-1.js:132 | Finds the first student with the given id, or reports that none has it |
| Course.StudentIndexOfValid | 03-Modules-and-Patterns/tasks/task-1.js:132 | In a course built by these operations, student id k sits at position k - 1 |
| Course.SubmitHomework | 03-Modules-and-Patterns/tasks/task-1.js:112-134 | Checks the homework bound, then ids below 1, then the student bound; succeeds iff both ids are in range; on success only that student's submissions grow, by the homework id |
| Course.WriteScore | 03-Modules-and-Patterns/tasks/task-1.js:161 | Writing a score keeps the course's id numbering |
| Course.PushFrom | 03-Modules-and-Patterns/tasks/task-1.js:144-162 | Result ingestion changes nothing but scores, whether or not it fails |
| Course.PushExamResults | 03-Modules-and-Patterns/tasks/task-1.js:136-163 | Pushing results changes nothing but students' scores |
| Course.FirstRejected | 03-Modules-and-Patterns/tasks/task-1.js:144-153 | Finds the first item that is out of range or repeats an earlier id, every item before it being accepted |
| Course.PushFromAccepted | 03-Modules-and-Patterns/tasks/task-1.js:148-161 | An accepted item writes its score and ingestion goes on with its id marked as seen |
| Course.PushFromStopsAtFirstRejected | 03-Modules-and-Patterns/tasks/task-1.js:144-162 | Ingestion fails iff some item is rejected; the items before the first rejected one stay written, as if only they had been pushed |
| Course.PushExamResultsPrefix | 03-Modules-and-Patterns/tasks/task-1.js:136-163 | pushExamResults is not atomic: after a failure, the course equals the one produced by pushing the accepted prefix alone |
| Course.PushFromHeadAccepted | 03-Modules-and-Patterns/tasks/task-1.js:148-153 | Successful ingestion means the first item's id was in range and not yet seen |
| Course.PushFromScores | 03-Modules-and-Patterns/tasks/task-1.js:155-161 | After successful ingestion, every listed student holds the score of its item |
| Course.PushFromKeeps | 03-Modules-and-Patterns/tasks/task-1.js:144-162 | After successful ingestion, students not listed in the results are unchanged |
| Course.PushFromSeenUntouched | 03-Modules-and-Patterns/tasks/task-1.js:151-153 | A student already scored earlier in the call is not written again |
| Media.NewPlayable | 06-Workshop/21-February-2017/tasks/task-1.js:78-150 | The id is drawn first, so the counter advances even on failure; then the title, the author and the length or rating are checked, in that order |
| Media.NewPlaylist | 06-Workshop/21-February-2017/tasks/task-1.js:159-177 | Draws an id even on failure; the playlist is built iff the name has 3 to 25 characters, and it starts empty |
| Media.Make | 06-Workshop/21-February-2017/tasks/task-1.js:243-256 | Every factory call advances the shared counter by one, and what it builds carries the counter's previous value |
| Media.MadeIdsIncrease | 06-Workshop/21-February-2017/tasks/task-1.js:3-8 | Objects made one after another, of any kind, get strictly increasing ids, and the counter advances once per call |
| Media.Play | 06-Workshop/21-February-2017/tasks/task-1.js:108-155 | The line is `[id]. [title] - [author]` followed by ` - [length]` for an audio or ` - [rating]` for a video, and nothing else; the bracketed number at its front reads back as the playable's id |
| Media.AddPlayable | 06-Workshop/21-February-2017/tasks/task-1.js:179-182 | The playable is appended at the end; the playlist's id and name are kept |
| Media.PlayableIndex | 06-Workshop/21-February-2017/tasks/task-1.js:194 | Finds the first playable with the given id, or reports that none has it |
| Media.GetPlayableById | 06-Workshop/21-February-2017/tasks/task-1.js:184-187 | Returns the first playable with the id, or null iff there is none |
| Media.RemovePlayableById | 06-Workshop/21-February-2017/tasks/task-1.js:193-202 | Fails iff the id is absent; otherwise removes exactly one playable, the first with that id |
| Media.RemovePlayableByObject | 06-Workshop/21-February-2017/tasks/task-1.js:204-213 | Fails iff the object has no id; a present id removes as by id; an absent id removes the last playable |
| Media.RemoveAddedPlayable | 06-Workshop/21-February-2017/tasks/task-1.js:179-202 | Adding a playable with a fresh id makes it findable, and removing it by id restores the playlist |
| Media.ListPlayables | 06-Workshop/21-February-2017/tasks/task-1.js:219-234 | Fails iff page < 0, size <= 0 or the page starts at or past the end; otherwise returns between 1 and size playables from the playlist |
| LinkedList.Empty | 04-Classes-Constructors-Methods-and-Properties/task/task-1.js:12-16 | A new list is well formed and holds nothing |
| LinkedList.WalkOrder | 04-Classes-Constructors-Methods-and-Properties/task/task-1.js:171-180 | Following `next` from the head visits the nodes in list order |
| LinkedList.EndsInRange | 04-Classes-Constructors-Methods-and-Properties/task/task-1.js:12-26 | Head and tail are null together, exactly when the list is empty, and otherwise hold the first and last items |
| LinkedList.Length | 04-Classes-Constructors-Methods-and-Properties/task/task-1.js:18-20 | `length` is the number of items |
| LinkedList.First | 04-Classes-Constructors-Methods-and-Properties/task/task-1.js:21-23 | `first` is the first item, and dereferences null iff the list is empty |
| LinkedList.Last | 04-Classes-Constructors-Methods-and-Properties/task/task-1.js:24-26 | `last` is the last item, and dereferences null iff the list is empty |
| LinkedList.FindNodeAt | 04-Classes-Constructors-Methods-and-Properties/task/task-1.js:58-67 | Reaches the node at a position in [0, length), null at length, and dereferences null for any other index |
| LinkedList.At | 04-Classes-Constructors-Methods-and-Properties/task/task-1.js:28-36 | Succeeds iff 0 <= i < length; returns item i, and a given new value replaces item i only |
| LinkedList.SetValueValid | 04-Classes-Constructors-Methods-and-Properties/task/task-1.js:31-33 | Setting a node's value keeps the links and changes just that item |
| LinkedList.UnlinkValid | 04-Classes-Constructors-Methods-and-Properties/task/task-1.js:41-53 | Unlinking a node of a list with at least two nodes leaves a well-formed list without it |
| LinkedList.UnlinkValues | 04-Classes-Constructors-Methods-and-Properties/task/task-1.js:41-53 | Unlinking drops exactly that node's item |
| LinkedList.RemoveAt | 04-Classes-Constructors-Methods-and-Properties/task/task-1.js:38-56 | Succeeds iff the index is in range and the list has at least two items; returns item i and leaves the other items in order |
| LinkedList.LinkLastValid | 04-Classes-Constructors-Methods-and-Properties/task/task-1.js:128-134 | Linking a node after the tail keeps the list well formed |
| LinkedList.AppendOne | 04-Classes-Constructors-Methods-and-Properties/task/task-1.js:128-149 | Appending one value adds it after the last item, whether or not the list was empty |
| LinkedList.AppendAll | 04-Classes-Constructors-Methods-and-Properties/task/task-1.js:140-151 | The append loop adds the values after the old items, in argument order |
| LinkedList.Append | 04-Classes-Constructors-Methods-and-Properties/task/task-1.js:127-155 | `append(v1..vk)` gives the old items followed by v1..vk |
| LinkedList.LinkFirstValid | 04-Classes-Constructors-Methods-and-Properties/task/task-1.js:97-103 | Linking a node before the head keeps the list well formed |
| LinkedList.PrependOne | 04-Classes-Constructors-Methods-and-Properties/task/task-1.js:97-118 | Prepending one value puts it before the first item, whether or not the list was empty |
| LinkedList.PrependAll | 04-Classes-Constructors-Methods-and-Properties/task/task-1.js:110-121 | The backwards prepend loop leaves the values in argument order, ahead of the old items |
| LinkedList.Prepend | 04-Classes-Constructors-Methods-and-Properties/task/task-1.js:96-125 | `prepend(v1..vk)` gives v1..vk followed by the old items |
| LinkedList.LinkBetweenValid | 04-Classes-Constructors-Methods-and-Properties/task/task-1.js:84-89 | Linking a node between two neighbours keeps the list well formed |
| LinkedList.LinkBetweenValues | 04-Classes-Constructors-Methods-and-Properties/task/task-1.js:84-89 | The new node's value lands at the position of the node it was linked before |
| LinkedList.LinkAllBefore | 04-Classes-Constructors-Methods-and-Properties/task/task-1.js:79-91 | The insert loop puts the values, in order, just ahead of the node at the position |
| LinkedList.Insert | 04-Classes-Constructors-Methods-and-Properties/task/task-1.js:69-94 | Succeeds iff 0 <= index <= length, giving old[..index] + values + old[index..]; index 0 prepends and index length appends |
| LinkedList.ToArray | 04-Classes-Constructors-Methods-and-Properties/task/task-1.js:157-165 | Lists exactly the items in order; an empty list dereferences a null head |
| LinkedList.ToString | 04-Classes-Constructors-Methods-and-Properties/task/task-1.js:167-169 | The items' renderings joined by " -> ", with the same failure on an empty list |
| Cart.Add | 06-Workshop/31-January-2017/task/solution.js:14-17 | The product goes at the end and the earlier products stay as they were |
| Cart.ProductIndex | 06-Workshop/31-January-2017/task/solution.js:20-23 | Finds the first product equal in type, name and price, or reports that none is |
| Cart.Remove | 06-Workshop/31-January-2017/task/solution.js:19-32 | Fails iff no product is equal; otherwise removes only the first equal one, leaving the cart one copy short |
| Cart.SumAppend | 06-Workshop/31-January-2017/task/solution.js:39-45 | The price sum of two carts laid end to end is the sum of their sums |
| Cart.ShowCost | 06-Workshop/31-January-2017/task/solution.js:34-46 | The summing loop computes the total price, 0 for an empty cart |
| Cart.RemoveCost | 06-Workshop/31-January-2017/task/solution.js:19-46 | Removing a product lowers the total by its price |
| Cart.AddRemoveCost | 06-Workshop/31-January-2017/task/solution.js:14-46 | Adding a product raises the total by its price, and removing it again restores the contents and the total |
| Cart.DistinctTypes | 06-Workshop/31-January-2017/task/solution.js:49-56 | The loop collects every product type present exactly once |
| Cart.SortedDistinct | 06-Workshop/31-January-2017/task/solution.js:57 | Sorting distinct types keeps them distinct, with the same members, in strictly ascending order |
| Cart.ShowProductTypes | 06-Workshop/31-January-2017/task/solution.js:48-60 | Each present type appears exactly once, nothing else appears, and the types ascend |
| Cart.GroupIndex | 06-Workshop/31-January-2017/task/solution.js:73 | Finds the group with a given name, or reports that there is none |
| Cart.JoinGroupStep | 06-Workshop/31-January-2017/task/solution.js:70-78 | Adding the next product keeps one group per name, each holding its name's count and price sum |
| Cart.Groups | 06-Workshop/31-January-2017/task/solution.js:67-81 | Grouping gives one group per distinct name, with the number of products of that name and their price sum |
| Cart.GroupSums | 06-Workshop/31-January-2017/task/solution.js:87-102 | The group quantities add up to the cart size and the group totals to the cart's total |
| Cart.GetInfo | 06-Workshop/31-January-2017/task/solution.js:62-110 | The total equals the cost; one entry per distinct name with its count and price sum; the quantities add up to the cart size |
| Primes.NoSmallDivisorPrime | 01-Functions-and-Function-Expressions/tasks/task-2.js:31-42 | A number of at least 2 with no divisor d where d * d is at most the number is prime |
| Primes.FloorSqrt | 01-Functions-and-Function-Expressions/tasks/task-2.js:23 | `~~Math.sqrt(to)` is the integer square root, and 0 for a negative bound |
| Primes.InitialTable | 01-Functions-and-Function-Expressions/tasks/task-2.js:25-29 | The table has `to + 1` slots, and exactly the indices from 2 on are marked |
| Primes.StrikeMultiplesAsWritten | 01-Functions-and-Function-Expressions/tasks/task-2.js:33-40 | The pass of i as written strikes i * i and then every further multiple of i except i * i + i, which extends the as-written sieve invariant from i to i + 1 |
| Primes.SkipStruckAsWritten | 01-Functions-and-Function-Expressions/tasks/task-2.js:32 | Skipping an i that is already struck loses nothing in the as-written sieve: each multiple it would strike is struck through a smaller divisor |
| Primes.CompositeStruckAsWritten | 01-Functions-and-Function-Expressions/tasks/task-2.js:31-42 | Every number from 2 on other than a prime or 6 is struck once the passes reach its square root: an even one by the pass of 2, an odd one by its least divisor |
| Primes.SixSurvivesAsWritten | 01-Functions-and-Function-Expressions/tasks/task-2.js:35-38 | No pass as written strikes 6: the pass of 2 steps from 4 to 8 |
| Primes.SievedAsWrittenPrime | 01-Functions-and-Function-Expressions/tasks/task-2.js:31-42 | Once every i with i * i at most k has had its pass as written, k is still marked iff it is prime or 6 |
| Primes.SieveAsWritten | 01-Functions-and-Function-Expressions/tasks/task-2.js:25-42 | After the sieve as written, index k is marked iff k is prime or k is 6 |
| Primes.Collect | 01-Functions-and-Function-Expressions/tasks/task-2.js:44-48 | Returns exactly the marked indices in [from, to], in strictly ascending order |
| Primes.FindPrimes | 01-Functions-and-Function-Expressions/tasks/task-2.js:9-50 | Fails with NoRange iff fewer than two arguments, and with a range error iff to + 1 is not a valid array length; otherwise returns, ascending, exactly the primes in [from, to] together with 6 whenever the range holds it |
| Primes.StrikeMultiples | 01-Functions-and-Function-Expressions/tasks/task-2.js:35-38 | The intended pass of i, striking every multiple of i from i * i on, extends the sieve invariant from i to i + 1 |
| Primes.SkipStruck | 01-Functions-and-Function-Expressions/tasks/task-2.js:32 | In the intended sieve, skipping an i that is already struck loses nothing: its multiples were struck by a smaller divisor |
| Primes.SievedPrime | 01-Functions-and-Function-Expressions/tasks/task-2.js:31-42 | Once every i with i * i at most k has had its intended pass, k is still marked iff it is prime |
| Primes.Sieve | 01-Functions-and-Function-Expressions/tasks/task-2.js:25-42 | After the intended sieve, index k is marked iff k is prime |
| Primes.FindPrimesIntended | 01-Functions-and-Function-Expressions/tasks/task-2.js:9-50 | With the intended sieve, the same argument errors, and otherwise exactly the primes in [from, to], ascending |
| Strings.ParseNatToString | 06-Workshop/21-February-2017/tasks/task-1.js:109 | The decimal rendering of an id reads back as the same number |
| Strings.Split | 03-Modules-and-Patterns/tasks/task-1.js:103 | Splitting gives at least one part, and no part contains the separator |
| Strings.JoinSplit | 03-Modules-and-Patterns/tasks/task-1.js:103 | Joining the parts of a split with the separator gives back the string |
| Strings.SplitJoin | 03-Modules-and-Patterns/tasks/task-1.js:103 | Splitting a join of separator-free parts gives back the parts |
| Strings.StrLeTotal | 07-Exam-Practice/Battlemanager/task/solution.js:268 | Any two names are ordered one way or the other |
| Strings.StrLeAntisymmetric | 07-Exam-Practice/Battlemanager/task/solution.js:268 | Names ordered both ways are equal |
| Strings.StrLeTransitive | 07-Exam-Practice/Battlemanager/task/solution.js:268 | The name order is transitive |
| Sequences.FindIndex | 07-Exam-Practice/Battlemanager/task/solution.js:229 | `find` and `findIndex`: the position of the first element satisfying the test, every earlier one failing it, or the length when none does |
| Sequences.Filter | 07-Exam-Practice/Battlemanager/task/solution.js:262 | Keeps exactly the matching elements, each as often as it occurs |
| Sequences.FilterConcat | 07-Exam-Practice/Battlemanager/task/solution.js:262 | Filtering keeps the original order: the matches of `a + b` are those of `a` followed by those of `b` |
| Sequences.Sort | 06-Workshop/31-January-2017/task/solution.js:57 | Sorting gives a permutation of its input that is ordered |

## Left out

- JavaScript's dynamic typing is not modelled. Inputs are typed integers
  and strings, so these checks have no counterpart:
  - every `typeof` and `Number.isNaN` check;
  - `Number()` coercion;
  - `Validator.validateIsString` and the Media `isString` and `isNumber`
    checks;
  - course's `pres === null`;
  - pushExamResults's "Array of results expected" and "Not valid" errors.
- Battle.CheckNonNegative: omits the `num !== (num | 0)` integrality test
  and its 32-bit truncation, because mana and count are integers here. It
  also does not model the rejection of values of 2^31 and above that the
  truncation causes.
- Course.SubmitHomework: omits the `(id | 0)` integrality checks, because
  ids are integers here. It also does not model the rejection of ids of
  2^31 and above.
- Spell effects are arbitrary JavaScript closures, which cannot be
  modelled. An effect is modelled as:
  - a flag for "is a function";
  - a declared arity;
  - a list of assignments and increments to the target's damage, health,
    count and speed, each going through that stat's validating setter.
- Battle.CastOn: a missing target is reported as TargetNotFound exactly
  when the effect writes to it. An effect with no writes succeeds and is
  paid for. An effect that reads other properties of `undefined` is not
  modelled.
- Battle.AddArmyUnitTo: an unknown commander name crashes in the source
  by dereferencing `undefined`. Here it is the error CommanderNotFound.
- Battle.Battle: the source writes the new count into the caller's own
  defender record. Here the updated record is returned.
- Battle.FindArmyUnits: does not state that units equal in both speed
  and name keep their order from the flat index. JavaScript's sort is
  stable, and so is the insertion sort here, but no contract says so.
- Battle.FindArmyUnits: `localeCompare` is modelled as plain code-point
  order. This agrees with it on names made only of letters and spaces,
  apart from the locale's case ordering.
- Battle.AddCommanders: commanders are copied by value, not shared as
  objects. Registering one commander object twice gives two entries that
  the source keeps in step: a unit added through one, or a spell cast by
  it, shows in both. Here only the first entry with the name changes, so
  a later findCommanders lists the second one unchanged.
- Battle.FindCommanders: only the query fields name, alignment and mana
  are modelled.
- Media.ListPlayables: does not state the order of the page, only its
  size and that it is drawn from the playlist. The model slices the page
  from the stored order. The source sorts first. Its comparator returns
  `a.title - b.title` for different titles and `a.id - b.id` for equal
  ones, and a NaN result counts as "equal". So the source's order is:
  - the stored order, when all titles differ and none reads as a number,
    since every comparison is then "equal" and the sort is stable;
    the model agrees here;
  - ascending id, when all titles are equal; the model differs here
    unless the playables were added in id order;
  - numeric order of the titles, when every title reads as a number; the
    model differs here;
  - implementation-defined for other mixes, because the comparator is
    then inconsistent.
- Cart.GetInfo: does not state the order of the groups. The model lists
  them in order of first occurrence. The source visits `grouped` with
  `for…in`, which lists integer-like names first in ascending numeric
  order and then the others in insertion order. It then sorts with a
  comparator returning `a.name - b.name`, where NaN counts as "equal".
  - With no name reading as a number, every comparison is "equal", the
    stable sort keeps the `for…in` order, and the model agrees.
  - With integer-like names, those come first in ascending order, and the
    model differs.
  - Names that all read as numbers are sorted numerically.
  - Other mixes give an inconsistent comparator and an
    implementation-defined order.
- Cart: a product named `__proto__` or `hasOwnProperty` interacts with
  the plain object used for grouping. Such names are not modelled.
- Floating point is not modelled. Prices, exam scores, audio lengths and
  video ratings are integers.
- `getTopStudents` is not modelled: it is an empty stub.
- The `Player` class's methods are not modelled: they are all empty
  stubs.
- Media.Make: `getPlayer` is left out, because a player draws no id and
  its methods are stubs.
- Media.RemovePlayableByObject: the `default` branch of `removePlayable`
  is not modelled. It returns the playlist unchanged for any argument
  that is neither a number nor an object, and typed arguments cannot
  reach it.
- LinkedList.ToString: each value is rendered by a caller-supplied
  function, so `Array.prototype.join`'s own rendering (including that of
  `null` and `undefined`) is abstracted.
- LinkedList.Append: the fast path for one value on a non-empty list is
  the loop's last step. The model therefore computes both paths with the
  same function and proves them equal in effect. The same holds for
  LinkedList.Prepend.
- Primes.FindPrimes: the arguments are integers. Non-numeric or
  fractional bounds are not modelled, and neither is a `from` below 0
  reading `undefined` slots. Indices below 2 are never marked, so they
  are never returned either way.
- Primes.FindPrimes: memory exhaustion for a very large `to` is not
  modelled. Only the array-length range error is.
- The exact error-message text is not modelled: errors are tagged kinds.
- Strings are sequences of Unicode scalar values, while JavaScript's
  `.length` and default `sort()` work on UTF-16 code units. The two agree
  on text inside the Basic Multilingual Plane; characters outside it
  count once here and twice in the source. The lines below name each
  place where this shows.
- Media.NewPlayable: the title and author length bounds count characters,
  not UTF-16 code units. A title or author of 13 to 25 characters outside
  the Basic Multilingual Plane is accepted here and rejected by the
  source. One of 2 such characters is rejected here and accepted there.
- Media.NewPlaylist: the name length bound counts characters, not UTF-16
  code units. This has the same consequences as for playable titles.
- Battle.CheckName: the length bound counts characters, not UTF-16 code
  units. A one-character name outside the Basic Multilingual Plane gives
  InvalidNameLength here, while the source measures length 2 and reports
  INVALID_NAME_SYMBOLS. With 11 to 20 such characters, the error kinds
  swap.
- Cart.ShowProductTypes: sorts by code point, while the source's default
  `sort()` compares UTF-16 code units. The two orders differ between
  characters in U+E000 to U+FFFF and characters outside the Basic
  Multilingual Plane.

## Findings

| source | as written | input that shows it | evidently intended | confidence | as-written member | corrected member |
|---|---|---|---|---|---|---|
| 01-Functions-and-Function-Expressions/tasks/task-2.js:35-38 | The body bumps `x` before the update computes `j = iSquare + x * i`, so each pass strikes `i * i`, then `i * i + 2 * i`, `i * i + 3 * i`, …, and never `i * i + i`. For i of 3 or more that number is even and the pass of 2 strikes it, but 6 is never struck | `findPrimes(0, 10)` gives `[2, 3, 5, 6, 7]`; 6 is returned whenever `from <= 6 <= to` | Each pass strikes every multiple of i from `i * i` on, so exactly the primes are returned | not executed | Primes.SieveAsWritten, Primes.FindPrimes | Primes.Sieve, Primes.FindPrimesIntended |

=== FILE: battle.dfy ===
/** The battle manager: commanders with spellbooks and armies, army units
    with combat stats, spells whose effects write to a target unit, and a
    manager that registers them, answers exact-match queries, casts spells
    and resolves a one-sided battle.

    JavaScript object identity is modelled by ids: a commander's army holds
    the ids of its units and the manager's flat index holds the unit values,
    so a write to a unit is a write to every index entry with its id. The
    manager also owns the shared id counter, which starts at 1. */
module Battle {
  import opened Results
  import opened Strings
  import Sequences

  /** The error kinds the manager throws. */
  datatype Error =
    | InvalidNameLength
    | InvalidNameSymbols
    | InvalidMana
    | InvalidEffect
    | InvalidDamage
    | InvalidHealth
    | InvalidSpeed
    | InvalidCount
    | InvalidSpellObject
    | InvalidAlignment
    | InvalidCommander
    | UnknownCaster      // "Can't cast with non-existant commander ..."
    | UnknownSpell       // "... doesn't know ..."
    | NotEnoughMana
    | TargetNotFound     // the effect touched the missing target
    | InvalidBattleParticipant
    | CommanderNotFound  // addArmyUnitTo dereferencing a missing commander

  // ---------------------------------------------------------------- Validator

  /** Letters A-Z, a-z and the space are the only symbols a name may hold. */
  predicate IsNameSymbol(c: char) {
    ('A' <= c <= 'Z') || ('a' <= c <= 'z') || c == ' '
  }

  /** A well-formed name of a unit, commander or spell. */
  predicate ValidName(s: string) {
    2 <= |s| <= 20 && forall i :: 0 <= i < |s| ==> IsNameSymbol(s[i])
  }

  /** The search `/[^A-Za-z ]/.test(s)`. */
  function HasForeignSymbol(s: string): (r: bool)
    ensures r <==> exists i :: 0 <= i < |s| && !IsNameSymbol(s[i])
  {
    if |s| == 0 then false
    else if !IsNameSymbol(s[0]) then true
    else
      assert forall i :: 1 <= i < |s| ==> s[i] == s[1..][i - 1];
      HasForeignSymbol(s[1..])
  }

  /** Name validation: the length check runs first, then the symbol check. */
  function CheckName(s: string): (r: Option<Error>)
    ensures r.None? <==> ValidName(s)
    ensures r.Some? && (|s| < 2 || 20 < |s|) ==> r.value == InvalidNameLength
    ensures r.Some? && 2 <= |s| <= 20 ==> r.value == InvalidNameSymbols
  {
    if |s| < 2 || |s| > 20 then Some(InvalidNameLength)
    else if HasForeignSymbol(s) then Some(InvalidNameSymbols)
    else None
  }

  /** `validatePositiveInteger`: a whole number that is at least 0. */
  function CheckNonNegative(n: int, kind: Error): (r: Option<Error>)
    ensures r.None? <==> 0 <= n
    ensures r.Some? ==> r.value == kind
  {
    if n < 0 then Some(kind) else None
  }

  /** `validatePositiveIntegerBelow`: a number in `[1, bound]`. */
  function CheckBetween(n: int, bound: int, kind: Error): (r: Option<Error>)
    ensures r.None? <==> 1 <= n <= bound
    ensures r.Some? ==> r.value == kind
  {
    if n < 1 || n > bound then Some(kind) else None
  }

  // ---------------------------------------------------------------- Alignment

  datatype Alignment = Evil | Good | Neutral

  function AlignmentName(a: Alignment): string {
    match a
    case Evil => "evil"
    case Good => "good"
    case Neutral => "neutral"
  }

  predicate IsAlignmentName(s: string) {
    s == "evil" || s == "good" || s == "neutral"
  }

  /** The alignment setter: one of the three names, else `InvalidAlignment`. */
  function ParseAlignment(s: string): (r: Result<Alignment, Error>)
    ensures r.Ok? <==> IsAlignmentName(s)
    ensures r.Ok? ==> AlignmentName(r.value) == s
    ensures r.Err? ==> r.error == InvalidAlignment
  {
    if s == "evil" then Ok(Evil)
    else if s == "good" then Ok(Good)
    else if s == "neutral" then Ok(Neutral)
    else Err(InvalidAlignment)
  }

  /** Printing an alignment and parsing it back gives the same alignment. */
  lemma ParseAlignmentName(a: Alignment)
    ensures ParseAlignment(AlignmentName(a)) == Ok(a)
  {
  }

  // ---------------------------------------------------------------- Spells

  /** The unit fields an effect can write. */
  datatype Stat = Damage | Health | Count | Speed

  /** One statement of an effect body: `unit.stat = value` or `unit.stat += delta`. */
  datatype Write = Assign(stat: Stat, value: int) | Add(stat: Stat, delta: int)

  /** A spell effect: whether it is a function, its declared parameter
      count, and the writes it performs on its one argument. */
  datatype Effect = Effect(isFunction: bool, arity: int, body: seq<Write>)

  datatype Spell = Spell(name: string, manaCost: int, effect: Effect)

  predicate ValidEffect(e: Effect) {
    e.isFunction && e.arity == 1
  }

  predicate ValidSpell(s: Spell) {
    ValidEffect(s.effect) && ValidName(s.name) && 0 <= s.manaCost
  }

  /** The Spell constructor: the effect is checked first, then the name,
      then the mana cost. */
  function NewSpell(name: string, manaCost: int, effect: Effect): (r: Result<Spell, Error>)
    ensures r.Ok? <==> ValidSpell(Spell(name, manaCost, effect))
    ensures r.Ok? ==> r.value == Spell(name, manaCost, effect)
    ensures !ValidEffect(effect) ==> r == Err(InvalidEffect)
    ensures ValidEffect(effect) && !ValidName(name) ==> r == Err(CheckName(name).value)
    ensures ValidEffect(effect) && ValidName(name) && manaCost < 0 ==> r == Err(InvalidMana)
  {
    if !ValidEffect(effect) then Err(InvalidEffect)
    else if CheckName(name).Some? then Err(CheckName(name).value)
    else if CheckNonNegative(manaCost, InvalidMana).Some? then Err(InvalidMana)
    else Ok(Spell(name, manaCost, effect))
  }

  // ---------------------------------------------------------------- Army units

  /** The plain record a caller hands to `getArmyUnit` or `battle`. */
  datatype UnitConfig = UnitConfig(
    name: string, alignment: string, damage: int, health: int, count: int, speed: int)

  datatype ArmyUnit = ArmyUnit(
    id: nat, name: string, alignment: Alignment, damage: int, health: int, count: int, speed: int)

  predicate ValidStats(damage: int, health: int, count: int, speed: int) {
    1 <= damage <= 100 && 1 <= health <= 200 && 0 <= count && 1 <= speed <= 100
  }

  predicate ValidUnit(u: ArmyUnit) {
    ValidName(u.name) && ValidStats(u.damage, u.health, u.count, u.speed)
  }

  predicate ValidConfig(c: UnitConfig) {
    ValidName(c.name) && IsAlignmentName(c.alignment)
    && ValidStats(c.damage, c.health, c.count, c.speed)
  }

  /** The record a unit would be built from. */
  function ConfigOf(u: ArmyUnit): UnitConfig {
    UnitConfig(u.name, AlignmentName(u.alignment), u.damage, u.health, u.count, u.speed)
  }

  /** The outcome of a constructor that draws from the shared id counter,
      together with the counter's next value. */
  datatype Minted<T> = Minted(result: Result<T, Error>, nextId: nat)

  /** The first error of the stat setters, which run in the order damage,
      health, count, speed. */
  function StatsError(c: UnitConfig): (r: Option<Error>)
    ensures r.None? <==> ValidStats(c.damage, c.health, c.count, c.speed)
  {
    if CheckBetween(c.damage, 100, InvalidDamage).Some? then Some(InvalidDamage)
    else if CheckBetween(c.health, 200, InvalidHealth).Some? then Some(InvalidHealth)
    else if CheckNonNegative(c.count, InvalidCount).Some? then Some(InvalidCount)
    else if CheckBetween(c.speed, 100, InvalidSpeed).Some? then Some(InvalidSpeed)
    else None
  }

  /** The ArmyUnit constructor. Name and alignment are set by the base
      constructor; the id is drawn only after both pass, and before the
      stats are checked, so a unit with bad stats still uses up an id. */
  function NewArmyUnit(c: UnitConfig, next: nat): (r: Minted<ArmyUnit>)
    ensures r.result.Ok? <==> ValidConfig(c)
    ensures r.result.Ok? ==> r.result.value.id == next && ConfigOf(r.result.value) == c
    ensures r.result.Ok? ==> ValidUnit(r.result.value)
    ensures r.nextId == if ValidName(c.name) && IsAlignmentName(c.alignment) then next + 1 else next
    ensures !ValidName(c.name) ==> r.result == Err(CheckName(c.name).value)
    ensures ValidName(c.name) && !IsAlignmentName(c.alignment) ==> r.result == Err(InvalidAlignment)
    ensures ValidName(c.name) && IsAlignmentName(c.alignment) && r.result.Err? ==>
              r.result.error == StatsError(c).value
  {
    match CheckName(c.name)
    case Some(e) => Minted(Err(e), next)
    case None =>
      match ParseAlignment(c.alignment)
      case Err(e) => Minted(Err(e), next)
      case Ok(a) =>
        match StatsError(c)
        case Some(e) => Minted(Err(e), next + 1)
        case None => Minted(Ok(ArmyUnit(next, c.name, a, c.damage, c.health, c.count, c.speed)), next + 1)
  }

  /** Builds units one after another from one counter; returns the units
      that were built and the counter's final value. */
  function MintUnits(cs: seq<UnitConfig>, next: nat): (r: (seq<ArmyUnit>, nat))
    ensures next <= r.1
  {
    if |cs| == 0 then ([], next)
    else
      var m := NewArmyUnit(cs[0], next);
      var rest := MintUnits(cs[1..], m.nextId);
      (if m.result.Ok? then [m.result.value] + rest.0 else rest.0, rest.1)
  }

  /** The units built from one counter have strictly increasing ids, all at
      least the counter's start and below its final value, so no two share
      an id. */
  lemma {:induction false} MintedIdsIncrease(cs: seq<UnitConfig>, next: nat)
    ensures forall i, j :: 0 <= i < j < |MintUnits(cs, next).0| ==>
              MintUnits(cs, next).0[i].id < MintUnits(cs, next).0[j].id
    ensures forall i :: 0 <= i < |MintUnits(cs, next).0| ==>
              next <= MintUnits(cs, next).0[i].id < MintUnits(cs, next).1
  {
    if |cs| > 0 {
      var m := NewArmyUnit(cs[0], next);
      MintedIdsIncrease(cs[1..], m.nextId);
    }
  }

  // ---------------------------------------------------------------- Commanders

  datatype Commander = Commander(
    name: string, alignment: Alignment, mana: int, spellbook: seq<Spell>, army: seq<nat>)

  predicate ValidCommander(c: Commander) {
    ValidName(c.name) && 0 <= c.mana && forall i :: 0 <= i < |c.spellbook| ==> ValidSpell(c.spellbook[i])
  }

  /** The Commander constructor: name, then alignment, then mana; the
      spellbook and the army start empty. */
  function NewCommander(name: string, alignment: string, mana: int): (r: Result<Commander, Error>)
    ensures r.Ok? <==> ValidName(name) && IsAlignmentName(alignment) && 0 <= mana
    ensures r.Ok? ==> r.value.name == name && AlignmentName(r.value.alignment) == alignment
                      && r.value.mana == mana && r.value.spellbook == [] && r.value.army == []
    ensures r.Ok? ==> ValidCommander(r.value)
    ensures !ValidName(name) ==> r == Err(CheckName(name).value)
    ensures ValidName(name) && !IsAlignmentName(alignment) ==> r == Err(InvalidAlignment)
    ensures ValidName(name) && IsAlignmentName(alignment) && mana < 0 ==> r == Err(InvalidMana)
  {
    match CheckName(name)
    case Some(e) => Err(e)
    case None =>
      match ParseAlignment(alignment)
      case Err(e) => Err(e)
      case Ok(a) =>
        if CheckNonNegative(mana, InvalidMana).Some? then Err(InvalidMana)
        else Ok(Commander(name, a, mana, [], []))
  }

  // ---------------------------------------------------------------- Manager

  datatype Manager = Manager(commanders: seq<Commander>, units: seq<ArmyUnit>, nextId: nat)

  /** The outcome of a manager operation together with the manager after it. */
  datatype Step<T> = Step(out: Result<T, Error>, state: Manager)

  /** A fresh manager: nothing registered, the id counter at 1. */
  function NewManager(): Manager {
    Manager([], [], 1)
  }

  /** What every manager built from valid parts satisfies: valid commanders
      and units, and every registered id already drawn from the counter. */
  predicate ManagerValid(m: Manager) {
    && (forall i :: 0 <= i < |m.commanders| ==> ValidCommander(m.commanders[i]))
    && (forall i :: 0 <= i < |m.units| ==> ValidUnit(m.units[i]) && m.units[i].id < m.nextId)
    && 1 <= m.nextId
  }

  /** Index of the first commander with this name, or `|cs|`. */
  function CommanderIndex(cs: seq<Commander>, name: string): (k: nat)
    ensures k <= |cs|
    ensures k < |cs| ==> cs[k].name == name
    ensures forall i :: 0 <= i < k ==> cs[i].name != name
  {
    Sequences.FindIndex(cs, (x: Commander) => x.name == name)
  }

  predicate HasCommander(m: Manager, name: string) {
    exists i :: 0 <= i < |m.commanders| && m.commanders[i].name == name
  }

  /** `addCommanders`: appends the commanders; no duplicate-name check. */
  function AddCommanders(m: Manager, cs: seq<Commander>): (r: Manager)
    ensures r.commanders == m.commanders + cs
    ensures r.units == m.units && r.nextId == m.nextId
    ensures ManagerValid(m) && (forall i :: 0 <= i < |cs| ==> ValidCommander(cs[i])) ==> ManagerValid(r)
  {
    m.(commanders := m.commanders + cs)
  }

  /** `addArmyUnitTo`: appends the unit to the first commander with that
      name and to the flat index. With no such commander the source
      dereferences `undefined`; here that is `CommanderNotFound`. */
  function AddArmyUnitTo(m: Manager, name: string, u: ArmyUnit): (r: Result<Manager, Error>)
    ensures r.Err? <==> !HasCommander(m, name)
    ensures r.Err? ==> r.error == CommanderNotFound
    ensures r.Ok? ==>
              var k := CommanderIndex(m.commanders, name);
              && r.value.commanders == m.commanders[k := m.commanders[k].(army := m.commanders[k].army + [u.id])]
              && r.value.units == m.units + [u]
              && r.value.nextId == m.nextId
    ensures r.Ok? && ManagerValid(m) && ValidUnit(u) && u.id < m.nextId ==> ManagerValid(r.value)
  {
    var k := CommanderIndex(m.commanders, name);
    if k == |m.commanders| then Err(CommanderNotFound)
    else
      var c := m.commanders[k];
      Ok(m.(commanders := m.commanders[k := c.(army := c.army + [u.id])], units := m.units + [u]))
  }

  /** Re-constructs every spell-like record; any failure is reported as
      `InvalidSpellObject`, hiding its cause. */
  function RebuildSpells(spells: seq<Spell>): (r: Result<seq<Spell>, Error>)
    ensures r.Ok? <==> forall i :: 0 <= i < |spells| ==> ValidSpell(spells[i])
    ensures r.Ok? ==> r.value == spells
    ensures r.Err? ==> r.error == InvalidSpellObject
  {
    if |spells| == 0 then Ok([])
    else
      var s := spells[0];
      match NewSpell(s.name, s.manaCost, s.effect)
      case Err(_) => Err(InvalidSpellObject)
      case Ok(first) =>
        match RebuildSpells(spells[1..])
        case Err(e) => Err(e)
        case Ok(rest) =>
          assert spells == [s] + spells[1..];
          Ok([first] + rest)
  }

  /** `addSpellsTo`: fails on an unknown commander, then fails as a whole
      if any spell-like record is invalid; otherwise appends them all. */
  function AddSpellsTo(m: Manager, name: string, spells: seq<Spell>): (r: Result<Manager, Error>)
    ensures !HasCommander(m, name) ==> r == Err(InvalidCommander)
    ensures HasCommander(m, name) && (exists i :: 0 <= i < |spells| && !ValidSpell(spells[i])) ==>
              r == Err(InvalidSpellObject)
    ensures r.Ok? <==> HasCommander(m, name) && forall i :: 0 <= i < |spells| ==> ValidSpell(spells[i])
    ensures r.Ok? ==>
              var k := CommanderIndex(m.commanders, name);
              && r.value.commanders ==
                 m.commanders[k := m.commanders[k].(spellbook := m.commanders[k].spellbook + spells)]
              && r.value.units == m.units && r.value.nextId == m.nextId
    ensures r.Ok? && ManagerValid(m) ==> ManagerValid(r.value)
  {
    var k := CommanderIndex(m.commanders, name);
    if k == |m.commanders| then Err(InvalidCommander)
    else
      match RebuildSpells(spells)
      case Err(e) => Err(e)
      case Ok(valid) =>
        var c := m.commanders[k];
        var c' := c.(spellbook := c.spellbook + valid);
        assert forall i :: 0 <= i < |c'.spellbook| ==>
                 c'.spellbook[i] == if i < |c.spellbook| then c.spellbook[i] else valid[i - |c.spellbook|];
        Ok(m.(commanders := m.commanders[k := c']))
  }

  // ---------------------------------------------------------------- Queries

  /** A query names some of an entity's fields and the value each must have. */
  datatype CommanderQuery = CommanderQuery(name: Option<string>, alignment: Option<string>, mana: Option<int>)

  datatype UnitQuery = UnitQuery(
    id: Option<int>, name: Option<string>, alignment: Option<string>,
    damage: Option<int>, health: Option<int>, count: Option<int>, speed: Option<int>)

  predicate FieldMatches<T(==)>(wanted: Option<T>, actual: T) {
    wanted.Some? ==> wanted.value == actual
  }

  predicate CommanderMatches(q: CommanderQuery, c: Commander) {
    FieldMatches(q.name, c.name) && FieldMatches(q.alignment, AlignmentName(c.alignment))
    && FieldMatches(q.mana, c.mana)
  }

  predicate UnitMatches(q: UnitQuery, u: ArmyUnit) {
    FieldMatches(q.id, u.id as int) && FieldMatches(q.name, u.name)
    && FieldMatches(q.alignment, AlignmentName(u.alignment)) && FieldMatches(q.damage, u.damage)
    && FieldMatches(q.health, u.health) && FieldMatches(q.count, u.count) && FieldMatches(q.speed, u.speed)
  }

  /** `findCommanders`: every registered commander whose queried fields all
      equal the query's values; the empty query matches all. */
  function FindCommanders(m: Manager, q: CommanderQuery): (r: seq<Commander>)
    ensures forall c :: multiset(r)[c] == if CommanderMatches(q, c) then multiset(m.commanders)[c] else 0
    ensures forall c :: c in r <==> c in m.commanders && CommanderMatches(q, c)
  {
    var r := Sequences.Filter(m.commanders, c => CommanderMatches(q, c));
    assert forall c :: c in r <==> multiset(r)[c] > 0;
    r
  }

  /** `findCommanders` lists in registration order: registering more
      commanders appends their matches after the earlier ones. */
  lemma FindCommandersInOrder(m: Manager, cs: seq<Commander>, q: CommanderQuery)
    ensures FindCommanders(AddCommanders(m, cs), q) ==
              FindCommanders(m, q) + FindCommanders(AddCommanders(NewManager(), cs), q)
  {
    assert NewManager().commanders + cs == cs;
    Sequences.FilterConcat(m.commanders, cs, c => CommanderMatches(q, c));
  }

  /** Index of the first unit of the flat index with this id, or `|us|`. */
  function UnitIndex(us: seq<ArmyUnit>, id: int): (k: nat)
    ensures k <= |us|
    ensures k < |us| ==> us[k].id == id
    ensures forall i :: 0 <= i < k ==> us[i].id != id
  {
    Sequences.FindIndex(us, (x: ArmyUnit) => x.id == id)
  }

  /** `findArmyUnitById`: the first unit with that id, or nothing. */
  function FindArmyUnitById(m: Manager, id: int): (r: Option<ArmyUnit>)
    ensures r.None? <==> forall i :: 0 <= i < |m.units| ==> m.units[i].id != id
    ensures r.Some? ==> r.value in m.units && r.value.id == id
    ensures r.Some? ==> exists k :: 0 <= k < |m.units| && m.units[k] == r.value
                                    && forall i :: 0 <= i < k ==> m.units[i].id != id
  {
    var k := UnitIndex(m.units, id);
    if k == |m.units| then None else Some(m.units[k])
  }

  /** The order of `findArmyUnits`: faster units first, equal speeds by name. */
  predicate RanksBefore(a: ArmyUnit, b: ArmyUnit) {
    a.speed > b.speed || (a.speed == b.speed && StrLe(a.name, b.name))
  }

  lemma RanksBeforeTotal()
    ensures Sequences.Total(RanksBefore)
  {
    forall a: ArmyUnit, b: ArmyUnit ensures RanksBefore(a, b) || RanksBefore(b, a) {
      StrLeTotal(a.name, b.name);
    }
  }

  /** `findArmyUnits`: the matching units of the flat index, each as often
      as it is registered, sorted by speed descending and then by name. */
  function FindArmyUnits(m: Manager, q: UnitQuery): (r: seq<ArmyUnit>)
    ensures forall u :: multiset(r)[u] == if UnitMatches(q, u) then multiset(m.units)[u] else 0
    ensures forall u :: u in r <==> u in m.units && UnitMatches(q, u)
    ensures forall i :: 0 < i < |r| ==>
              r[i - 1].speed > r[i].speed || (r[i - 1].speed == r[i].speed && StrLe(r[i - 1].name, r[i].name))
  {
    var matching := Sequences.Filter(m.units, u => UnitMatches(q, u));
    RanksBeforeTotal();
    var r := Sequences.Sort(matching, RanksBefore);
    assert forall u :: u in r <==> multiset(r)[u] > 0;
    r
  }

  // ---------------------------------------------------------------- Spellcasting

  function StatOf(u: ArmyUnit, s: Stat): int {
    match s
    case Damage => u.damage
    case Health => u.health
    case Count => u.count
    case Speed => u.speed
  }

  /** The setter of one stat: each validates its value as in the constructor. */
  function SetStat(u: ArmyUnit, s: Stat, v: int): (r: Result<ArmyUnit, Error>)
    ensures r.Ok? <==> match s
                       case Damage => 1 <= v <= 100
                       case Health => 1 <= v <= 200
                       case Count => 0 <= v
                       case Speed => 1 <= v <= 100
    ensures r.Err? ==> r.error in {InvalidDamage, InvalidHealth, InvalidCount, InvalidSpeed}
    ensures r.Ok? ==> StatOf(r.value, s) == v
    ensures r.Ok? ==> forall t :: t != s ==> StatOf(r.value, t) == StatOf(u, t)
    ensures r.Ok? ==> r.value.id == u.id && r.value.name == u.name && r.value.alignment == u.alignment
    ensures r.Ok? && ValidUnit(u) ==> ValidUnit(r.value)
  {
    match s
    case Damage => if CheckBetween(v, 100, InvalidDamage).Some? then Err(InvalidDamage) else Ok(u.(damage := v))
    case Health => if CheckBetween(v, 200, InvalidHealth).Some? then Err(InvalidHealth) else Ok(u.(health := v))
    case Count => if CheckNonNegative(v, InvalidCount).Some? then Err(InvalidCount) else Ok(u.(count := v))
    case Speed => if CheckBetween(v, 100, InvalidSpeed).Some? then Err(InvalidSpeed) else Ok(u.(speed := v))
  }

  /** The target after an effect ran, and the error that stopped it, if any. */
  datatype Applied = Applied(unit: ArmyUnit, failure: Option<Error>)

  function WrittenValue(w: Write, u: ArmyUnit): int {
    match w
    case Assign(_, v) => v
    case Add(s, d) => StatOf(u, s) + d
  }

  /** Runs an effect body on a unit, one setter at a time. A setter that
      rejects its value stops the effect, and the writes before it stay. */
  function ApplyWrites(ws: seq<Write>, u: ArmyUnit): (r: Applied)
    ensures r.unit.id == u.id && r.unit.name == u.name && r.unit.alignment == u.alignment
    ensures ValidUnit(u) ==> ValidUnit(r.unit)
    ensures |ws| == 0 ==> r == Applied(u, None)
    ensures r.failure.Some? ==> r.failure.value in {InvalidDamage, InvalidHealth, InvalidCount, InvalidSpeed}
  {
    if |ws| == 0 then Applied(u, None)
    else
      match SetStat(u, ws[0].stat, WrittenValue(ws[0], u))
      case Err(e) => Applied(u, Some(e))
      case Ok(u') => ApplyWrites(ws[1..], u')
  }

  /** Running two bodies one after the other is running their
      concatenation: the second starts from where the first left the unit,
      unless the first already failed. */
  lemma {:induction false} ApplyWritesConcat(ws: seq<Write>, vs: seq<Write>, u: ArmyUnit)
    ensures ApplyWrites(ws + vs, u) ==
              var r := ApplyWrites(ws, u);
              if r.failure.Some? then r else ApplyWrites(vs, r.unit)
  {
    if |ws| == 0 {
      assert ws + vs == vs;
    } else {
      assert (ws + vs)[0] == ws[0] && (ws + vs)[1..] == ws[1..] + vs;
      match SetStat(u, ws[0].stat, WrittenValue(ws[0], u))
      case Err(e) =>
      case Ok(u') => ApplyWritesConcat(ws[1..], vs, u');
    }
  }

  /** A setter that rejects write `n` stops the effect there: the unit is
      left as the first `n` writes made it, and the setter's error is the
      effect's. */
  lemma ApplyWritesStopsAt(ws: seq<Write>, u: ArmyUnit, n: nat)
    requires n < |ws| && ApplyWrites(ws[..n], u).failure.None?
    requires var v := ApplyWrites(ws[..n], u).unit;
             SetStat(v, ws[n].stat, WrittenValue(ws[n], v)).Err?
    ensures var v := ApplyWrites(ws[..n], u).unit;
            ApplyWrites(ws, u) == Applied(v, Some(SetStat(v, ws[n].stat, WrittenValue(ws[n], v)).error))
  {
    assert ws == ws[..n] + ws[n..];
    ApplyWritesConcat(ws[..n], ws[n..], u);
  }

  /** Every entry of the flat index with this id (one object in the source)
      replaced by `v`. */
  function ReplaceUnit(us: seq<ArmyUnit>, id: nat, v: ArmyUnit): (r: seq<ArmyUnit>)
    ensures |r| == |us|
    ensures forall i :: 0 <= i < |us| ==> r[i] == if us[i].id == id then v else us[i]
  {
    seq(|us|, i requires 0 <= i < |us| => if us[i].id == id then v else us[i])
  }

  /** Index of the first spell with this name, or `|book|`. */
  function SpellIndex(book: seq<Spell>, name: string): (k: nat)
    ensures k <= |book|
    ensures k < |book| ==> book[k].name == name
    ensures forall i :: 0 <= i < k ==> book[i].name != name
  {
    Sequences.FindIndex(book, (x: Spell) => x.name == name)
  }

  /** The spell the named caster would cast, if it knows one by that name. */
  predicate KnowsSpell(m: Manager, caster: string, spell: string) {
    var k := CommanderIndex(m.commanders, caster);
    k < |m.commanders| && SpellIndex(m.commanders[k].spellbook, spell) < |m.commanders[k].spellbook|
  }

  function CastSpell(m: Manager, caster: string, spell: string): Spell
    requires KnowsSpell(m, caster, spell)
  {
    var c := m.commanders[CommanderIndex(m.commanders, caster)];
    c.spellbook[SpellIndex(c.spellbook, spell)]
  }

  function CasterMana(m: Manager, caster: string): int
    requires HasCommander(m, caster)
  {
    m.commanders[CommanderIndex(m.commanders, caster)].mana
  }

  /** What casting `s` on an existing `target` leaves: every entry with the
      target's id is the unit the effect body makes of it, and the cast
      fails exactly when a setter rejects a write, with that setter's
      error. */
  ghost predicate TargetOutcome(m: Manager, s: Spell, target: int, r: Step<()>)
    requires UnitIndex(m.units, target) < |m.units| && |r.state.units| == |m.units|
  {
    var applied := ApplyWrites(s.effect.body, m.units[UnitIndex(m.units, target)]);
    && (forall i :: 0 <= i < |m.units| && m.units[i].id == target ==> r.state.units[i] == applied.unit)
    && (r.out.Err? <==> applied.failure.Some?)
    && (r.out.Err? ==> r.out.error == applied.failure.value)
  }

  /** The part of `spellcast` after the mana check: runs the effect of `s`
      on the target, and only then deducts the cost from commander `k`. A
      missing target fails as soon as the effect touches it. */
  function CastOn(m: Manager, k: nat, s: Spell, target: int): (r: Step<()>)
    requires k < |m.commanders| && s.manaCost <= m.commanders[k].mana
    ensures r.out.Err? ==> r.out.error !in {UnknownCaster, UnknownSpell, NotEnoughMana}
    ensures r.out.Err? ==> r.state.commanders == m.commanders
    ensures r.out == Err(TargetNotFound) ==> r.state == m
    ensures r.out.Ok? ==>
              r.state.commanders == m.commanders[k := m.commanders[k].(mana := m.commanders[k].mana - s.manaCost)]
    ensures r.state.nextId == m.nextId && |r.state.units| == |m.units|
    ensures forall i :: 0 <= i < |m.units| && m.units[i].id != target ==> r.state.units[i] == m.units[i]
    ensures r.out == Err(TargetNotFound) <==> UnitIndex(m.units, target) == |m.units| && |s.effect.body| > 0
    ensures UnitIndex(m.units, target) == |m.units| && |s.effect.body| == 0 ==> r.out.Ok?
    ensures UnitIndex(m.units, target) < |m.units| ==> TargetOutcome(m, s, target, r)
    ensures ManagerValid(m) ==> ManagerValid(r.state)
  {
    var c := m.commanders[k];
    var paid := m.(commanders := m.commanders[k := c.(mana := c.mana - s.manaCost)]);
    var t := UnitIndex(m.units, target);
    if t == |m.units| then
      if |s.effect.body| == 0 then Step(Ok(()), paid) else Step(Err(TargetNotFound), m)
    else
      var applied := ApplyWrites(s.effect.body, m.units[t]);
      var units := ReplaceUnit(m.units, m.units[t].id, applied.unit);
      if applied.failure.Some? then Step(Err(applied.failure.value), m.(units := units))
      else Step(Ok(()), paid.(units := units))
  }

  /** `spellcast`: resolves the caster, the spell and the mana in that
      order, then casts. */
  function Spellcast(m: Manager, caster: string, spell: string, target: int): (r: Step<()>)
    ensures r.out == Err(UnknownCaster) <==> !HasCommander(m, caster)
    ensures HasCommander(m, caster) && !KnowsSpell(m, caster, spell) ==> r.out == Err(UnknownSpell)
    ensures KnowsSpell(m, caster, spell) ==>
              (r.out == Err(NotEnoughMana) <==> CasterMana(m, caster) < CastSpell(m, caster, spell).manaCost)
    ensures r.out.Err? ==> r.state.commanders == m.commanders
    ensures r.out.Err? && r.out.error in {UnknownCaster, UnknownSpell, NotEnoughMana, TargetNotFound} ==>
              r.state == m
    ensures r.out.Ok? ==>
              && KnowsSpell(m, caster, spell)
              && var k := CommanderIndex(m.commanders, caster);
                 var cost := CastSpell(m, caster, spell).manaCost;
                 r.state.commanders == m.commanders[k := m.commanders[k].(mana := m.commanders[k].mana - cost)]
                 && 0 <= r.state.commanders[k].mana
    ensures r.state.nextId == m.nextId && |r.state.units| == |m.units|
    ensures forall i :: 0 <= i < |m.units| && m.units[i].id != target ==> r.state.units[i] == m.units[i]
    ensures KnowsSpell(m, caster, spell) && CastSpell(m, caster, spell).manaCost <= CasterMana(m, caster) ==>
              && (r.out == Err(TargetNotFound) <==>
                    UnitIndex(m.units, target) == |m.units| && |CastSpell(m, caster, spell).effect.body| > 0)
              && (UnitIndex(m.units, target) == |m.units| && |CastSpell(m, caster, spell).effect.body| == 0 ==>
                    r.out.Ok?)
              && (UnitIndex(m.units, target) < |m.units| ==> TargetOutcome(m, CastSpell(m, caster, spell), target, r))
    ensures ManagerValid(m) ==> ManagerValid(r.state)
  {
    var k := CommanderIndex(m.commanders, caster);
    if k == |m.commanders| then Step(Err(UnknownCaster), m)
    else
      var c := m.commanders[k];
      var j := SpellIndex(c.spellbook, spell);
      if j == |c.spellbook| then Step(Err(UnknownSpell), m)
      else if c.mana < c.spellbook[j].manaCost then Step(Err(NotEnoughMana), m)
      else CastOn(m, k, c.spellbook[j], target)
  }

  // ---------------------------------------------------------------- Battle

  /** `Math.ceil(a / b)` for a positive divisor. */
  function CeilDiv(a: int, b: int): (q: int)
    requires 0 < b
    ensures (q - 1) * b < a <= q * b
  {
    var q := -((-a) / b);
    assert (-a) / b * b <= -a < ((-a) / b + 1) * b;
    q
  }

  /** The defender's count after the attack: the survivors of the
      defender's total health minus the attacker's total damage, rounded
      up and never below zero. */
  function RemainingCount(attacker: UnitConfig, defender: UnitConfig): (n: int)
    requires 0 < defender.health
    ensures 0 <= n
    ensures n * defender.health >= defender.health * defender.count - attacker.damage * attacker.count
    ensures 0 < n ==>
              (n - 1) * defender.health < defender.health * defender.count - attacker.damage * attacker.count
  {
    var remaining := CeilDiv(
      defender.health * defender.count - attacker.damage * attacker.count, defender.health);
    if remaining < 0 then 0 else remaining
  }

  lemma MulMonotone(x: int, y: int, b: int)
    requires x <= y && 0 <= b
    ensures x * b <= y * b
  {
    assert y * b - x * b == (y - x) * b;
  }

  /** The rounded-up quotient is the only `p` with `(p - 1) * b < a <= p * b`. */
  lemma CeilDivUnique(a: int, b: int, p: int)
    requires 0 < b
    requires (p - 1) * b < a <= p * b
    ensures CeilDiv(a, b) == p
  {
    var q := CeilDiv(a, b);
    if q < p {
      MulMonotone(q, p - 1, b);
    } else if q > p {
      MulMonotone(p, q - 1, b);
    }
  }

  /** The count formula read as "units lost": each whole `health` of damage
      kills one unit, so the survivors are the count minus the damage
      divided by the health, and never negative. */
  lemma RemainingCountKills(attacker: UnitConfig, defender: UnitConfig)
    requires 0 < defender.health
    ensures var killed := (attacker.damage * attacker.count) / defender.health;
            RemainingCount(attacker, defender) == if defender.count - killed < 0 then 0 else defender.count - killed
  {
    var h, c, x := defender.health, defender.count, attacker.damage * attacker.count;
    var k, rest := x / h, x % h;
    assert x == k * h + rest && 0 <= rest < h;
    var p := c - k;
    assert p * h == c * h - k * h;
    assert (p - 1) * h == c * h - k * h - h;
    assert h * c == c * h;
    CeilDivUnique(h * c - x, h, p);
  }

  /** A valid attacker never adds units to the defender. */
  lemma RemainingCountBounded(attacker: UnitConfig, defender: UnitConfig)
    requires ValidConfig(attacker) && ValidConfig(defender)
    ensures RemainingCount(attacker, defender) <= defender.count
  {
    RemainingCountKills(attacker, defender);
    var x := attacker.damage * attacker.count;
    MulMonotone(0, attacker.damage, attacker.count);
    DivNonnegative(x, defender.health);
  }

  lemma DivNonnegative(x: int, h: int)
    requires 0 <= x && 0 < h
    ensures 0 <= x / h
  {
  }

  /** `battle`: both records are validated by building throw-away units
      from them (which draws ids); any failure is `InvalidBattleParticipant`.
      The result is the caller's defender record with its new count; the
      attacker record is not changed and nothing registered is touched. */
  function Battle(m: Manager, attacker: UnitConfig, defender: UnitConfig): (r: Step<UnitConfig>)
    ensures r.out.Ok? <==> ValidConfig(attacker) && ValidConfig(defender)
    ensures r.out.Err? ==> r.out.error == InvalidBattleParticipant
    ensures r.out.Ok? ==> r.out.value == defender.(count := RemainingCount(attacker, defender))
    ensures r.state.commanders == m.commanders && r.state.units == m.units
    ensures m.nextId <= r.state.nextId <= m.nextId + 2
    ensures ManagerValid(m) ==> ManagerValid(r.state)
  {
    var a := NewArmyUnit(attacker, m.nextId);
    if a.result.Err? then Step(Err(InvalidBattleParticipant), m.(nextId := a.nextId))
    else
      var d := NewArmyUnit(defender, a.nextId);
      if d.result.Err? then Step(Err(InvalidBattleParticipant), m.(nextId := d.nextId))
      else Step(Ok(defender.(count := RemainingCount(attacker, defender))), m.(nextId := d.nextId))
  }

  /** Attacker damage 50 with 2 units against defender health 100 with 2
      units leaves the defender 1 unit. */
  lemma BattleExample()
    ensures var a := UnitConfig("Archers", "good", 50, 10, 2, 5);
            var d := UnitConfig("Knights", "evil", 10, 100, 2, 5);
            Battle(NewManager(), a, d).out == Ok(d.(count := 1))
  {
    var a := UnitConfig("Archers", "good", 50, 10, 2, 5);
    var d := UnitConfig("Knights", "evil", 10, 100, 2, 5);
    assert ValidName(a.name) && ValidName(d.name);
    assert CeilDiv(100, 100) == 1;
  }
}

=== FILE: cart.dfy ===
/** The shopping cart: products with a type, a name and a price, a cart
    that adds and removes them, totals their prices, lists the distinct
    product types in order, and groups the products by name. Prices are
    whole numbers here. */
module Cart {
  import opened Results
  import opened Strings
  import Sequences

  datatype Error = NotInCart  // "Product is not in the cart!"

  datatype Product = Product(productType: string, name: string, price: int)

  /** `getProduct`: a plain record of the three fields. */
  function GetProduct(productType: string, name: string, price: int): Product {
    Product(productType, name, price)
  }

  /** `add`: the product goes to the end of the cart. */
  function Add(cart: seq<Product>, p: Product): (r: seq<Product>)
    ensures |r| == |cart| + 1 && r[..|cart|] == cart && r[|cart|] == p
  {
    cart + [p]
  }

  /** Index of the first product equal to `p` on name, type and price, or `|cart|`. */
  function ProductIndex(cart: seq<Product>, p: Product): (k: nat)
    ensures k <= |cart|
    ensures k < |cart| ==> cart[k] == p
    ensures forall i :: 0 <= i < k ==> cart[i] != p
  {
    if |cart| == 0 then 0
    else if cart[0].name == p.name && cart[0].productType == p.productType && cart[0].price == p.price then 0
    else 1 + ProductIndex(cart[1..], p)
  }

  /** `remove`: deletes the first equal product only; with none, fails and
      the cart stays as it was. */
  function Remove(cart: seq<Product>, p: Product): (r: Result<seq<Product>, Error>)
    ensures r.Err? <==> p !in cart
    ensures r.Err? ==> r.error == NotInCart
    ensures r.Ok? ==>
              var k := ProductIndex(cart, p);
              && r.value == cart[..k] + cart[k + 1..]
              && multiset(r.value) + multiset{p} == multiset(cart)
  {
    var k := ProductIndex(cart, p);
    if |cart| == 0 || k == |cart| then Err(NotInCart)
    else
      assert cart == cart[..k] + [cart[k]] + cart[k + 1..];
      Ok(cart[..k] + cart[k + 1..])
  }

  // ---------------------------------------------------------------- Cost

  /** The sum of the prices. */
  function Sum(cart: seq<Product>): int {
    if |cart| == 0 then 0 else Sum(cart[..|cart| - 1]) + cart[|cart| - 1].price
  }

  lemma {:induction false} SumAppend(a: seq<Product>, b: seq<Product>)
    ensures Sum(a + b) == Sum(a) + Sum(b)
    decreases |b|
  {
    if |b| == 0 {
      assert a + b == a;
    } else {
      assert (a + b)[..|a + b| - 1] == a + b[..|b| - 1];
      SumAppend(a, b[..|b| - 1]);
    }
  }

  /** `showCost`: 0 for an empty cart, otherwise the prices added up in order. */
  method ShowCost(cart: seq<Product>) returns (sum: int)
    ensures sum == Sum(cart)
  {
    if |cart| == 0 {
      return 0;
    }
    sum := 0;
    var i := 0;
    while i < |cart|
      invariant 0 <= i <= |cart|
      invariant sum == Sum(cart[..i])
    {
      assert cart[..i + 1][..i] == cart[..i];
      sum := sum + cart[i].price;
      i := i + 1;
    }
    assert cart[..i] == cart;
  }

  /** A removal takes exactly the removed product's price off the cost. */
  lemma RemoveCost(cart: seq<Product>, p: Product)
    requires Remove(cart, p).Ok?
    ensures Sum(Remove(cart, p).value) == Sum(cart) - p.price
  {
    var k := ProductIndex(cart, p);
    var a, b := cart[..k], cart[k + 1..];
    assert cart == (a + [p]) + b;
    SumAppend(a + [p], b);
    SumAppend(a, [p]);
    SumAppend(a, b);
    assert [p][..0] == [];
  }

  /** Adding a product adds its price to the cost; removing it afterwards
      succeeds, takes the price off again and leaves the same products. */
  lemma AddRemoveCost(cart: seq<Product>, p: Product)
    ensures Sum(Add(cart, p)) == Sum(cart) + p.price
    ensures Remove(Add(cart, p), p).Ok?
    ensures multiset(Remove(Add(cart, p), p).value) == multiset(cart)
    ensures Sum(Remove(Add(cart, p), p).value) == Sum(cart)
  {
    var c := Add(cart, p);
    assert c[..|c| - 1] == cart;
    assert c[|cart|] == p;
    assert multiset(c) == multiset(cart) + multiset{p};
    var r := Remove(c, p);
    assert multiset(r.value) + multiset{p} == multiset(cart) + multiset{p};
    assert multiset(r.value) == multiset(cart) by {
      forall x ensures multiset(r.value)[x] == multiset(cart)[x] {
        assert (multiset(r.value) + multiset{p})[x] == (multiset(cart) + multiset{p})[x];
      }
    }
    RemoveCost(c, p);
  }

  // ---------------------------------------------------------------- Product types

  predicate NoDuplicates<T(==)>(s: seq<T>) {
    forall i, j :: 0 <= i < j < |s| ==> s[i] != s[j]
  }

  /** The types of a cart's products. */
  function ProductTypes(cart: seq<Product>): set<string> {
    set p | p in cart :: p.productType
  }

  /** The loop of `showProductTypes`: each type the first time it is seen. */
  function DistinctTypes(cart: seq<Product>): (r: seq<string>)
    ensures NoDuplicates(r)
    ensures forall t :: t in r <==> t in ProductTypes(cart)
  {
    if |cart| == 0 then []
    else
      var init := cart[..|cart| - 1];
      var d := DistinctTypes(init);
      var t := cart[|cart| - 1].productType;
      assert cart == init + [cart[|cart| - 1]];
      assert ProductTypes(cart) == ProductTypes(init) + {t};
      if t in d then d else d + [t]
  }

  lemma StrLeIsTotal()
    ensures Sequences.Total(StrLe)
  {
    forall a: string, b: string ensures StrLe(a, b) || StrLe(b, a) {
      StrLeTotal(a, b);
    }
  }

  /** Without duplicates, every value occurs at most once. */
  lemma {:induction false} NoDuplicatesCount<T>(s: seq<T>, x: T)
    requires NoDuplicates(s)
    ensures multiset(s)[x] <= 1
    decreases |s|
  {
    if |s| > 0 {
      assert s == [s[0]] + s[1..];
      assert NoDuplicates(s[1..]) by {
        forall i, j | 0 <= i < j < |s[1..]| ensures s[1..][i] != s[1..][j] {
          assert s[1..][i] == s[i + 1] && s[1..][j] == s[j + 1];
        }
      }
      NoDuplicatesCount(s[1..], x);
      if x == s[0] {
        assert x !in s[1..];
      }
    }
  }

  /** A permutation of a sequence without duplicates has none either. */
  lemma PermutationNoDuplicates<T>(d: seq<T>, r: seq<T>)
    requires NoDuplicates(d) && multiset(r) == multiset(d)
    ensures NoDuplicates(r)
  {
    forall i, j | 0 <= i < j < |r| ensures r[i] != r[j] {
      if r[i] == r[j] {
        assert r == r[..i] + [r[i]] + r[i + 1..j] + [r[j]] + r[j + 1..];
        assert multiset(r)[r[i]] >= 2;
        NoDuplicatesCount(d, r[i]);
      }
    }
  }

  /** Sorting distinct strings orders them strictly. */
  lemma SortedDistinct(d: seq<string>, r: seq<string>)
    requires NoDuplicates(d) && multiset(r) == multiset(d) && Sequences.Sorted(r, StrLe)
    ensures forall t :: t in r <==> t in d
    ensures forall i :: 0 < i < |r| ==> StrLe(r[i - 1], r[i]) && r[i - 1] != r[i]
    ensures NoDuplicates(r)
  {
    assert forall t :: t in r <==> t in multiset(d);
    PermutationNoDuplicates(d, r);
  }

  /** `showProductTypes`: every type in the cart exactly once, in ascending
      order, and nothing else. */
  function ShowProductTypes(cart: seq<Product>): (r: seq<string>)
    ensures forall t :: t in r <==> t in ProductTypes(cart)
    ensures forall i :: 0 < i < |r| ==> StrLe(r[i - 1], r[i]) && r[i - 1] != r[i]
    ensures NoDuplicates(r)
  {
    var d := DistinctTypes(cart);
    StrLeIsTotal();
    var r := Sequences.Sort(d, StrLe);
    SortedDistinct(d, r);
    r
  }

  // ---------------------------------------------------------------- Info

  /** One entry of `getInfo`: a product name, how many products carry it
      and the sum of their prices. */
  datatype Group = Group(name: string, quantity: int, totalPrice: int)

  datatype Info = Info(totalPrice: int, products: seq<Group>)

  /** How many products carry this name. */
  function CountNamed(cart: seq<Product>, name: string): nat {
    if |cart| == 0 then 0
    else CountNamed(cart[..|cart| - 1], name) + (if cart[|cart| - 1].name == name then 1 else 0)
  }

  /** The price sum of the products with this name. */
  function SumNamed(cart: seq<Product>, name: string): int {
    if |cart| == 0 then 0
    else SumNamed(cart[..|cart| - 1], name) + (if cart[|cart| - 1].name == name then cart[|cart| - 1].price else 0)
  }

  /** The names of a cart's products. */
  function ProductNames(cart: seq<Product>): set<string> {
    set p | p in cart :: p.name
  }

  /** The names of the groups. */
  function GroupNames(gs: seq<Group>): set<string> {
    set g | g in gs :: g.name
  }

  function GroupIndex(gs: seq<Group>, name: string): (k: nat)
    ensures k <= |gs|
    ensures k < |gs| ==> gs[k].name == name
    ensures k == |gs| <==> name !in GroupNames(gs)
  {
    if |gs| == 0 then 0
    else if gs[0].name == name then 0
    else
      assert gs == [gs[0]] + gs[1..];
      assert GroupNames(gs) == {gs[0].name} + GroupNames(gs[1..]);
      1 + GroupIndex(gs[1..], name)
  }

  /** One step of `group`: the product joins the group of its name, which
      is opened if there is none yet. */
  function JoinGroup(gs: seq<Group>, p: Product): seq<Group> {
    var k := GroupIndex(gs, p.name);
    if k == |gs| then gs + [Group(p.name, 1, p.price)]
    else gs[k := gs[k].(quantity := gs[k].quantity + 1, totalPrice := gs[k].totalPrice + p.price)]
  }

  /** The dropped last product counts towards its own name only. */
  lemma LastProduct(cart: seq<Product>)
    requires |cart| > 0
    ensures ProductNames(cart) == ProductNames(cart[..|cart| - 1]) + {cart[|cart| - 1].name}
  {
    assert cart == cart[..|cart| - 1] + [cart[|cart| - 1]];
  }

  /** A name no product carries counts nothing. */
  lemma {:induction false} AbsentName(cart: seq<Product>, n: string)
    requires n !in ProductNames(cart)
    ensures CountNamed(cart, n) == 0 && SumNamed(cart, n) == 0
    decreases |cart|
  {
    if |cart| > 0 {
      LastProduct(cart);
      AbsentName(cart[..|cart| - 1], n);
    }
  }

  predicate DistinctNames(gs: seq<Group>) {
    forall i, j :: 0 <= i < j < |gs| ==> gs[i].name != gs[j].name
  }

  /** Each group holds the count and price sum of its name in the cart. */
  predicate Tallies(gs: seq<Group>, cart: seq<Product>) {
    forall i :: 0 <= i < |gs| ==>
      gs[i].quantity == CountNamed(cart, gs[i].name) && gs[i].totalPrice == SumNamed(cart, gs[i].name)
  }

  /** Joining the last product keeps the groups distinct and exact. */
  lemma JoinGroupStep(cart: seq<Product>, gs: seq<Group>)
    requires |cart| > 0
    requires DistinctNames(gs) && Tallies(gs, cart[..|cart| - 1])
    requires GroupNames(gs) == ProductNames(cart[..|cart| - 1])
    ensures var r := JoinGroup(gs, cart[|cart| - 1]);
            DistinctNames(r) && Tallies(r, cart) && GroupNames(r) == ProductNames(cart)
  {
    var init := cart[..|cart| - 1];
    var p := cart[|cart| - 1];
    LastProduct(cart);
    var k := GroupIndex(gs, p.name);
    var r := JoinGroup(gs, p);
    if k == |gs| {
      AbsentName(init, p.name);
      assert r[|gs|].name == p.name;
      assert GroupNames(r) == GroupNames(gs) + {p.name};
    } else {
      assert GroupNames(r) == GroupNames(gs) by {
        forall g | g in r ensures g.name in GroupNames(gs) {
          var i :| 0 <= i < |r| && r[i] == g;
          assert gs[i].name == g.name;
        }
        forall g | g in gs ensures g.name in GroupNames(r) {
          var i :| 0 <= i < |gs| && gs[i] == g;
          assert r[i].name == g.name;
        }
      }
    }
  }

  /** `group` and the loop after it: one group per name, in the order the
      names first appear. */
  function Groups(cart: seq<Product>): (gs: seq<Group>)
    ensures DistinctNames(gs)
    ensures GroupNames(gs) == ProductNames(cart)
    ensures Tallies(gs, cart)
  {
    if |cart| == 0 then []
    else
      var gs := Groups(cart[..|cart| - 1]);
      JoinGroupStep(cart, gs);
      JoinGroup(gs, cart[|cart| - 1])
  }

  function SumQuantities(gs: seq<Group>): int {
    if |gs| == 0 then 0 else SumQuantities(gs[..|gs| - 1]) + gs[|gs| - 1].quantity
  }

  function SumTotals(gs: seq<Group>): int {
    if |gs| == 0 then 0 else SumTotals(gs[..|gs| - 1]) + gs[|gs| - 1].totalPrice
  }

  /** Changing one group by `dq` units and `dt` in price changes the sums by as much. */
  lemma {:induction false} SumsUpdate(gs: seq<Group>, k: nat, g: Group)
    requires k < |gs|
    ensures SumQuantities(gs[k := g]) == SumQuantities(gs) + g.quantity - gs[k].quantity
    ensures SumTotals(gs[k := g]) == SumTotals(gs) + g.totalPrice - gs[k].totalPrice
    decreases |gs|
  {
    var gs' := gs[k := g];
    if k < |gs| - 1 {
      assert gs'[..|gs'| - 1] == gs[..|gs| - 1][k := g];
      SumsUpdate(gs[..|gs| - 1], k, g);
    } else {
      assert gs'[..|gs'| - 1] == gs[..|gs| - 1];
    }
  }

  /** Joining a product adds one to the quantities and its price to the totals. */
  lemma JoinGroupSums(gs: seq<Group>, p: Product)
    ensures SumQuantities(JoinGroup(gs, p)) == SumQuantities(gs) + 1
    ensures SumTotals(JoinGroup(gs, p)) == SumTotals(gs) + p.price
  {
    var k := GroupIndex(gs, p.name);
    if k == |gs| {
      var r := gs + [Group(p.name, 1, p.price)];
      assert r[..|r| - 1] == gs;
    } else {
      SumsUpdate(gs, k, gs[k].(quantity := gs[k].quantity + 1, totalPrice := gs[k].totalPrice + p.price));
    }
  }

  /** The quantities add up to the number of products, and the group totals
      to the cost of the cart. */
  lemma {:induction false} GroupSums(cart: seq<Product>)
    ensures SumQuantities(Groups(cart)) == |cart|
    ensures SumTotals(Groups(cart)) == Sum(cart)
    decreases |cart|
  {
    if |cart| > 0 {
      var init := cart[..|cart| - 1];
      var p := cart[|cart| - 1];
      GroupSums(init);
      assert Groups(cart) == JoinGroup(Groups(init), p);
      JoinGroupSums(Groups(init), p);
    }
  }

  /** `getInfo`: the cost of the cart and one group per product name, with
      the number of products of that name and their price sum. */
  function GetInfo(cart: seq<Product>): (r: Info)
    ensures r.totalPrice == Sum(cart)
    ensures DistinctNames(r.products)
    ensures GroupNames(r.products) == ProductNames(cart)
    ensures Tallies(r.products, cart)
    ensures SumQuantities(r.products) == |cart|
    ensures SumTotals(r.products) == r.totalPrice
  {
    GroupSums(cart);
    Info(Sum(cart), Groups(cart))
  }
}

=== FILE: course.dfy ===
/** The course module: a course title with numbered presentations, students
    listed with sequential ids, homework submission and exam results. The
    module-level arrays of the source are the fields of a `Course` value;
    every operation takes the course and returns the next one. */
module Course {
  import opened Results
  import opened Strings

  datatype Error =
    | NoPresentations           // "The course must have at least one presentation"
    | InvalidCourseTitle
    | InvalidPresentationTitle
    | InvalidStudentName        // "The student must have a name"
    | NoSuchPresentation        // "No presentation to submit to!"
    | IdBelowOne                // "IDs cannot be less than 1"
    | NoSuchId                  // "No such ID!"
    | AlreadyScored             // "Student already has score!"
    | NoSuchStudent             // a student id the list does not hold

  datatype Presentation = Presentation(title: string, id: int)

  datatype Student = Student(id: int, name: string, submitted: seq<int>, score: Option<int>)

  datatype Course = Course(title: string, presentations: seq<Presentation>, students: seq<Student>)

  /** The state before any call: no title, no presentations, no students. */
  function NewCourse(): Course {
    Course("", [], [])
  }

  /** What the operations keep: presentation and student ids are their
      1-based positions. */
  predicate CourseValid(c: Course) {
    && (forall i :: 0 <= i < |c.presentations| ==> c.presentations[i].id == i + 1)
    && (forall i :: 0 <= i < |c.students| ==> c.students[i].id == i + 1)
  }

  // ---------------------------------------------------------------- Titles

  /** The characters JavaScript's `\s` matches. */
  predicate IsWhitespace(c: char) {
    || c == ' ' || c == '\t' || c == '\n' || c == '\r' || c == '\U{B}' || c == '\U{C}'
    || c == '\U{A0}' || c == '\U{1680}' || ('\U{2000}' <= c <= '\U{200A}')
    || c == '\U{2028}' || c == '\U{2029}' || c == '\U{202F}' || c == '\U{205F}'
    || c == '\U{3000}' || c == '\U{FEFF}'
  }

  /** A title: not empty, no whitespace at either end, no two whitespace
      characters in a row. */
  predicate ValidTitle(s: string) {
    && 0 < |s|
    && !IsWhitespace(s[0])
    && !IsWhitespace(s[|s| - 1])
    && forall i :: 0 < i < |s| ==> !(IsWhitespace(s[i - 1]) && IsWhitespace(s[i]))
  }

  /** The search for `\s{2,}`. */
  function HasDoubleWhitespace(s: string): (r: bool)
    ensures r <==> exists i :: 0 < i < |s| && IsWhitespace(s[i - 1]) && IsWhitespace(s[i])
  {
    if |s| < 2 then false
    else if IsWhitespace(s[0]) && IsWhitespace(s[1]) then true
    else
      assert forall i :: 1 <= i < |s| ==> s[i] == s[1..][i - 1];
      HasDoubleWhitespace(s[1..])
  }

  /** `/^\s|\s{2,}|\s$/.test(s) || s === ''`: the title check of `init`. */
  function TitleRejected(s: string): (r: bool)
    ensures r <==> !ValidTitle(s)
  {
    if s == [] then true
    else IsWhitespace(s[0]) || HasDoubleWhitespace(s) || IsWhitespace(s[|s| - 1])
  }

  /** The first presentation title that fails the check, or `|ts|`. */
  function FirstBadTitle(ts: seq<string>): (k: nat)
    ensures k <= |ts|
    ensures k < |ts| ==> !ValidTitle(ts[k])
    ensures forall i :: 0 <= i < k ==> ValidTitle(ts[i])
  {
    if |ts| == 0 then 0
    else if TitleRejected(ts[0]) then 0
    else 1 + FirstBadTitle(ts[1..])
  }

  /** Pushes the titles one at a time, each numbered one past the current
      number of presentations. */
  function PushPresentations(ps: seq<Presentation>, titles: seq<string>): (r: seq<Presentation>)
    decreases |titles|
    ensures |r| == |ps| + |titles|
    ensures r[..|ps|] == ps
    ensures forall i :: 0 <= i < |titles| ==> r[|ps| + i] == Presentation(titles[i], |ps| + i + 1)
  {
    if |titles| == 0 then ps
    else
      var r := PushPresentations(ps + [Presentation(titles[0], |ps| + 1)], titles[1..]);
      assert forall i :: 1 <= i < |titles| ==> titles[i] == titles[1..][i - 1];
      r
  }

  /** `init`: the presentation list must not be empty, then the course
      title and every presentation title are checked; only when all pass
      are the title set and the presentations appended, numbered on from
      the presentations already there. */
  function Init(c: Course, title: string, titles: seq<string>): (r: Result<Course, Error>)
    ensures |titles| == 0 ==> r == Err(NoPresentations)
    ensures 0 < |titles| && !ValidTitle(title) ==> r == Err(InvalidCourseTitle)
    ensures 0 < |titles| && ValidTitle(title) && (exists i :: 0 <= i < |titles| && !ValidTitle(titles[i])) ==>
              r == Err(InvalidPresentationTitle)
    ensures r.Ok? <==> 0 < |titles| && ValidTitle(title) && forall i :: 0 <= i < |titles| ==> ValidTitle(titles[i])
    ensures r.Ok? ==>
              var old_ := c.presentations;
              var new_ := r.value.presentations;
              && r.value.title == title
              && r.value.students == c.students
              && |new_| == |old_| + |titles|
              && new_[..|old_|] == old_
              && forall i :: 0 <= i < |titles| ==> new_[|old_| + i] == Presentation(titles[i], |old_| + i + 1)
    ensures r.Ok? && CourseValid(c) ==> CourseValid(r.value)
  {
    if |titles| == 0 then Err(NoPresentations)
    else if TitleRejected(title) then Err(InvalidCourseTitle)
    else if FirstBadTitle(titles) < |titles| then Err(InvalidPresentationTitle)
    else
      var ps := PushPresentations(c.presentations, titles);
      assert forall i :: 0 <= i < |c.presentations| ==> ps[i] == ps[..|c.presentations|][i];
      assert CourseValid(c) ==> forall i :: 0 <= i < |ps| ==> ps[i].id == i + 1 by {
        var n := |c.presentations|;
        forall i | 0 <= i < |ps| && CourseValid(c) ensures ps[i].id == i + 1 {
          if i < n {
            assert ps[i] == c.presentations[i];
          } else {
            assert ps[n + (i - n)] == Presentation(titles[i - n], n + (i - n) + 1);
          }
        }
      }
      Ok(c.(title := title, presentations := ps))
  }

  // ---------------------------------------------------------------- Students

  predicate IsUpper(c: char) {
    'A' <= c <= 'Z'
  }

  predicate IsLower(c: char) {
    'a' <= c <= 'z'
  }

  /** `s` is `First Last`, the space at index `k`: an upper-case letter and
      at least one lower-case letter, a space, an upper-case letter and any
      number of lower-case letters. */
  predicate NameShape(s: string, k: int) {
    && 2 <= k < |s| - 1
    && IsUpper(s[0])
    && (forall i :: 1 <= i < k ==> IsLower(s[i]))
    && s[k] == ' '
    && IsUpper(s[k + 1])
    && (forall i :: k + 1 < i < |s| ==> IsLower(s[i]))
  }

  /** The end of the run of lower-case letters that starts at `i`. */
  function LowerRunEnd(s: string, i: nat): (j: nat)
    requires i <= |s|
    ensures i <= j <= |s|
    ensures forall t :: i <= t < j ==> IsLower(s[t])
    ensures j < |s| ==> !IsLower(s[j])
    decreases |s| - i
  {
    if i == |s| || !IsLower(s[i]) then i else LowerRunEnd(s, i + 1)
  }

  /** `/^[A-Z][a-z]+ [A-Z][a-z]*$/.test(s)`, scanning left to right. */
  predicate MatchesStudentName(s: string) {
    && 1 <= |s|
    && IsUpper(s[0])
    && var k := LowerRunEnd(s, 1);
       && 2 <= k < |s| - 1
       && s[k] == ' '
       && IsUpper(s[k + 1])
       && LowerRunEnd(s, k + 2) == |s|
  }

  /** The scan accepts exactly the names of the shape `First Last`. */
  lemma MatchesStudentNameShape(s: string)
    ensures MatchesStudentName(s) <==> exists k :: NameShape(s, k)
  {
    if MatchesStudentName(s) {
      assert NameShape(s, LowerRunEnd(s, 1));
    }
    if k :| NameShape(s, k) {
      assert LowerRunEnd(s, 1) == k;
    }
  }

  /** `addStudent`: a name of the shape `First Last` is listed with the
      next id, which is returned; the ids run 1, 2, 3, ... */
  function AddStudent(c: Course, name: string): (r: Result<(Course, int), Error>)
    ensures r.Ok? <==> exists k :: NameShape(name, k)
    ensures r.Err? ==> r.error == InvalidStudentName
    ensures r.Ok? ==>
              && r.value.1 == |c.students| + 1
              && r.value.0 == c.(students := c.students + [Student(r.value.1, name, [], None)])
    ensures r.Ok? && CourseValid(c) ==> CourseValid(r.value.0)
  {
    MatchesStudentNameShape(name);
    if !MatchesStudentName(name) then Err(InvalidStudentName)
    else
      var id := |c.students| + 1;
      Ok((c.(students := c.students + [Student(id, name, [], None)]), id))
  }

  /** One entry of `getAllStudents`; `lastname` is absent when the name has
      no second part. */
  datatype StudentRecord = StudentRecord(firstname: string, lastname: Option<string>, id: int)

  function RecordOf(s: Student): StudentRecord {
    var names := Split(s.name, ' ');
    StudentRecord(names[0], if 1 < |names| then Some(names[1]) else None, s.id)
  }

  /** A name of the shape `First Last` splits at its one space. */
  lemma SplitStudentName(s: string, k: int)
    requires NameShape(s, k)
    ensures Split(s, ' ') == [s[..k], s[k + 1..]]
  {
    var parts := [s[..k], s[k + 1..]];
    assert ' ' !in parts[0] by {
      forall i | 0 <= i < k ensures s[..k][i] != ' ' {
        assert s[..k][i] == s[i];
        assert i == 0 || IsLower(s[i]);
      }
    }
    assert ' ' !in parts[1] by {
      forall i | k + 1 <= i < |s| ensures s[i] != ' ' {
        assert i == k + 1 || IsLower(s[i]);
      }
    }
    assert Join(parts, [' ']) == s[..k] + [' '] + s[k + 1..] == s;
    SplitJoin(parts, ' ');
  }

  /** `getAllStudents`: one record per student in listing order; for a name
      `First Last` the record holds `First` and `Last`, which put back
      together with a space give the name. */
  function GetAllStudents(c: Course): (r: seq<StudentRecord>)
    ensures |r| == |c.students|
    ensures forall i :: 0 <= i < |r| ==> r[i].id == c.students[i].id
    ensures forall i, k :: 0 <= i < |r| && NameShape(c.students[i].name, k) ==>
              && r[i].lastname.Some?
              && r[i].firstname + " " + r[i].lastname.value == c.students[i].name
              && r[i].firstname == c.students[i].name[..k]
  {
    var r := seq(|c.students|, i requires 0 <= i < |c.students| => RecordOf(c.students[i]));
    forall i, k | 0 <= i < |r| && NameShape(c.students[i].name, k)
      ensures r[i].lastname.Some? && r[i].firstname + " " + r[i].lastname.value == c.students[i].name
      ensures r[i].firstname == c.students[i].name[..k]
    {
      var s := c.students[i].name;
      SplitStudentName(s, k);
      assert s == s[..k] + " " + s[k + 1..];
    }
    r
  }

  /** Index of the first student with this id, or `|ss|`. */
  function StudentIndex(ss: seq<Student>, id: int): (k: nat)
    ensures k <= |ss|
    ensures k < |ss| ==> ss[k].id == id
    ensures forall i :: 0 <= i < k ==> ss[i].id != id
  {
    if |ss| == 0 then 0
    else if ss[0].id == id then 0
    else 1 + StudentIndex(ss[1..], id)
  }

  /** In a valid course a student id in range is found at its position. */
  lemma StudentIndexOfValid(c: Course, id: int)
    requires CourseValid(c) && 1 <= id <= |c.students|
    ensures StudentIndex(c.students, id) == id - 1
  {
    assert c.students[id - 1].id == id;
  }

  /** `submitHomework`: the homework id is checked against the number of
      presentations, then both ids against 1, then the student id against
      the number of students; on success only that student's list of
      submitted homework grows, by the homework id. */
  function SubmitHomework(c: Course, studentId: int, homeworkId: int): (r: Result<Course, Error>)
    ensures homeworkId > |c.presentations| ==> r == Err(NoSuchPresentation)
    ensures homeworkId <= |c.presentations| && (studentId < 1 || homeworkId < 1) ==> r == Err(IdBelowOne)
    ensures 1 <= homeworkId <= |c.presentations| && studentId > |c.students| ==> r == Err(NoSuchId)
    ensures CourseValid(c) ==>
              (r.Ok? <==> 1 <= studentId <= |c.students| && 1 <= homeworkId <= |c.presentations|)
    ensures CourseValid(c) && r.Ok? ==>
              var s := c.students[studentId - 1];
              r.value == c.(students := c.students[studentId - 1 := s.(submitted := s.submitted + [homeworkId])])
    ensures r.Ok? && CourseValid(c) ==> CourseValid(r.value)
  {
    if homeworkId > |c.presentations| then Err(NoSuchPresentation)
    else if studentId < 1 || homeworkId < 1 then Err(IdBelowOne)
    else if studentId > |c.students| then Err(NoSuchId)
    else
      var k := StudentIndex(c.students, studentId);
      assert CourseValid(c) ==> k == studentId - 1 by {
        if CourseValid(c) { StudentIndexOfValid(c, studentId); }
      }
      if k == |c.students| then Err(NoSuchStudent)
      else
        var s := c.students[k];
        Ok(c.(students := c.students[k := s.(submitted := s.submitted + [homeworkId])]))
  }

  // ---------------------------------------------------------------- Exam results

  datatype ExamResult = ExamResult(studentId: int, score: int)

  /** The course after pushing results, and the error that stopped it, if any. */
  datatype Pushed = Pushed(course: Course, failure: Option<Error>)

  /** Student `k` gets the score; nothing else changes. */
  function WriteScore(c: Course, k: nat, score: int): (r: Course)
    requires k < |c.students|
    ensures CourseValid(c) ==> CourseValid(r)
  {
    c.(students := c.students[k := c.students[k].(score := Some(score))])
  }

  /** The loop of `pushExamResults`: each item is checked and written in
      turn, so a rejected item leaves the earlier scores written. `seen`
      holds the ids already scored by this call. */
  function PushFrom(c: Course, rs: seq<ExamResult>, seen: seq<int>): (r: Pushed)
    decreases |rs|
    ensures r.course.title == c.title && r.course.presentations == c.presentations
    ensures |r.course.students| == |c.students|
    ensures forall i :: 0 <= i < |c.students| ==>
              r.course.students[i] == c.students[i].(score := r.course.students[i].score)
  {
    if |rs| == 0 then Pushed(c, None)
    else
      var id := rs[0].studentId;
      if id > |c.students| || id < 1 then Pushed(c, Some(NoSuchId))
      else if id in seen then Pushed(c, Some(AlreadyScored))
      else
        var k := StudentIndex(c.students, id);
        if k == |c.students| then Pushed(c, Some(NoSuchStudent))
        else PushFrom(WriteScore(c, k, rs[0].score), rs[1..], seen + [id])
  }

  /** `pushExamResults`. */
  function PushExamResults(c: Course, rs: seq<ExamResult>): (r: Pushed)
    ensures r.course.title == c.title && r.course.presentations == c.presentations
    ensures |r.course.students| == |c.students|
    ensures forall i :: 0 <= i < |c.students| ==>
              r.course.students[i] == c.students[i].(score := r.course.students[i].score)
  {
    PushFrom(c, rs, [])
  }

  /** Item `j` is rejected: its id is out of range or an earlier item (or
      one already in `seen`) has the same id. */
  predicate Rejected(n: int, rs: seq<ExamResult>, seen: seq<int>, j: int)
    requires 0 <= j < |rs|
  {
    var id := rs[j].studentId;
    id < 1 || n < id || id in seen || exists i :: 0 <= i < j && rs[i].studentId == id
  }

  /** The index of the first rejected item, or `|rs|`. */
  function FirstRejected(n: int, rs: seq<ExamResult>, seen: seq<int>): (f: nat)
    ensures f <= |rs|
    ensures f < |rs| ==> Rejected(n, rs, seen, f)
    ensures forall j :: 0 <= j < f ==> !Rejected(n, rs, seen, j)
  {
    if |rs| == 0 then 0
    else if Rejected(n, rs, seen, 0) then 0
    else
      var f := 1 + FirstRejected(n, rs[1..], seen + [rs[0].studentId]);
      assert forall j :: 0 <= j < f ==> !Rejected(n, rs, seen, j) by {
        forall j | 0 <= j < f ensures !Rejected(n, rs, seen, j) {
          if 0 < j {
            assert !Rejected(n, rs[1..], seen + [rs[0].studentId], j - 1);
            assert forall i :: 1 <= i < j ==> rs[i] == rs[1..][i - 1];
          }
        }
      }
      assert f < |rs| ==> Rejected(n, rs, seen, f) by {
        if f < |rs| {
          assert Rejected(n, rs[1..], seen + [rs[0].studentId], f - 1);
          assert rs[f] == rs[1..][f - 1];
          assert forall i :: 1 <= i < f ==> rs[i] == rs[1..][i - 1];
        }
      }
      f
  }

  /** One accepted item: in a valid course it is written at its position
      and the loop goes on with the rest. */
  lemma PushFromAccepted(c: Course, rs: seq<ExamResult>, seen: seq<int>)
    requires CourseValid(c) && 0 < |rs|
    requires 1 <= rs[0].studentId <= |c.students| && rs[0].studentId !in seen
    ensures CourseValid(WriteScore(c, rs[0].studentId - 1, rs[0].score))
    ensures PushFrom(c, rs, seen) ==
            PushFrom(WriteScore(c, rs[0].studentId - 1, rs[0].score), rs[1..], seen + [rs[0].studentId])
  {
    StudentIndexOfValid(c, rs[0].studentId);
  }

  /** In a valid course, pushing stops exactly at the first rejected item,
      with the items before it written as if they had been pushed alone. */
  lemma {:induction false} PushFromStopsAtFirstRejected(c: Course, rs: seq<ExamResult>, seen: seq<int>)
    decreases |rs|
    requires CourseValid(c)
    ensures var f := FirstRejected(|c.students|, rs, seen);
            && (PushFrom(c, rs, seen).failure.None? <==> f == |rs|)
            && PushFrom(c, rs[..f], seen).failure.None?
            && PushFrom(c, rs, seen).course == PushFrom(c, rs[..f], seen).course
  {
    var n := |c.students|;
    var f := FirstRejected(n, rs, seen);
    if |rs| == 0 {
    } else if f == 0 {
      assert rs[..0] == [];
      assert Rejected(n, rs, seen, 0);
    } else {
      var id := rs[0].studentId;
      var seen' := seen + [id];
      PushFromAccepted(c, rs, seen);
      var c' := WriteScore(c, id - 1, rs[0].score);
      assert f == 1 + FirstRejected(n, rs[1..], seen');
      PushFromStopsAtFirstRejected(c', rs[1..], seen');
      var pre := rs[..f];
      assert pre[0] == rs[0] && pre[1..] == rs[1..][..f - 1];
      PushFromAccepted(c, pre, seen);
    }
  }

  /** The non-atomic behaviour of `pushExamResults`: it fails exactly when
      some item is rejected, and the scores of the items before the first
      rejected one stay written. */
  lemma PushExamResultsPrefix(c: Course, rs: seq<ExamResult>)
    requires CourseValid(c)
    ensures var f := FirstRejected(|c.students|, rs, []);
            && (PushExamResults(c, rs).failure.None? <==> f == |rs|)
            && PushExamResults(c, rs[..f]).failure.None?
            && PushExamResults(c, rs).course == PushExamResults(c, rs[..f]).course
  {
    PushFromStopsAtFirstRejected(c, rs, []);
  }

  /** The first item of a successful push was accepted and written, and
      the rest of the push went on from there. */
  lemma PushFromHeadAccepted(c: Course, rs: seq<ExamResult>, seen: seq<int>)
    requires CourseValid(c) && 0 < |rs|
    requires PushFrom(c, rs, seen).failure.None?
    ensures 1 <= rs[0].studentId <= |c.students| && rs[0].studentId !in seen
    ensures CourseValid(WriteScore(c, rs[0].studentId - 1, rs[0].score))
    ensures PushFrom(c, rs, seen) ==
            PushFrom(WriteScore(c, rs[0].studentId - 1, rs[0].score), rs[1..], seen + [rs[0].studentId])
  {
    PushFromAccepted(c, rs, seen);
  }

  /** After a successful push each listed student holds the score of its item. */
  ghost predicate ScoresWritten(n: int, rs: seq<ExamResult>, r: Course) {
    forall j :: 0 <= j < |rs| ==>
      1 <= rs[j].studentId <= n && rs[j].studentId <= |r.students|
      && r.students[rs[j].studentId - 1].score == Some(rs[j].score)
  }

  /** Accepted items are written: after a successful push each listed
      student holds the score of its item. */
  lemma PushFromScores(c: Course, rs: seq<ExamResult>, seen: seq<int>)
    requires CourseValid(c)
    requires PushFrom(c, rs, seen).failure.None?
    ensures forall j :: 0 <= j < |rs| ==>
              1 <= rs[j].studentId <= |c.students|
              && PushFrom(c, rs, seen).course.students[rs[j].studentId - 1].score == Some(rs[j].score)
  {
    PushFromWritten(c, rs, seen);
  }

  /** The induction behind `PushFromScores`. */
  lemma {:induction false} PushFromWritten(c: Course, rs: seq<ExamResult>, seen: seq<int>)
    decreases |rs|
    requires CourseValid(c)
    requires PushFrom(c, rs, seen).failure.None?
    ensures ScoresWritten(|c.students|, rs, PushFrom(c, rs, seen).course)
  {
    if |rs| > 0 {
      var id := rs[0].studentId;
      PushFromHeadAccepted(c, rs, seen);
      var c' := WriteScore(c, id - 1, rs[0].score);
      PushFromWritten(c', rs[1..], seen + [id]);
      PushFromSeenUntouched(c', rs[1..], seen + [id], id);
      ScoresStep(|c.students|, rs, PushFrom(c', rs[1..], seen + [id]).course);
    }
  }

  /** The step of `PushFromScores`: the first item stays written, and the
      rest are written by the remaining loop. */
  lemma ScoresStep(n: int, rs: seq<ExamResult>, r: Course)
    requires 0 < |rs| && 1 <= rs[0].studentId <= n && |r.students| == n
    requires r.students[rs[0].studentId - 1].score == Some(rs[0].score)
    requires ScoresWritten(n, rs[1..], r)
    ensures ScoresWritten(n, rs, r)
  {
    forall j | 0 < j < |rs|
      ensures 1 <= rs[j].studentId <= n && r.students[rs[j].studentId - 1].score == Some(rs[j].score)
    {
      ScoreAt(n, rs[1..], r, j - 1);
      assert rs[j] == rs[1..][j - 1];
    }
  }

  lemma ScoreAt(n: int, rs: seq<ExamResult>, r: Course, j: nat)
    requires ScoresWritten(n, rs, r) && j < |rs|
    ensures 1 <= rs[j].studentId <= n && rs[j].studentId <= |r.students|
    ensures r.students[rs[j].studentId - 1].score == Some(rs[j].score)
  {
  }

  /** After a successful push every student not listed keeps its old record. */
  lemma {:induction false} PushFromKeeps(c: Course, rs: seq<ExamResult>, seen: seq<int>)
    decreases |rs|
    requires CourseValid(c)
    requires PushFrom(c, rs, seen).failure.None?
    ensures forall i :: 0 <= i < |c.students| && (forall j :: 0 <= j < |rs| ==> rs[j].studentId != i + 1) ==>
              PushFrom(c, rs, seen).course.students[i] == c.students[i]
  {
    if |rs| > 0 {
      var id := rs[0].studentId;
      PushFromHeadAccepted(c, rs, seen);
      var c' := WriteScore(c, id - 1, rs[0].score);
      PushFromKeeps(c', rs[1..], seen + [id]);
      assert forall j :: 1 <= j < |rs| ==> rs[j] == rs[1..][j - 1];
    }
  }

  /** An id already in `seen` is never written again. */
  lemma {:induction false} PushFromSeenUntouched(c: Course, rs: seq<ExamResult>, seen: seq<int>, id: int)
    decreases |rs|
    requires CourseValid(c)
    requires id in seen && 1 <= id <= |c.students|
    requires PushFrom(c, rs, seen).failure.None?
    ensures PushFrom(c, rs, seen).course.students[id - 1] == c.students[id - 1]
  {
    if |rs| > 0 {
      var x := rs[0].studentId;
      PushFromHeadAccepted(c, rs, seen);
      PushFromSeenUntouched(WriteScore(c, x - 1, rs[0].score), rs[1..], seen + [x], id);
    }
  }
}

=== FILE: linkedlist.dfy ===
/** The doubly linked list class: nodes with a value and `previous`/`next`
    links, a head, a tail and a length. The heap is an arena of nodes; a
    link is an index into it, and `Null` stands for `null`. Operations that
    would dereference `null` in the class end in `Err(NullDereference)`. */
module LinkedList {
  import opened Results
  import Strings

  datatype Error = NullDereference  // a TypeError from reading a field of `null`

  const Null := -1

  datatype Node<T> = Node(value: T, previous: int, next: int)

  datatype List<T> = List(nodes: seq<Node<T>>, head: int, tail: int, length: int)

  /** `order` lists the arena indices of the list's nodes from head to tail,
      and every link agrees with it. */
  ghost predicate ValidWith<T>(l: List<T>, order: seq<int>) {
    && |order| == l.length
    && (forall k :: 0 <= k < |order| ==> 0 <= order[k] < |l.nodes|)
    && (forall a, b :: 0 <= a < b < |order| ==> order[a] != order[b])
    && (|order| == 0 ==> l.head == Null && l.tail == Null)
    && (|order| > 0 ==> l.head == order[0] && l.tail == order[|order| - 1])
    && (forall k :: 0 <= k < |order| ==> LinkedAt(l.nodes, order, k))
  }

  /** The node at position `k` links back to position `k - 1` and on to
      position `k + 1`, with `Null` past either end. */
  ghost predicate LinkedAt<T>(nodes: seq<Node<T>>, order: seq<int>, k: int)
    requires 0 <= k < |order| && 0 <= order[k] < |nodes|
  {
    && nodes[order[k]].next == (if k + 1 < |order| then order[k + 1] else Null)
    && nodes[order[k]].previous == (if k > 0 then order[k - 1] else Null)
  }

  /** The list is well linked. */
  ghost predicate Valid<T>(l: List<T>) {
    exists order :: ValidWith(l, order)
  }

  /** The nodes reached from `cur` by following `next` at most `n` times. */
  function Walk<T>(nodes: seq<Node<T>>, cur: int, n: nat): (w: seq<int>)
    ensures |w| <= n
    ensures forall k :: 0 <= k < |w| ==> 0 <= w[k] < |nodes|
    decreases n
  {
    if n == 0 || !(0 <= cur < |nodes|) then []
    else [cur] + Walk(nodes, nodes[cur].next, n - 1)
  }

  /** The nodes of the list, head first. */
  function Refs<T>(l: List<T>): seq<int> {
    if l.length < 0 then [] else Walk(l.nodes, l.head, l.length)
  }

  /** The values of the listed nodes, in order. */
  function ValuesAt<T>(nodes: seq<Node<T>>, order: seq<int>): (vs: seq<T>)
    requires forall k :: 0 <= k < |order| ==> 0 <= order[k] < |nodes|
    ensures |vs| == |order|
    ensures forall k :: 0 <= k < |order| ==> vs[k] == nodes[order[k]].value
  {
    seq(|order|, k requires 0 <= k < |order| => nodes[order[k]].value)
  }

  /** The values of the list, head first: what iterating over it yields. */
  function Items<T>(l: List<T>): seq<T> {
    ValuesAt(l.nodes, Refs(l))
  }

  /** Following the links from the head retraces the order. */
  lemma WalkOrder<T>(l: List<T>, order: seq<int>)
    requires ValidWith(l, order)
    ensures Refs(l) == order
  {
    if |order| > 0 {
      WalkFrom(l, order, 0);
    }
  }

  lemma {:induction false} WalkFrom<T>(l: List<T>, order: seq<int>, i: nat)
    requires ValidWith(l, order) && i < |order|
    ensures Walk(l.nodes, order[i], |order| - i) == order[i..]
    decreases |order| - i
  {
    LinksAt(l, order, i);
    if i + 1 < |order| {
      WalkFrom(l, order, i + 1);
      assert order[i..] == [order[i]] + order[i + 1..];
    } else {
      assert Walk(l.nodes, l.nodes[order[i]].next, 0) == [];
    }
  }

  /** `ValuesAt` is fixed by its entries. */
  lemma ValuesPointwise<T>(nodes: seq<Node<T>>, order: seq<int>, ws: seq<T>)
    requires forall k :: 0 <= k < |order| ==> 0 <= order[k] < |nodes|
    requires |ws| == |order| && forall k :: 0 <= k < |order| ==> ws[k] == nodes[order[k]].value
    ensures ValuesAt(nodes, order) == ws
  {
  }

  /** The values of a valid list are those along its order. */
  lemma ItemsWith<T>(l: List<T>, order: seq<int>)
    requires ValidWith(l, order)
    ensures Items(l) == ValuesAt(l.nodes, order)
    ensures |Items(l)| == l.length
  {
    WalkOrder(l, order);
  }

  /** Following `next` from each node of `order` reaches the next one, and
      `Null` after the last. */
  ghost predicate NextChain<T>(nodes: seq<Node<T>>, order: seq<int>) {
    forall k :: 0 <= k < |order| ==>
      0 <= order[k] < |nodes| && nodes[order[k]].next == (if k + 1 < |order| then order[k + 1] else Null)
  }

  lemma NextLinks<T>(l: List<T>, order: seq<int>)
    requires ValidWith(l, order)
    ensures NextChain(l.nodes, order)
  {
    forall k | 0 <= k < |order|
      ensures 0 <= order[k] < |l.nodes| && l.nodes[order[k]].next == (if k + 1 < |order| then order[k + 1] else Null)
    {
      LinksAt(l, order, k);
    }
  }

  lemma NextOf<T>(nodes: seq<Node<T>>, order: seq<int>, k: nat)
    requires NextChain(nodes, order) && k < |order|
    ensures 0 <= order[k] < |nodes| && nodes[order[k]].next == (if k + 1 < |order| then order[k + 1] else Null)
  {
  }

  /** The parts of `ValidWith` for a non-empty order. */
  lemma Assembled<T>(l: List<T>, order: seq<int>)
    requires |order| == l.length && |order| > 0
    requires forall k :: 0 <= k < |order| ==> 0 <= order[k] < |l.nodes| && LinkedAt(l.nodes, order, k)
    requires forall a, b :: 0 <= a < b < |order| ==> order[a] != order[b]
    requires l.head == order[0] && l.tail == order[|order| - 1]
    ensures ValidWith(l, order)
  {
  }

  /** The links of the node at position `k` of a valid order. */
  lemma LinksAt<T>(l: List<T>, order: seq<int>, k: nat)
    requires ValidWith(l, order) && k < |order|
    ensures 0 <= order[k] < |l.nodes|
    ensures l.nodes[order[k]].next == (if k + 1 < |order| then order[k + 1] else Null)
    ensures l.nodes[order[k]].previous == (if k > 0 then order[k - 1] else Null)
  {
    assert LinkedAt(l.nodes, order, k);
  }

  // ---------------------------------------------------------------- One node

  /** The constructor: no nodes, `null` head and tail, length 0. */
  function Empty<T>(): (l: List<T>)
    ensures Valid(l) && Items(l) == []
  {
    var l := List([], Null, Null, 0);
    assert ValidWith(l, []);
    l
  }

  /** A list holding a fresh single node, used when the list is empty. */
  function First1<T>(l: List<T>, v: T): List<T> {
    List(l.nodes + [Node(v, Null, Null)], |l.nodes|, |l.nodes|, 1)
  }

  /** `appendValue`: a fresh node after the tail. */
  function LinkLast<T>(l: List<T>, v: T): List<T>
    requires 0 <= l.tail < |l.nodes|
  {
    var n := |l.nodes|;
    List(l.nodes[l.tail := l.nodes[l.tail].(next := n)] + [Node(v, l.tail, Null)], l.head, n, l.length + 1)
  }

  /** `prependValue`: a fresh node before the head. */
  function LinkFirst<T>(l: List<T>, v: T): List<T>
    requires 0 <= l.head < |l.nodes|
  {
    var n := |l.nodes|;
    List(l.nodes[l.head := l.nodes[l.head].(previous := n)] + [Node(v, Null, l.head)], n, l.tail, l.length + 1)
  }

  /** One step of the loop in `insert`: a fresh node between `before` and `node`. */
  function LinkBetween<T>(l: List<T>, before: int, node: int, v: T): List<T>
    requires 0 <= before < |l.nodes| && 0 <= node < |l.nodes|
  {
    var n := |l.nodes|;
    var nodes := l.nodes[before := l.nodes[before].(next := n)];
    var nodes := nodes[node := nodes[node].(previous := n)];
    List(nodes + [Node(v, before, node)], l.head, l.tail, l.length + 1)
  }

  /** `s` with `x` put at position `i`. */
  function Inserted<X>(s: seq<X>, i: nat, x: X): (o: seq<X>)
    requires i <= |s|
    ensures |o| == |s| + 1
    ensures forall k :: 0 <= k < |o| ==> o[k] == if k < i then s[k] else if k == i then x else s[k - 1]
  {
    s[..i] + [x] + s[i..]
  }

  lemma InsertedEnds<X>(s: seq<X>, x: X)
    ensures Inserted(s, 0, x) == [x] + s
    ensures Inserted(s, |s|, x) == s + [x]
  {
    assert s[..0] == [] && s[0..] == s;
    assert s[..|s|] == s && s[|s|..] == [];
  }

  /** Inserting a value missing from a sequence without duplicates keeps
      it without duplicates. */
  lemma InsertDistinct(order: seq<int>, i: nat, x: int)
    requires i <= |order| && x !in order
    requires forall a, b :: 0 <= a < b < |order| ==> order[a] != order[b]
    ensures var o' := Inserted(order, i, x);
            forall a, b :: 0 <= a < b < |o'| ==> o'[a] != o'[b]
  {
    var o' := Inserted(order, i, x);
    forall a, b | 0 <= a < b < |o'| ensures o'[a] != o'[b] {
      if a != i && b != i {
        var a', b' := if a < i then a else a - 1, if b < i then b else b - 1;
        assert o'[a] == order[a'] && o'[b] == order[b'];
      }
    }
  }

  /** When the old nodes keep their values and the fresh node at position
      `i` holds `v`, the values are the old ones with `v` inserted. */
  lemma InsertedValues<T>(nodes: seq<Node<T>>, nodes': seq<Node<T>>, order: seq<int>, i: nat, v: T)
    requires i <= |order| && forall k :: 0 <= k < |order| ==> 0 <= order[k] < |nodes|
    requires |nodes'| == |nodes| + 1
    requires var o' := Inserted(order, i, |nodes|);
             forall k :: 0 <= k < |o'| ==> nodes'[o'[k]].value == if k == i then v else nodes[o'[k]].value
    ensures ValuesAt(nodes', Inserted(order, i, |nodes|)) == Inserted(ValuesAt(nodes, order), i, v)
  {
    var o' := Inserted(order, i, |nodes|);
    var ws := Inserted(ValuesAt(nodes, order), i, v);
    forall k | 0 <= k < |o'| ensures ws[k] == nodes'[o'[k]].value {
      if k != i {
        assert o'[k] == order[if k < i then k else k - 1];
      }
    }
    ValuesPointwise(nodes', o', ws);
  }

  lemma FirstValid<T>(l: List<T>, v: T)
    requires ValidWith(l, [])
    ensures ValidWith(First1(l, v), [|l.nodes|])
    ensures ValuesAt(First1(l, v).nodes, [|l.nodes|]) == [v]
  {
    assert LinkedAt(First1(l, v).nodes, [|l.nodes|], 0);
  }

  /** Position `k` after `LinkLast`. */
  lemma LinkLastAt<T>(l: List<T>, order: seq<int>, v: T, k: nat)
    requires ValidWith(l, order) && |order| > 0 && k <= |order|
    ensures var l' := LinkLast(l, v);
            var o' := Inserted(order, |order|, |l.nodes|);
            && 0 <= o'[k] < |l'.nodes|
            && LinkedAt(l'.nodes, o', k)
            && l'.nodes[o'[k]].value == if k == |order| then v else l.nodes[o'[k]].value
  {
    var n := |l.nodes|;
    var o' := Inserted(order, |order|, n);
    var t := |order| - 1;
    LinksAt(l, order, t);
    if k < t {
      LinksAt(l, order, k);
      assert order[k] != order[t];
    } else if k == t {
      assert o'[k] == l.tail;
    } else {
      assert o'[k - 1] == l.tail;
    }
  }

  lemma LinkLastLinks<T>(l: List<T>, order: seq<int>, v: T)
    requires ValidWith(l, order) && |order| > 0
    ensures var l' := LinkLast(l, v);
            var o' := Inserted(order, |order|, |l.nodes|);
            forall k :: 0 <= k < |o'| ==>
              && 0 <= o'[k] < |l'.nodes| && LinkedAt(l'.nodes, o', k)
              && l'.nodes[o'[k]].value == if k == |order| then v else l.nodes[o'[k]].value
  {
    forall k: nat | k <= |order| {
      LinkLastAt(l, order, v, k);
    }
  }

  lemma LinkLastValid<T>(l: List<T>, order: seq<int>, v: T)
    requires ValidWith(l, order) && |order| > 0
    ensures 0 <= l.tail < |l.nodes|
    ensures ValidWith(LinkLast(l, v), Inserted(order, |order|, |l.nodes|))
  {
    LinksAt(l, order, |order| - 1);
    LinkLastLinks(l, order, v);
    InsertDistinct(order, |order|, |l.nodes|);
    Assembled(LinkLast(l, v), Inserted(order, |order|, |l.nodes|));
  }

  lemma LinkLastValues<T>(l: List<T>, order: seq<int>, v: T)
    requires ValidWith(l, order) && |order| > 0
    ensures 0 <= l.tail < |l.nodes|
    ensures ValuesAt(LinkLast(l, v).nodes, Inserted(order, |order|, |l.nodes|)) == ValuesAt(l.nodes, order) + [v]
  {
    LinksAt(l, order, |order| - 1);
    LinkLastLinks(l, order, v);
    InsertedValues(l.nodes, LinkLast(l, v).nodes, order, |order|, v);
    InsertedEnds(ValuesAt(l.nodes, order), v);
  }

  /** Position `k` after `LinkFirst`. */
  lemma LinkFirstAt<T>(l: List<T>, order: seq<int>, v: T, k: nat)
    requires ValidWith(l, order) && |order| > 0 && k <= |order|
    ensures var l' := LinkFirst(l, v);
            var o' := Inserted(order, 0, |l.nodes|);
            && 0 <= o'[k] < |l'.nodes|
            && LinkedAt(l'.nodes, o', k)
            && l'.nodes[o'[k]].value == if k == 0 then v else l.nodes[o'[k]].value
  {
    LinksAt(l, order, 0);
    if k > 1 {
      LinksAt(l, order, k - 1);
      assert order[k - 1] != order[0];
    }
  }

  lemma LinkFirstLinks<T>(l: List<T>, order: seq<int>, v: T)
    requires ValidWith(l, order) && |order| > 0
    ensures var l' := LinkFirst(l, v);
            var o' := Inserted(order, 0, |l.nodes|);
            forall k :: 0 <= k < |o'| ==>
              && 0 <= o'[k] < |l'.nodes| && LinkedAt(l'.nodes, o', k)
              && l'.nodes[o'[k]].value == if k == 0 then v else l.nodes[o'[k]].value
  {
    forall k: nat | k <= |order| {
      LinkFirstAt(l, order, v, k);
    }
  }

  lemma LinkFirstValid<T>(l: List<T>, order: seq<int>, v: T)
    requires ValidWith(l, order) && |order| > 0
    ensures 0 <= l.head < |l.nodes|
    ensures ValidWith(LinkFirst(l, v), Inserted(order, 0, |l.nodes|))
  {
    LinksAt(l, order, 0);
    LinkFirstLinks(l, order, v);
    InsertDistinct(order, 0, |l.nodes|);
    Assembled(LinkFirst(l, v), Inserted(order, 0, |l.nodes|));
  }

  lemma LinkFirstValues<T>(l: List<T>, order: seq<int>, v: T)
    requires ValidWith(l, order) && |order| > 0
    ensures 0 <= l.head < |l.nodes|
    ensures ValuesAt(LinkFirst(l, v).nodes, Inserted(order, 0, |l.nodes|)) == [v] + ValuesAt(l.nodes, order)
  {
    LinksAt(l, order, 0);
    LinkFirstLinks(l, order, v);
    InsertedValues(l.nodes, LinkFirst(l, v).nodes, order, 0, v);
    InsertedEnds(ValuesAt(l.nodes, order), v);
  }

  /** The arena after `LinkBetween`, node by node. */
  lemma LinkBetweenNodes<T>(l: List<T>, before: int, node: int, v: T)
    requires 0 <= before < |l.nodes| && 0 <= node < |l.nodes| && before != node
    ensures var l' := LinkBetween(l, before, node, v);
            && |l'.nodes| == |l.nodes| + 1
            && (forall x :: 0 <= x < |l.nodes| && x != before && x != node ==> l'.nodes[x] == l.nodes[x])
            && l'.nodes[before] == l.nodes[before].(next := |l.nodes|)
            && l'.nodes[node] == l.nodes[node].(previous := |l.nodes|)
            && l'.nodes[|l.nodes|] == Node(v, before, node)
  {
  }

  /** Position `k` after `LinkBetween`. */
  lemma LinkBetweenAt<T>(l: List<T>, order: seq<int>, i: nat, v: T, k: nat)
    requires ValidWith(l, order) && 0 < i < |order| && k <= |order|
    ensures var l' := LinkBetween(l, order[i - 1], order[i], v);
            var o' := Inserted(order, i, |l.nodes|);
            && 0 <= o'[k] < |l'.nodes|
            && LinkedAt(l'.nodes, o', k)
            && l'.nodes[o'[k]].value == if k == i then v else l.nodes[o'[k]].value
  {
    var n := |l.nodes|;
    var before, node := order[i - 1], order[i];
    var o' := Inserted(order, i, n);
    LinkBetweenNodes(l, before, node, v);
    if k < i - 1 {
      LinksAt(l, order, k);
      assert order[k] != before && order[k] != node;
    } else if k == i - 1 {
      LinksAt(l, order, k);
    } else if k == i + 1 {
      LinksAt(l, order, i);
    } else if k > i + 1 {
      LinksAt(l, order, k - 1);
      assert order[k - 1] != before && order[k - 1] != node;
    }
  }

  lemma LinkBetweenLinks<T>(l: List<T>, order: seq<int>, i: nat, v: T)
    requires ValidWith(l, order) && 0 < i < |order|
    ensures var l' := LinkBetween(l, order[i - 1], order[i], v);
            var o' := Inserted(order, i, |l.nodes|);
            forall k :: 0 <= k < |o'| ==>
              && 0 <= o'[k] < |l'.nodes| && LinkedAt(l'.nodes, o', k)
              && l'.nodes[o'[k]].value == if k == i then v else l.nodes[o'[k]].value
  {
    forall k: nat | k <= |order| {
      LinkBetweenAt(l, order, i, v, k);
    }
  }

  lemma LinkBetweenValid<T>(l: List<T>, order: seq<int>, i: nat, v: T)
    requires ValidWith(l, order) && 0 < i < |order|
    ensures ValidWith(LinkBetween(l, order[i - 1], order[i], v), Inserted(order, i, |l.nodes|))
  {
    LinkBetweenLinks(l, order, i, v);
    InsertDistinct(order, i, |l.nodes|);
    var o' := Inserted(order, i, |l.nodes|);
    Assembled(LinkBetween(l, order[i - 1], order[i], v), o');
  }

  lemma LinkBetweenValues<T>(l: List<T>, order: seq<int>, i: nat, v: T)
    requires ValidWith(l, order) && 0 < i < |order|
    ensures ValuesAt(LinkBetween(l, order[i - 1], order[i], v).nodes, Inserted(order, i, |l.nodes|))
            == Inserted(ValuesAt(l.nodes, order), i, v)
  {
    var l' := LinkBetween(l, order[i - 1], order[i], v);
    LinkBetweenLinks(l, order, i, v);
    InsertedValues(l.nodes, l'.nodes, order, i, v);
  }

  // ---------------------------------------------------------------- Removal and update

  /** `s` without its entry at position `i`. */
  function Removed<X>(s: seq<X>, i: nat): (o: seq<X>)
    requires i < |s|
    ensures |o| == |s| - 1
    ensures forall k :: 0 <= k < |o| ==> o[k] == if k < i then s[k] else s[k + 1]
  {
    s[..i] + s[i + 1..]
  }

  /** `x` has at least one neighbour, and both links are `Null` or in the arena. */
  predicate Unlinkable<T>(l: List<T>, x: int) {
    && 0 <= x < |l.nodes|
    && var p, n := l.nodes[x].previous, l.nodes[x].next;
       (p == Null || 0 <= p < |l.nodes|) && (n == Null || 0 <= n < |l.nodes|) && (p != Null || n != Null)
  }

  /** The pointer surgery of `removeAt`, once it is known not to fail: the
      neighbours of `x` are linked to each other, and the head or tail moves
      when `x` was at an end. */
  function Unlink<T>(l: List<T>, x: int): List<T>
    requires Unlinkable(l, x)
  {
    var p, n := l.nodes[x].previous, l.nodes[x].next;
    var nodes := if p != Null then l.nodes[p := l.nodes[p].(next := n)] else l.nodes[n := l.nodes[n].(previous := Null)];
    var head := if p != Null then l.head else n;
    var nodes := if n != Null then nodes[n := nodes[n].(previous := p)] else nodes[p := nodes[p].(next := Null)];
    var tail := if n != Null then l.tail else p;
    List(nodes, head, tail, l.length - 1)
  }

  /** The arena after `Unlink`, node by node. */
  lemma UnlinkNodes<T>(l: List<T>, x: int)
    requires Unlinkable(l, x) && l.nodes[x].previous != l.nodes[x].next
    ensures var p, n := l.nodes[x].previous, l.nodes[x].next;
            var l' := Unlink(l, x);
            && |l'.nodes| == |l.nodes|
            && (forall y :: 0 <= y < |l.nodes| && y != p && y != n ==> l'.nodes[y] == l.nodes[y])
            && (p != Null ==> l'.nodes[p] == l.nodes[p].(next := n))
            && (n != Null ==> l'.nodes[n] == l.nodes[n].(previous := p))
            && l'.head == (if p != Null then l.head else n)
            && l'.tail == (if n != Null then l.tail else p)
  {
  }

  /** In a list of two or more, every node has a neighbour. */
  lemma UnlinkableAt<T>(l: List<T>, order: seq<int>, i: nat)
    requires ValidWith(l, order) && 2 <= |order| && i < |order|
    ensures Unlinkable(l, order[i]) && l.nodes[order[i]].previous != l.nodes[order[i]].next
  {
    LinksAt(l, order, i);
    if i > 0 { LinksAt(l, order, i - 1); }
    if i + 1 < |order| { LinksAt(l, order, i + 1); }
    if i > 0 && i + 1 < |order| {
      assert order[i - 1] != order[i + 1];
    }
  }

  /** The links and value at position `k` after unlinking position `i`,
      for a neighbour of the unlinked node. */
  lemma UnlinkAtNeighbour<T>(l: List<T>, order: seq<int>, i: nat, k: nat)
    requires ValidWith(l, order) && 2 <= |order| && i < |order| && k < |order| - 1
    requires Unlinkable(l, order[i]) && l.nodes[order[i]].previous != l.nodes[order[i]].next
    requires k + 1 == i || k == i
    ensures var l' := Unlink(l, order[i]);
            var o' := Removed(order, i);
            && 0 <= o'[k] < |l'.nodes|
            && LinkedAt(l'.nodes, o', k)
            && l'.nodes[o'[k]].value == l.nodes[o'[k]].value
  {
    LinksAt(l, order, i);
    UnlinkNodes(l, order[i]);
    var o' := Removed(order, i);
    var j := if k < i then k else k + 1;
    LinksAt(l, order, j);
    assert o'[k] == order[j];
    if k > 0 {
      assert o'[k - 1] == order[if k - 1 < i then k - 1 else k];
    }
    if k + 1 < |o'| {
      assert o'[k + 1] == order[if k + 1 < i then k + 1 else k + 2];
    }
  }

  /** The links and value at position `k` after unlinking position `i`,
      for a node that is not a neighbour of the unlinked one. */
  lemma UnlinkAtOther<T>(l: List<T>, order: seq<int>, i: nat, k: nat)
    requires ValidWith(l, order) && 2 <= |order| && i < |order| && k < |order| - 1
    requires Unlinkable(l, order[i]) && l.nodes[order[i]].previous != l.nodes[order[i]].next
    requires k + 1 != i && k != i
    ensures var l' := Unlink(l, order[i]);
            var o' := Removed(order, i);
            && 0 <= o'[k] < |l'.nodes|
            && LinkedAt(l'.nodes, o', k)
            && l'.nodes[o'[k]].value == l.nodes[o'[k]].value
  {
    var x := order[i];
    LinksAt(l, order, i);
    var p, n := l.nodes[x].previous, l.nodes[x].next;
    UnlinkNodes(l, x);
    var o' := Removed(order, i);
    var j := if k < i then k else k + 1;
    LinksAt(l, order, j);
    assert o'[k] == order[j];
    if k > 0 {
      assert o'[k - 1] == order[if k - 1 < i then k - 1 else k];
    }
    if k + 1 < |o'| {
      assert o'[k + 1] == order[if k + 1 < i then k + 1 else k + 2];
    }
    assert order[j] != p && order[j] != n by {
      if i > 0 { LinksAt(l, order, i - 1); assert order[j] != order[i - 1]; }
      if i + 1 < |order| { LinksAt(l, order, i + 1); assert order[j] != order[i + 1]; }
    }
  }

  /** The links and value at position `k` after unlinking position `i`. */
  lemma UnlinkAt<T>(l: List<T>, order: seq<int>, i: nat, k: nat)
    requires ValidWith(l, order) && 2 <= |order| && i < |order| && k < |order| - 1
    requires Unlinkable(l, order[i]) && l.nodes[order[i]].previous != l.nodes[order[i]].next
    ensures var l' := Unlink(l, order[i]);
            var o' := Removed(order, i);
            && 0 <= o'[k] < |l'.nodes|
            && LinkedAt(l'.nodes, o', k)
            && l'.nodes[o'[k]].value == l.nodes[o'[k]].value
  {
    if k + 1 == i || k == i {
      UnlinkAtNeighbour(l, order, i, k);
    } else {
      UnlinkAtOther(l, order, i, k);
    }
  }

  /** When the remaining nodes keep their values, the values are those of
      the old order without entry `i`. */
  lemma RemovedValues<T>(nodes: seq<Node<T>>, nodes': seq<Node<T>>, order: seq<int>, i: nat)
    requires i < |order| && forall k :: 0 <= k < |order| ==> 0 <= order[k] < |nodes|
    requires |nodes'| == |nodes|
    requires var o' := Removed(order, i);
             forall k :: 0 <= k < |o'| ==> nodes'[o'[k]].value == nodes[o'[k]].value
    ensures ValuesAt(nodes', Removed(order, i)) == Removed(ValuesAt(nodes, order), i)
  {
    var o' := Removed(order, i);
    var ws := Removed(ValuesAt(nodes, order), i);
    forall k | 0 <= k < |o'| ensures ws[k] == nodes'[o'[k]].value {
      assert o'[k] == order[if k < i then k else k + 1];
    }
    ValuesPointwise(nodes', o', ws);
  }

  lemma UnlinkLinks<T>(l: List<T>, order: seq<int>, i: nat)
    requires ValidWith(l, order) && 2 <= |order| && i < |order|
    requires Unlinkable(l, order[i]) && l.nodes[order[i]].previous != l.nodes[order[i]].next
    ensures var l' := Unlink(l, order[i]);
            var o' := Removed(order, i);
            forall k :: 0 <= k < |o'| ==>
              && 0 <= o'[k] < |l'.nodes| && LinkedAt(l'.nodes, o', k)
              && l'.nodes[o'[k]].value == l.nodes[o'[k]].value
  {
    forall k: nat | k < |order| - 1 {
      UnlinkAt(l, order, i, k);
    }
  }

  lemma RemoveDistinct(order: seq<int>, i: nat)
    requires i < |order|
    requires forall a, b :: 0 <= a < b < |order| ==> order[a] != order[b]
    ensures var o' := Removed(order, i);
            forall a, b :: 0 <= a < b < |o'| ==> o'[a] != o'[b]
  {
    var o' := Removed(order, i);
    forall a, b | 0 <= a < b < |o'| ensures o'[a] != o'[b] {
      assert o'[a] == order[if a < i then a else a + 1];
      assert o'[b] == order[if b < i then b else b + 1];
    }
  }

  /** Unlinking moves the head or the tail onto the neighbour of an end node. */
  lemma UnlinkEnds<T>(l: List<T>, order: seq<int>, i: nat)
    requires ValidWith(l, order) && 2 <= |order| && i < |order|
    ensures Unlinkable(l, order[i])
    ensures var l' := Unlink(l, order[i]);
            var o' := Removed(order, i);
            l'.head == o'[0] && l'.tail == o'[|o'| - 1] && l'.length == |o'|
  {
    UnlinkableAt(l, order, i);
    LinksAt(l, order, i);
    UnlinkNodes(l, order[i]);
    var o' := Removed(order, i);
    if i == 0 { assert o'[0] == order[1]; } else { assert o'[0] == order[0]; }
    if i == |order| - 1 { assert o'[|o'| - 1] == order[i - 1]; } else { assert o'[|o'| - 1] == order[|order| - 1]; }
  }

  /** Unlinking the node at position `i` of a list of two or more leaves a
      valid list without it. */
  lemma UnlinkValid<T>(l: List<T>, order: seq<int>, i: nat)
    requires ValidWith(l, order) && 2 <= |order| && i < |order|
    ensures Unlinkable(l, order[i])
    ensures ValidWith(Unlink(l, order[i]), Removed(order, i))
  {
    UnlinkableAt(l, order, i);
    UnlinkEnds(l, order, i);
    UnlinkLinks(l, order, i);
    RemoveDistinct(order, i);
    Assembled(Unlink(l, order[i]), Removed(order, i));
  }

  /** Unlinking the node at position `i` removes its value from the list. */
  lemma UnlinkValues<T>(l: List<T>, order: seq<int>, i: nat)
    requires ValidWith(l, order) && 2 <= |order| && i < |order|
    ensures Unlinkable(l, order[i])
    ensures ValuesAt(Unlink(l, order[i]).nodes, Removed(order, i)) == Removed(ValuesAt(l.nodes, order), i)
  {
    UnlinkableAt(l, order, i);
    UnlinkLinks(l, order, i);
    UnlinkNodes(l, order[i]);
    RemovedValues(l.nodes, Unlink(l, order[i]).nodes, order, i);
  }

  /** Giving the node at position `i` a new value changes that item only. */
  lemma SetValueValid<T>(l: List<T>, order: seq<int>, i: nat, v: T)
    requires ValidWith(l, order) && i < |order|
    ensures ValidWith(l.(nodes := l.nodes[order[i] := l.nodes[order[i]].(value := v)]), order)
    ensures ValuesAt(l.nodes[order[i] := l.nodes[order[i]].(value := v)], order) == ValuesAt(l.nodes, order)[i := v]
  {
    var nodes := l.nodes[order[i] := l.nodes[order[i]].(value := v)];
    forall k | 0 <= k < |order| && k != i ensures nodes[order[k]] == l.nodes[order[k]] {
      assert order[k] != order[i];
    }
    forall k | 0 <= k < |order| ensures LinkedAt(nodes, order, k) {
      LinksAt(l, order, k);
    }
    assert ValidWith(l.(nodes := nodes), order);
  }

  /** The ends of a valid list are the first and last entries of its order. */
  lemma EndsOfOrder<T>(l: List<T>, order: seq<int>)
    requires ValidWith(l, order)
    ensures var vs := ValuesAt(l.nodes, order);
            && (l.head == Null <==> vs == [])
            && (l.tail == Null <==> vs == [])
            && (l.head != Null ==> 0 <= l.head < |l.nodes| && vs[0] == l.nodes[l.head].value)
            && (l.tail != Null ==> 0 <= l.tail < |l.nodes| && vs[|vs| - 1] == l.nodes[l.tail].value)
  {
  }

  /** Both ends of a valid list are `Null` or nodes of the arena. */
  lemma EndsInRange<T>(l: List<T>)
    requires Valid(l)
    ensures l.head == Null <==> Items(l) == []
    ensures l.head != Null ==> 0 <= l.head < |l.nodes| && Items(l)[0] == l.nodes[l.head].value
    ensures l.tail != Null ==> 0 <= l.tail < |l.nodes| && Items(l)[|Items(l)| - 1] == l.nodes[l.tail].value
    ensures l.tail == Null <==> l.head == Null
    ensures l.length == |Items(l)|
  {
    var order :| ValidWith(l, order);
    ItemsWith(l, order);
    EndsOfOrder(l, order);
  }

  // ---------------------------------------------------------------- Operations

  /** The `length` getter. */
  function Length<T>(l: List<T>): (n: int)
    requires Valid(l)
    ensures n == |Items(l)|
  {
    EndsInRange(l);
    l.length
  }

  /** The `first` getter: the head's value; `null.value` on an empty list. */
  function First<T>(l: List<T>): (r: Result<T, Error>)
    requires Valid(l)
    ensures r.Err? <==> Items(l) == []
    ensures r.Ok? ==> r.value == Items(l)[0]
  {
    EndsInRange(l);
    if l.head == Null then Err(NullDereference) else Ok(l.nodes[l.head].value)
  }

  /** The `last` getter: the tail's value; `null.value` on an empty list. */
  function Last<T>(l: List<T>): (r: Result<T, Error>)
    requires Valid(l)
    ensures r.Err? <==> Items(l) == []
    ensures r.Ok? ==> r.value == Items(l)[|Items(l)| - 1]
  {
    EndsInRange(l);
    if l.tail == Null then Err(NullDereference) else Ok(l.nodes[l.tail].value)
  }

  /** `findNodeAt`: steps `index` times along `next` from the head. Index
      `length` reaches `null`; any other index outside the list steps off the
      end and dereferences `null`. */
  method FindNodeAt<T>(l: List<T>, index: int) returns (r: Result<int, Error>)
    requires Valid(l)
    ensures r.Ok? <==> 0 <= index <= |Items(l)|
    ensures r.Ok? && index < |Items(l)| ==> r.value == Refs(l)[index]
    ensures r.Ok? && index == |Items(l)| ==> r.value == Null
  {
    ghost var order :| ValidWith(l, order);
    WalkOrder(l, order);
    ItemsWith(l, order);
    NextLinks(l, order);
    var elemCount := 0;
    var node := l.head;
    while elemCount != index
      invariant 0 <= elemCount <= |order|
      invariant node == (if elemCount < |order| then order[elemCount] else Null)
      invariant index < 0 || elemCount <= index
      decreases |order| - elemCount
    {
      if node == Null {
        return Err(NullDereference);
      }
      NextOf(l.nodes, order, elemCount);
      elemCount := elemCount + 1;
      node := l.nodes[node].next;
    }
    return Ok(node);
  }

  /** `at(index, newValue)`: the value at `index`, first replaced by
      `newValue` when one is given. */
  method At<T>(l: List<T>, index: int, newValue: Option<T>) returns (r: Result<(T, List<T>), Error>)
    requires Valid(l)
    ensures r.Ok? <==> 0 <= index < |Items(l)|
    ensures r.Ok? ==> Valid(r.value.1)
    ensures r.Ok? ==> Items(r.value.1) == (if newValue.Some? then Items(l)[index := newValue.value] else Items(l))
    ensures r.Ok? ==> r.value.0 == Items(r.value.1)[index]
  {
    ghost var order :| ValidWith(l, order);
    WalkOrder(l, order);
    ItemsWith(l, order);
    var found := FindNodeAt(l, index);
    if found.Err? || found.value == Null {
      return Err(NullDereference);
    }
    var node := found.value;
    var l' := l;
    if newValue.Some? {
      l' := l.(nodes := l.nodes[node := l.nodes[node].(value := newValue.value)]);
      SetValueValid(l, order, index, newValue.value);
    }
    ItemsWith(l', order);
    return Ok((l'.nodes[node].value, l'));
  }

  /** `removeAt(index)`: unlinks the node at `index` and returns its value.
      Removing from a one-element list reads `next.previous` of `null`. */
  method RemoveAt<T>(l: List<T>, index: int) returns (r: Result<(T, List<T>), Error>)
    requires Valid(l)
    ensures r.Ok? <==> 0 <= index < |Items(l)| && |Items(l)| >= 2
    ensures r.Ok? ==> r.value.0 == Items(l)[index]
    ensures r.Ok? ==> Valid(r.value.1) && Items(r.value.1) == Items(l)[..index] + Items(l)[index + 1..]
  {
    ghost var order :| ValidWith(l, order);
    WalkOrder(l, order);
    ItemsWith(l, order);
    var found := FindNodeAt(l, index);
    if found.Err? || found.value == Null {
      return Err(NullDereference);
    }
    var removed := found.value;
    LinksAt(l, order, index);
    var p, n := l.nodes[removed].previous, l.nodes[removed].next;
    if p == Null && n == Null {
      return Err(NullDereference);
    }
    if index > 0 { LinksAt(l, order, index - 1); }
    UnlinkValid(l, order, index);
    UnlinkValues(l, order, index);
    var l' := Unlink(l, removed);
    ItemsWith(l', Removed(order, index));
    return Ok((l.nodes[removed].value, l'));
  }

  /** One step of `append`: the first node of an empty list, otherwise
      `appendValue`. */
  function AppendOne<T>(l: List<T>, v: T): (r: List<T>)
    requires Valid(l)
    ensures Valid(r) && Items(r) == Items(l) + [v]
  {
    AppendOneValid(l, v);
    if l.head == Null then First1(l, v) else LinkLast(l, v)
  }

  lemma AppendOneValid<T>(l: List<T>, v: T)
    requires Valid(l)
    ensures l.head == Null ==> Valid(First1(l, v)) && Items(First1(l, v)) == Items(l) + [v]
    ensures l.head != Null ==> 0 <= l.tail < |l.nodes| && Valid(LinkLast(l, v)) && Items(LinkLast(l, v)) == Items(l) + [v]
  {
    var order :| ValidWith(l, order);
    ItemsWith(l, order);
    if l.head == Null {
      FirstValid(l, v);
      ItemsWith(First1(l, v), [|l.nodes|]);
    } else {
      LinkLastValid(l, order, v);
      LinkLastValues(l, order, v);
      ItemsWith(LinkLast(l, v), Inserted(order, |order|, |l.nodes|));
    }
  }

  /** One step of `prepend`: the first node of an empty list, otherwise
      `prependValue`. */
  function PrependOne<T>(l: List<T>, v: T): (r: List<T>)
    requires Valid(l)
    ensures Valid(r) && Items(r) == [v] + Items(l)
  {
    PrependOneValid(l, v);
    if l.head == Null then First1(l, v) else LinkFirst(l, v)
  }

  lemma PrependOneValid<T>(l: List<T>, v: T)
    requires Valid(l)
    ensures l.head == Null ==> Valid(First1(l, v)) && Items(First1(l, v)) == [v] + Items(l)
    ensures l.head != Null ==> 0 <= l.head < |l.nodes| && Valid(LinkFirst(l, v)) && Items(LinkFirst(l, v)) == [v] + Items(l)
  {
    var order :| ValidWith(l, order);
    ItemsWith(l, order);
    if l.head == Null {
      FirstValid(l, v);
      ItemsWith(First1(l, v), [|l.nodes|]);
    } else {
      LinkFirstValid(l, order, v);
      LinkFirstValues(l, order, v);
      ItemsWith(LinkFirst(l, v), Inserted(order, 0, |l.nodes|));
    }
  }

  lemma Single<X>(values: seq<X>)
    requires |values| == 1
    ensures values == [values[0]]
  {
  }

  lemma ConsStep<X>(s: seq<X>, values: seq<X>)
    requires values != []
    ensures s + [values[0]] + values[1..] == s + values
  {
    assert values == [values[0]] + values[1..];
  }

  lemma SnocStep<X>(values: seq<X>, s: seq<X>)
    requires values != []
    ensures values[..|values| - 1] + ([values[|values| - 1]] + s) == values + s
  {
    assert values == values[..|values| - 1] + [values[|values| - 1]];
  }

  /** The loop of `append`: the values one at a time, from the first. */
  function AppendAll<T>(l: List<T>, values: seq<T>): (r: List<T>)
    requires Valid(l)
    ensures Valid(r) && Items(r) == Items(l) + values
    decreases |values|
  {
    if values == [] then l
    else
      ConsStep(Items(l), values);
      AppendAll(AppendOne(l, values[0]), values[1..])
  }

  /** `append(...values)`: the values, in order, after the tail. A single
      value on a non-empty list goes straight to `appendValue`. */
  function Append<T>(l: List<T>, values: seq<T>): (r: List<T>)
    requires Valid(l)
    ensures Valid(r) && Items(r) == Items(l) + values
  {
    if |values| == 1 && l.head != Null then
      Single(values);
      AppendOne(l, values[0])
    else AppendAll(l, values)
  }

  /** The loop of `prepend`: the values one at a time, from the last. */
  function PrependAll<T>(l: List<T>, values: seq<T>): (r: List<T>)
    requires Valid(l)
    ensures Valid(r) && Items(r) == values + Items(l)
    decreases |values|
  {
    if values == [] then l
    else
      var n := |values| - 1;
      SnocStep(values, Items(l));
      PrependAll(PrependOne(l, values[n]), values[..n])
  }

  /** `prepend(...values)`: the values, in order, before the head. A single
      value on a non-empty list goes straight to `prependValue`. */
  function Prepend<T>(l: List<T>, values: seq<T>): (r: List<T>)
    requires Valid(l)
    ensures Valid(r) && Items(r) == values + Items(l)
  {
    if |values| == 1 && l.head != Null then
      Single(values);
      PrependOne(l, values[0])
    else PrependAll(l, values)
  }

  /** In `insert`'s loop: `node` is at position `j` of a valid list and
      `before` just ahead of it. */
  ghost predicate InsertPoint<T>(l: List<T>, j: int, before: int, node: int) {
    exists order :: ValidWith(l, order) && 0 < j < |order| && before == order[j - 1] && node == order[j]
  }

  /** The node at a position inside a valid list is an insertion point,
      with its `previous` just ahead of it. */
  lemma NodeAhead<T>(l: List<T>, index: int)
    requires Valid(l) && 0 < index < |Items(l)|
    ensures 0 <= Refs(l)[index] < |l.nodes|
    ensures InsertPoint(l, index, l.nodes[Refs(l)[index]].previous, Refs(l)[index])
  {
    var order :| ValidWith(l, order);
    WalkOrder(l, order);
    ItemsWith(l, order);
    LinksAt(l, order, index);
  }

  lemma InsertPointInside<T>(l: List<T>, j: int, before: int, node: int)
    requires InsertPoint(l, j, before, node)
    ensures Valid(l) && 0 < j < |Items(l)|
    ensures 0 <= before < |l.nodes| && 0 <= node < |l.nodes|
  {
    var order :| ValidWith(l, order) && 0 < j < |order| && before == order[j - 1] && node == order[j];
    ItemsWith(l, order);
    LinksAt(l, order, j);
  }

  /** One step of `insert`'s loop keeps the insertion point just ahead of
      `node`. */
  lemma InsertStepPoint<T>(l: List<T>, j: int, before: int, node: int, v: T)
    requires InsertPoint(l, j, before, node)
    ensures 0 <= before < |l.nodes| && 0 <= node < |l.nodes|
    ensures InsertPoint(LinkBetween(l, before, node, v), j + 1, |l.nodes|, node)
  {
    var order :| ValidWith(l, order) && 0 < j < |order| && before == order[j - 1] && node == order[j];
    LinkBetweenValid(l, order, j, v);
    var o' := Inserted(order, j, |l.nodes|);
    assert o'[j] == |l.nodes| && o'[j + 1] == node;
  }

  /** One step of `insert`'s loop puts the value at position `j`. */
  lemma InsertStepItems<T>(l: List<T>, j: int, before: int, node: int, v: T)
    requires InsertPoint(l, j, before, node)
    ensures 0 <= before < |l.nodes| && 0 <= node < |l.nodes| && 0 < j < |Items(l)|
    ensures Items(LinkBetween(l, before, node, v)) == Items(l)[..j] + [v] + Items(l)[j..]
  {
    var order :| ValidWith(l, order) && 0 < j < |order| && before == order[j - 1] && node == order[j];
    LinkBetweenValid(l, order, j, v);
    LinkBetweenValues(l, order, j, v);
    ItemsWith(l, order);
    ItemsWith(LinkBetween(l, before, node, v), Inserted(order, j, |l.nodes|));
  }

  /** Splicing the first value in at `j` and then the rest just after it
      splices all of them in at `j`. */
  lemma SpliceStep<X>(s: seq<X>, s': seq<X>, j: nat, values: seq<X>)
    requires j <= |s| && values != [] && s' == s[..j] + [values[0]] + s[j..]
    ensures s'[..j + 1] + values[1..] + s'[j + 1..] == s[..j] + values + s[j..]
  {
    assert s'[..j + 1] == s[..j] + [values[0]];
    assert s'[j + 1..] == s[j..];
    assert values == [values[0]] + values[1..];
  }

  /** The loop of `insert`: each value linked in between `before` and
      `node`, and then becomes `before` for the next. */
  function LinkAllBefore<T>(l: List<T>, j: int, before: int, node: int, values: seq<T>): (r: List<T>)
    requires InsertPoint(l, j, before, node)
    ensures Valid(r) && 0 < j < |Items(l)| && Items(r) == Items(l)[..j] + values + Items(l)[j..]
    decreases |values|
  {
    InsertPointInside(l, j, before, node);
    if values == [] then l
    else
      var l' := LinkBetween(l, before, node, values[0]);
      InsertStepPoint(l, j, before, node, values[0]);
      InsertStepItems(l, j, before, node, values[0]);
      SpliceStep(Items(l), Items(l'), j, values);
      LinkAllBefore(l', j + 1, |l.nodes|, node, values[1..])
  }

  lemma EndSplits<X>(s: seq<X>, values: seq<X>)
    ensures s[..0] + values + s[0..] == values + s
    ensures s[..|s|] + values + s[|s|..] == s + values
  {
    assert s[..0] == [] && s[0..] == s;
    assert s[..|s|] == s && s[|s|..] == [];
  }

  /** `insert(index, ...values)`: at the front for index 0, at the back for
      index `length`, and otherwise one by one before the node at `index`.
      Any other index steps off the end in `findNodeAt`. */
  method Insert<T>(l: List<T>, index: int, values: seq<T>) returns (r: Result<List<T>, Error>)
    requires Valid(l)
    ensures r.Ok? <==> 0 <= index <= |Items(l)|
    ensures r.Ok? ==> Valid(r.value) && Items(r.value) == Items(l)[..index] + values + Items(l)[index..]
  {
    EndsInRange(l);
    EndSplits(Items(l), values);
    if index == 0 {
      return Ok(Prepend(l, values));
    }
    if index == l.length {
      return Ok(Append(l, values));
    }
    var found := FindNodeAt(l, index);
    if found.Err? {
      return Err(NullDereference);
    }
    var node := found.value;
    NodeAhead(l, index);
    return Ok(LinkAllBefore(l, index, l.nodes[node].previous, node, values));
  }

  lemma PrefixStep<X>(s: seq<X>, i: nat)
    requires i < |s|
    ensures s[..i + 1] == s[..i] + [s[i]]
    ensures i + 1 == |s| ==> s[..i + 1] == s
  {
  }

  /** `toArray`, through the iterator: yields the head's value, then follows
      `next` until it is `null`. The iterator reads `null.value` on an empty
      list. */
  method ToArray<T>(l: List<T>) returns (r: Result<seq<T>, Error>)
    requires Valid(l)
    ensures r.Err? <==> Items(l) == []
    ensures r.Ok? ==> r.value == Items(l)
  {
    ghost var order :| ValidWith(l, order);
    ItemsWith(l, order);
    NextLinks(l, order);
    ghost var vs := ValuesAt(l.nodes, order);
    var node := l.head;
    if node == Null {
      return Err(NullDereference);
    }
    var values := [l.nodes[node].value];
    ghost var i := 0;
    while l.nodes[node].next != Null
      invariant 0 <= i < |order| && node == order[i]
      invariant values == vs[..i + 1]
      decreases |order| - i
    {
      NextOf(l.nodes, order, i);
      node := l.nodes[node].next;
      i := i + 1;
      NextOf(l.nodes, order, i);
      values := values + [l.nodes[node].value];
      PrefixStep(vs, i);
    }
    NextOf(l.nodes, order, i);
    PrefixStep(vs, i);
    return Ok(values);
  }

  /** Each value as a string. */
  function Shown<T>(vs: seq<T>, show: T -> string): (ss: seq<string>)
    ensures |ss| == |vs| && forall k :: 0 <= k < |vs| ==> ss[k] == show(vs[k])
  {
    seq(|vs|, k requires 0 <= k < |vs| => show(vs[k]))
  }

  /** `toString`: the values joined with " -> "; `show` stands for the
      string conversion `join` applies to each value. */
  method ToString<T>(l: List<T>, show: T -> string) returns (r: Result<string, Error>)
    requires Valid(l)
    ensures r.Err? <==> Items(l) == []
    ensures r.Ok? ==> r.value == Strings.Join(Shown(Items(l), show), " -> ")
  {
    var values := ToArray(l);
    if values.Err? {
      return Err(values.error);
    }
    return Ok(Strings.Join(Shown(values.value, show), " -> "));
  }
}

=== FILE: media.dfy ===
/** The media module: audio and video playables and playlists that draw
    their ids from one shared counter, their validated fields, the `play()`
    line of each playable, and the playlist operations (add, look up,
    remove by id or by object, list one page). */
module Media {
  import opened Results
  import opened Strings
  import Sequences

  datatype Error =
    | TitleLength       // "Title must be between 3 and 25 symbols long!"
    | AuthorLength
    | NameLength
    | LengthTooSmall    // "Length must be greater than 0"
    | RatingOutOfRange  // "IMDB rating must be a number between 1 and 5!"
    | NoPlayableWithId
    | NotAPlayable      // "Value is not a playable"
    | InvalidParameters

  /** What an audio or a video adds to a playable. */
  datatype Kind = Audio(length: int) | Video(imdbRating: int)

  datatype Playable = Playable(id: nat, title: string, author: string, kind: Kind)

  datatype Playlist = Playlist(id: nat, name: string, playables: seq<Playable>)

  /** The outcome of a constructor together with the shared counter's next value. */
  datatype Minted<T> = Minted(result: Result<T, Error>, nextId: nat)

  /** Titles, authors and playlist names are 3 to 25 characters long. */
  predicate ValidText(s: string) {
    3 <= |s| <= 25
  }

  predicate ValidKind(k: Kind) {
    match k
    case Audio(length) => 1 <= length
    case Video(rating) => 1 <= rating <= 5
  }

  predicate ValidPlayable(p: Playable) {
    ValidText(p.title) && ValidText(p.author) && ValidKind(p.kind)
  }

  /** The Audio and Video constructors: the id is drawn first, then the
      title, the author and the kind's own field are checked in that order. */
  function NewPlayable(title: string, author: string, kind: Kind, next: nat): (r: Minted<Playable>)
    ensures r.nextId == next + 1
    ensures r.result.Ok? <==> ValidPlayable(Playable(next, title, author, kind))
    ensures r.result.Ok? ==> r.result.value == Playable(next, title, author, kind)
    ensures !ValidText(title) ==> r.result == Err(TitleLength)
    ensures ValidText(title) && !ValidText(author) ==> r.result == Err(AuthorLength)
    ensures ValidText(title) && ValidText(author) && !ValidKind(kind) ==>
              r.result == Err(if kind.Audio? then LengthTooSmall else RatingOutOfRange)
  {
    var id := next;
    if |title| < 3 || |title| > 25 then Minted(Err(TitleLength), next + 1)
    else if |author| < 3 || |author| > 25 then Minted(Err(AuthorLength), next + 1)
    else
      match kind
      case Audio(length) =>
        if length < 1 then Minted(Err(LengthTooSmall), next + 1)
        else Minted(Ok(Playable(id, title, author, kind)), next + 1)
      case Video(rating) =>
        if rating < 1 || rating > 5 then Minted(Err(RatingOutOfRange), next + 1)
        else Minted(Ok(Playable(id, title, author, kind)), next + 1)
  }

  /** The Playlist constructor: the id is drawn before the name is checked. */
  function NewPlaylist(name: string, next: nat): (r: Minted<Playlist>)
    ensures r.nextId == next + 1
    ensures r.result.Ok? <==> ValidText(name)
    ensures r.result.Ok? ==> r.result.value == Playlist(next, name, [])
    ensures r.result.Err? ==> r.result.error == NameLength
  {
    if |name| < 3 || |name| > 25 then Minted(Err(NameLength), next + 1)
    else Minted(Ok(Playlist(next, name, [])), next + 1)
  }

  // ---------------------------------------------------------------- Shared ids

  /** A call to one of the module's constructors. */
  datatype Request =
    | AudioRequest(title: string, author: string, length: int)
    | VideoRequest(title: string, author: string, imdbRating: int)
    | PlaylistRequest(name: string)

  datatype Made = MadePlayable(playable: Playable) | MadePlaylist(playlist: Playlist)

  function MadeId(m: Made): nat {
    match m
    case MadePlayable(p) => p.id
    case MadePlaylist(l) => l.id
  }

  function Make(req: Request, next: nat): (r: Minted<Made>)
    ensures r.nextId == next + 1
    ensures r.result.Ok? ==> MadeId(r.result.value) == next
  {
    match req
    case AudioRequest(t, a, n) =>
      var m := NewPlayable(t, a, Audio(n), next);
      Minted(if m.result.Ok? then Ok(MadePlayable(m.result.value)) else Err(m.result.error), m.nextId)
    case VideoRequest(t, a, n) =>
      var m := NewPlayable(t, a, Video(n), next);
      Minted(if m.result.Ok? then Ok(MadePlayable(m.result.value)) else Err(m.result.error), m.nextId)
    case PlaylistRequest(n) =>
      var m := NewPlaylist(n, next);
      Minted(if m.result.Ok? then Ok(MadePlaylist(m.result.value)) else Err(m.result.error), m.nextId)
  }

  /** Runs the constructor calls in order from one counter; returns what
      was built and the counter's final value. */
  function MakeAll(reqs: seq<Request>, next: nat): (seq<Made>, nat)
  {
    if |reqs| == 0 then ([], next)
    else
      var m := Make(reqs[0], next);
      var rest := MakeAll(reqs[1..], m.nextId);
      (if m.result.Ok? then [m.result.value] + rest.0 else rest.0, rest.1)
  }

  /** Every constructor call uses up exactly one id, failed ones included,
      so the playables and playlists built from one counter carry strictly
      increasing ids, whatever their kind. */
  lemma {:induction false} MadeIdsIncrease(reqs: seq<Request>, next: nat)
    ensures MakeAll(reqs, next).1 == next + |reqs|
    ensures forall i, j :: 0 <= i < j < |MakeAll(reqs, next).0| ==>
              MadeId(MakeAll(reqs, next).0[i]) < MadeId(MakeAll(reqs, next).0[j])
    ensures forall i :: 0 <= i < |MakeAll(reqs, next).0| ==>
              next <= MadeId(MakeAll(reqs, next).0[i]) < next + |reqs|
  {
    if |reqs| > 0 {
      MadeIdsIncrease(reqs[1..], next + 1);
    }
  }

  // ---------------------------------------------------------------- play()

  /** `play()` of a playable: `[id]. [title] - [author]`, then ` - [length]`
      for an audio or ` - [rating]` for a video. */
  function Play(p: Playable): (r: string)
    ensures PlayedId(r) == Some(p.id)
    ensures var line := "[" + NatToString(p.id) + "]" + TitleAndAuthor(p);
            StartsWith(r, line) && EndsWith(r, KindSuffix(p.kind)) && |r| == |line| + |KindSuffix(p.kind)|
    ensures p.kind.Audio? ==> EndsWith(r, " - [" + IntToString(p.kind.length) + "]")
    ensures p.kind.Video? ==> EndsWith(r, " - [" + IntToString(p.kind.imdbRating) + "]")
  {
    var digits := NatToString(p.id);
    var line := "[" + digits + "]" + TitleAndAuthor(p);
    ParseNatToString(p.id);
    PlayedIdOfDigits(digits, AfterId(p));
    Sequences.AppendAssoc("[" + digits + "]", TitleAndAuthor(p), KindSuffix(p.kind));
    Joined(line, KindSuffix(p.kind));
    line + KindSuffix(p.kind)
  }

  lemma Joined(a: string, b: string)
    ensures StartsWith(a + b, a) && EndsWith(a + b, b) && |a + b| == |a| + |b|
  {
  }

  /** The part an audio or a video adds after the common `play()` line. */
  function KindSuffix(k: Kind): string {
    match k
    case Audio(length) => " - [" + IntToString(length) + "]"
    case Video(rating) => " - [" + IntToString(rating) + "]"
  }

  predicate StartsWith(s: string, t: string) {
    |t| <= |s| && s[..|t|] == t
  }

  predicate EndsWith(s: string, t: string) {
    |t| <= |s| && s[|s| - |t|..] == t
  }

  /** What follows the bracketed id in every `play()` line: `. [title] - [author]`. */
  function TitleAndAuthor(p: Playable): string {
    ". [" + p.title + "] - [" + p.author + "]"
  }

  /** The part of the `play()` line after the bracketed id. */
  function AfterId(p: Playable): string {
    TitleAndAuthor(p) + KindSuffix(p.kind)
  }

  /** Reads the number between the leading `[` and the first `]`. */
  function PlayedId(s: string): Option<nat> {
    if |s| == 0 || s[0] != '[' then None
    else
      var k := FirstIndex(s[1..], ']');
      if k == 0 || k == |s| - 1 || !AllDigits(s[1..k + 1]) then None
      else Some(ParseNat(s[1..k + 1]))
  }

  /** A bracketed run of digits at the front is read back as its number. */
  lemma PlayedIdOfDigits(digits: string, rest: string)
    requires 0 < |digits| && AllDigits(digits)
    ensures PlayedId("[" + digits + "]" + rest) == Some(ParseNat(digits))
  {
    var s := "[" + digits + "]" + rest;
    assert s[1..] == digits + [']'] + rest;
    assert ']' !in digits by {
      forall i | 0 <= i < |digits| ensures digits[i] != ']' {
        assert IsDigit(digits[i]);
      }
    }
    FirstIndexAfter(digits, ']', rest);
    assert s[1..|digits| + 1] == digits;
  }

  // ---------------------------------------------------------------- Playlists

  /** `addPlayable`: appends, without any check. */
  function AddPlayable(pl: Playlist, p: Playable): (r: Playlist)
    ensures r.playables == pl.playables + [p]
    ensures r.id == pl.id && r.name == pl.name
  {
    pl.(playables := pl.playables + [p])
  }

  /** Index of the first playable with this id, or `|ps|`. */
  function PlayableIndex(ps: seq<Playable>, id: int): (k: nat)
    ensures k <= |ps|
    ensures k < |ps| ==> ps[k].id == id
    ensures forall i :: 0 <= i < k ==> ps[i].id != id
  {
    Sequences.FindIndex(ps, (x: Playable) => x.id == id)
  }

  predicate HasPlayable(pl: Playlist, id: int) {
    exists i :: 0 <= i < |pl.playables| && pl.playables[i].id == id
  }

  /** `getPlayableById`: the first playable with that id, or `null`. */
  function GetPlayableById(pl: Playlist, id: int): (r: Option<Playable>)
    ensures r.None? <==> !HasPlayable(pl, id)
    ensures r.Some? ==> r.value.id == id && r.value in pl.playables
    ensures r.Some? ==> exists k :: 0 <= k < |pl.playables| && pl.playables[k] == r.value
                                    && forall i :: 0 <= i < k ==> pl.playables[i].id != id
  {
    var k := PlayableIndex(pl.playables, id);
    if k == |pl.playables| then None else Some(pl.playables[k])
  }

  /** `removePlayable(id)`: removes the first playable with that id; with
      none, fails and the playlist stays as it was. */
  function RemovePlayableById(pl: Playlist, id: int): (r: Result<Playlist, Error>)
    ensures r.Err? <==> !HasPlayable(pl, id)
    ensures r.Err? ==> r.error == NoPlayableWithId
    ensures r.Ok? ==>
              var k := PlayableIndex(pl.playables, id);
              && r.value == pl.(playables := pl.playables[..k] + pl.playables[k + 1..])
              && multiset(r.value.playables) + multiset{pl.playables[k]} == multiset(pl.playables)
  {
    var k := PlayableIndex(pl.playables, id);
    if k == |pl.playables| then Err(NoPlayableWithId)
    else
      assert pl.playables == pl.playables[..k] + [pl.playables[k]] + pl.playables[k + 1..];
      Ok(pl.(playables := pl.playables[..k] + pl.playables[k + 1..]))
  }

  /** `splice(index, 1)`, where index -1 stands for the last element. */
  function Splice(ps: seq<Playable>, index: int): (r: seq<Playable>)
    requires -1 <= index < |ps| || index == |ps|
  {
    if index == -1 then (if |ps| == 0 then ps else ps[..|ps| - 1])
    else if index == |ps| then ps
    else ps[..index] + ps[index + 1..]
  }

  /** `removePlayable(object)`: an object without an id is rejected; an id
      that is found removes that playable, and an id that is not found
      makes `findIndex` return -1, so the last playable is removed. */
  function RemovePlayableByObject(pl: Playlist, objectId: Option<int>): (r: Result<Playlist, Error>)
    ensures r.Err? <==> objectId.None?
    ensures r.Err? ==> r.error == NotAPlayable
    ensures r.Ok? && HasPlayable(pl, objectId.value) ==> Ok(r.value) == RemovePlayableById(pl, objectId.value)
    ensures r.Ok? && !HasPlayable(pl, objectId.value) ==>
              r.value.playables == if |pl.playables| == 0 then [] else pl.playables[..|pl.playables| - 1]
    ensures r.Ok? ==> r.value.id == pl.id && r.value.name == pl.name
  {
    match objectId
    case None => Err(NotAPlayable)
    case Some(id) =>
      var k := PlayableIndex(pl.playables, id);
      var index := if k == |pl.playables| then -1 else k;
      Ok(pl.(playables := Splice(pl.playables, index)))
  }

  /** Adding a playable with a new id and removing it by id gives back the
      playlist. */
  lemma RemoveAddedPlayable(pl: Playlist, p: Playable)
    requires !HasPlayable(pl, p.id)
    ensures GetPlayableById(AddPlayable(pl, p), p.id) == Some(p)
    ensures RemovePlayableById(AddPlayable(pl, p), p.id) == Ok(pl)
  {
    var ps := pl.playables + [p];
    assert PlayableIndex(ps, p.id) == |pl.playables| by {
      assert ps[|pl.playables|] == p;
    }
    assert HasPlayable(AddPlayable(pl, p), p.id);
    assert ps[..|pl.playables|] + ps[|pl.playables| + 1..] == pl.playables;
  }

  /** `listPlayables(page, size)`: rejects a negative page, a size that is
      not positive, and a page that starts at or after the end; otherwise
      returns the page, at most `size` playables of the playlist. */
  function ListPlayables(pl: Playlist, page: int, size: int): (r: Result<seq<Playable>, Error>)
    ensures r.Err? <==> page < 0 || size <= 0 || page * size >= |pl.playables|
    ensures r.Err? ==> r.error == InvalidParameters
    ensures r.Ok? ==>
              && |r.value| == (if page * size + size <= |pl.playables| then size else |pl.playables| - page * size)
              && 1 <= |r.value| <= size
              && multiset(r.value) <= multiset(pl.playables)
  {
    if page < 0 || size <= 0 || page * size >= |pl.playables| then Err(InvalidParameters)
    else
      var from := page * size;
      var to := if from + size <= |pl.playables| then from + size else |pl.playables|;
      var ps := pl.playables;
      assert ps == ps[..from] + ps[from..to] + ps[to..];
      Ok(ps[from..to])
  }
}

=== FILE: primes.dfy ===
/** `findPrimes(from, to)`: the primes between two bounds, found with the
    sieve of Eratosthenes. The bounds are whole numbers here; the
    conversion of arbitrary values to numbers is not modelled. */
module Primes {
  import opened Results

  datatype Error =
    | NoRange        // fewer than two arguments: "No range present"
    | InvalidLength  // `to + 1` is not a valid array length, so the sieve table cannot be sized

  /** The largest length a JavaScript array can be given. */
  const MaxArrayLength := 0xFFFF_FFFF

  predicate Divides(d: int, k: int)
    requires d > 0
  {
    k % d == 0
  }

  predicate IsPrime(n: int) {
    n >= 2 && forall d :: 2 <= d < n ==> !Divides(d, n)
  }

  /** What the sieve leaves standing once every `d` below `i` has struck
      out its multiples from `d * d` on. */
  ghost predicate Sieved(k: int, i: int) {
    k >= 2 && forall d :: 2 <= d < i && d * d <= k ==> !Divides(d, k)
  }

  /** What the sieve as the source writes it leaves standing once every `d`
      below `i` has had its pass. Such a pass strikes `d * d` and then
      `d * d + x * d` for `x` from 2 on, so it never strikes `d * d + d`. */
  ghost predicate SievedAsWritten(k: int, i: int) {
    k >= 2 && forall d :: 2 <= d < i && d * d <= k && Divides(d, k) ==> k == d * d + d
  }

  /** Mid-way through the pass of `i` as written, below `j`. */
  ghost predicate StruckAsWritten(k: int, i: int, j: int)
    requires i > 0
  {
    SievedAsWritten(k, i) && !(i * i <= k < j && Divides(i, k) && k != i * i + i)
  }

  /** Mid-way through striking out the multiples of `i`, below `j`. */
  ghost predicate Struck(k: int, i: int, j: int)
    requires i > 0
  {
    Sieved(k, i) && !(i * i <= k < j && Divides(i, k))
  }

  // ---------------------------------------------------------------- Arithmetic

  lemma MulSign(d: int, t: int)
    requires d > 0
    ensures t >= 1 ==> d * t >= d
    ensures t <= 0 ==> d * t <= 0
  {
  }

  /** Divisibility is having a whole quotient. */
  lemma DividesIff(d: int, k: int)
    requires d > 0
    ensures Divides(d, k) <==> k == d * (k / d)
    ensures forall q :: k == d * q ==> Divides(d, k) && q == k / d
  {
    forall q | k == d * q ensures Divides(d, k) && q == k / d {
      var r, q' := k % d, k / d;
      assert d * (q - q') == r by {
        assert k == d * q' + r;
      }
      MulSign(d, q - q');
    }
  }

  lemma DividesTransitive(d: int, i: int, k: int)
    requires d > 0 && i > 0 && Divides(d, i) && Divides(i, k)
    ensures Divides(d, k)
  {
    DividesIff(d, i);
    DividesIff(i, k);
    var m, n := i / d, k / i;
    assert k == d * (m * n);
    DividesIff(d, k);
  }

  lemma DividesStep(i: int, j: int)
    requires i > 0 && Divides(i, j)
    ensures Divides(i, j + i)
    ensures forall k :: j < k < j + i ==> !Divides(i, k)
  {
    DividesIff(i, j);
    var m := j / i;
    assert j + i == i * (m + 1);
    DividesIff(i, j + i);
    forall k | j < k < j + i ensures !Divides(i, k) {
      DividesIff(i, k);
      if Divides(i, k) {
        var n := k / i;
        assert i * (n - m) == k - j;
        MulSign(i, n - m);
      }
    }
  }

  lemma SquareMonotone(a: int, b: int)
    requires 0 <= a <= b
    ensures a * a <= b * b
  {
    assert a * a <= a * b;
    assert a * b <= b * b;
  }

  /** The cofactor of a proper divisor is a proper divisor too. */
  lemma CoDivisor(d: int, k: int)
    requires 2 <= d < k && Divides(d, k)
    ensures 2 <= k / d && d * (k / d) == k && Divides(k / d, k)
  {
    DividesIff(d, k);
    var e := k / d;
    MulSign(d, e);
    MulSign(d, e - 1);
    DividesIff(e, k);
    assert k == e * d;
  }

  /** Of two factors, the one below the square root. */
  lemma FactorBelow(d: int, e: int)
    requires 2 <= d && 2 <= e && d * e < d * d
    ensures e < d && e * e <= d * e
  {
    if e >= d {
      MulSign(d, e - d + 1);
    }
    assert e * e <= e * d;
  }

  /** A number from 2 on with no divisor up to its square root is prime. */
  lemma NoSmallDivisorPrime(k: int)
    requires k >= 2 && forall d :: 2 <= d && d * d <= k ==> !Divides(d, k)
    ensures IsPrime(k)
  {
    forall d | 2 <= d < k ensures !Divides(d, k) {
      if Divides(d, k) {
        CoDivisor(d, k);
        if d * d > k {
          FactorBelow(d, k / d);
        }
      }
    }
  }

  /** Once `i * i` exceeds `k`, surviving the sieve is being prime. */
  lemma SievedPrime(k: int, i: int)
    requires i >= 0 && i * i > k
    ensures Sieved(k, i) <==> IsPrime(k)
  {
    if Sieved(k, i) {
      forall d | 2 <= d && d * d <= k ensures !Divides(d, k) {
        if d >= i {
          SquareMonotone(i, d);
        }
      }
      NoSmallDivisorPrime(k);
    }
  }

  /** A struck-out `i` strikes out nothing new: its multiples are already
      gone through one of its own divisors. */
  lemma SkipStruck(i: int, k: int)
    requires i >= 2 && !Sieved(i, i) && Sieved(k, i)
    ensures Sieved(k, i + 1)
  {
    forall d | 2 <= d < i + 1 && d * d <= k ensures !Divides(d, k) {
      if d == i && Divides(i, k) {
        var c :| 2 <= c < i && c * c <= i && Divides(c, i);
        DividesTransitive(c, i, k);
        MulSign(i, i);
      }
    }
  }

  /** `d * (d + 1)` is even. */
  lemma PronicEven(d: int)
    ensures Divides(2, d * d + d)
  {
    var m := d / 2;
    assert d * d + d == d * (d + 1);
    if d % 2 == 0 {
      assert d == 2 * m;
      assert d * (d + 1) == 2 * (m * (d + 1));
    } else {
      assert d + 1 == 2 * (m + 1);
      assert d * (d + 1) == 2 * (d * (m + 1));
    }
    DividesIff(2, d * d + d);
  }

  /** The pass of `i` as written: after striking `j`, `x` has already been
      bumped, so the next index is `i * i + x * i`, and the only multiple of
      `i` it passes over is `i * i + i`. */
  lemma NextStrikeAsWritten(i: int, x: int, j: int)
    requires i >= 2 && x >= 2 && Divides(i, j)
    requires j == i * i + (if x == 2 then 0 else (x - 1) * i)
    ensures j < i * i + x * i && Divides(i, i * i + x * i)
    ensures forall k :: j < k < i * i + x * i && Divides(i, k) ==> k == i * i + i
  {
    if x == 2 {
      DividesStep(i, j);
      DividesStep(i, j + i);
      assert i * i + x * i == j + i + i;
    } else {
      assert j + i == i * i + x * i;
      DividesStep(i, j);
    }
  }

  /** A divisor `c` of `i` with `c * c <= i` divides every multiple `k` of
      `i` from `i * i` on, and `k` is past `c * c + c`. */
  lemma DivisorOfDivisor(c: int, i: int, k: int)
    requires 2 <= c < i && c * c <= i && Divides(c, i)
    requires i * i <= k && Divides(i, k)
    ensures c * c <= k && Divides(c, k) && c * c + c < k
  {
    DividesTransitive(c, i, k);
    MulSign(i, i - 1);
  }

  /** A struck-out `i` changes nothing in the sieve as written either: each
      multiple it would strike is struck through a smaller divisor. */
  lemma SkipStruckAsWritten(i: int, k: int)
    requires i >= 2 && !SievedAsWritten(i, i) && SievedAsWritten(k, i)
    ensures SievedAsWritten(k, i + 1)
  {
    forall d | 2 <= d < i + 1 && d * d <= k && Divides(d, k) ensures k == d * d + d {
      if d == i && k != i * i + i {
        var c :| 2 <= c < i && c * c <= i && Divides(c, i) && i != c * c + c;
        DivisorOfDivisor(c, i, k);
      }
    }
  }

  /** No pass as written strikes a prime. */
  lemma PrimeSurvivesAsWritten(k: int, i: int)
    requires IsPrime(k)
    ensures SievedAsWritten(k, i)
  {
    forall d | 2 <= d < i && d * d <= k ensures !Divides(d, k) {
      MulSign(d, d - 1);
    }
  }

  /** No pass as written strikes 6: the pass of 2 steps from 4 to 8, and
      every later pass starts past 6. */
  lemma SixSurvivesAsWritten(i: int)
    ensures SievedAsWritten(6, i)
  {
    forall d | 2 <= d < i && d * d <= 6 && Divides(d, 6) ensures 6 == d * d + d {
      if d >= 3 {
        MulSign(d, d - 2);
      }
    }
  }

  /** Every other number from 2 on is struck once `i * i` exceeds it: an even
      one by the pass of 2, an odd one by its least divisor. */
  lemma CompositeStruckAsWritten(k: int, i: int)
    requires 2 <= k < i * i && i >= 0 && !IsPrime(k) && k != 6
    ensures !SievedAsWritten(k, i)
  {
    if k % 2 == 0 {
      if i <= 2 {
        SquareMonotone(i, 2);
      }
      assert 2 < i && 2 * 2 <= k && Divides(2, k) && k != 2 * 2 + 2;
    } else {
      if forall d :: 2 <= d && d * d <= k ==> !Divides(d, k) {
        NoSmallDivisorPrime(k);
      }
      var d :| 2 <= d && d * d <= k && Divides(d, k);
      if d >= i {
        SquareMonotone(i, d);
      }
      PronicEven(d);
      assert d < i && k != d * d + d;
    }
  }

  /** Once `i * i` exceeds `k`, surviving the sieve as written is being prime
      or being 6, the one product `d * d + d` no smaller divisor strikes. */
  lemma SievedAsWrittenPrime(k: int, i: int)
    requires i >= 0 && i * i > k
    ensures SievedAsWritten(k, i) <==> IsPrime(k) || k == 6
  {
    if IsPrime(k) {
      PrimeSurvivesAsWritten(k, i);
    } else if k == 6 {
      SixSurvivesAsWritten(i);
    } else if k >= 2 {
      CompositeStruckAsWritten(k, i);
    }
  }

  // ---------------------------------------------------------------- The sieve

  /** `~~Math.sqrt(to)`: the integer square root, and 0 for a negative `to`. */
  method FloorSqrt(n: int) returns (s: nat)
    ensures n < 0 ==> s == 0
    ensures n >= 0 ==> s * s <= n < (s + 1) * (s + 1)
  {
    s := 0;
    if n < 0 {
      return;
    }
    while (s + 1) * (s + 1) <= n
      invariant s * s <= n
      decreases n - s * s
    {
      s := s + 1;
    }
  }

  /** The table before the sieve: every index from 2 on is marked. */
  method InitialTable(upTo: int) returns (table: array<bool>)
    requires upTo + 1 >= 0
    ensures fresh(table) && table.Length == upTo + 1
    ensures forall k :: 0 <= k < table.Length ==> (table[k] <==> 2 <= k)
  {
    table := new bool[upTo + 1](_ => false);
    var i := 2;
    while i <= upTo
      invariant 2 <= i && (i <= upTo + 1 || upTo < 2)
      invariant forall k :: 0 <= k < table.Length ==> (table[k] <==> 2 <= k < i)
    {
      table[i] := true;
      i := i + 1;
    }
  }

  /** The inner loop as the source writes it: strikes `i * i`, then bumps
      `x` before computing the next index, so it goes on with
      `i * i + 2 * i`, `i * i + 3 * i`, … and leaves `i * i + i` standing. */
  method StrikeMultiplesAsWritten(marks: array<bool>, i: int)
    requires i >= 2 && i * i < marks.Length
    requires forall k :: 0 <= k < marks.Length ==> (marks[k] <==> SievedAsWritten(k, i))
    modifies marks
    ensures forall k :: 0 <= k < marks.Length ==> (marks[k] <==> SievedAsWritten(k, i + 1))
  {
    var upTo := marks.Length - 1;
    var iSquare := i * i;
    var x := 1;
    var j := iSquare;
    DividesIff(i, j);
    while j <= upTo
      invariant x >= 1 && j == iSquare + (if x == 1 then 0 else x * i)
      invariant Divides(i, j)
      invariant forall k | 0 <= k < marks.Length :: (marks[k] <==> StruckAsWritten(k, i, j))
      decreases upTo - j
    {
      marks[j] := false;
      x := x + 1;
      NextStrikeAsWritten(i, x, j);
      j := iSquare + x * i;
    }
  }

  /** The whole sieve as the source runs it: afterwards `marks[k]` holds
      exactly when `k` is prime or `k` is 6. */
  method SieveAsWritten(upTo: int) returns (marks: seq<bool>)
    requires upTo + 1 >= 0
    ensures |marks| == upTo + 1
    ensures forall k :: 0 <= k < |marks| ==> (marks[k] <==> IsPrime(k) || k == 6)
    ensures upTo >= 6 ==> marks[6] && !IsPrime(6)
  {
    var sqrt := FloorSqrt(upTo);
    var table := InitialTable(upTo);
    assert forall k :: 0 <= k < table.Length ==> (table[k] <==> SievedAsWritten(k, 2));

    var i := 2;
    while i <= sqrt
      invariant 2 <= i && (i <= sqrt + 1 || sqrt < 2)
      invariant forall k :: 0 <= k < table.Length ==> (table[k] <==> SievedAsWritten(k, i))
    {
      SquareMonotone(i, sqrt);
      if table[i] {
        StrikeMultiplesAsWritten(table, i);
      } else {
        forall k | 0 <= k < table.Length && SievedAsWritten(k, i) ensures SievedAsWritten(k, i + 1) {
          SkipStruckAsWritten(i, k);
        }
      }
      i := i + 1;
    }
    SquareMonotone(sqrt + 1, i);
    forall k | 0 <= k < table.Length ensures table[k] <==> IsPrime(k) || k == 6 {
      SievedAsWrittenPrime(k, i);
    }
    marks := table[..];
    assert Divides(2, 6);
  }

  /** The inner loop as evidently intended: strikes out `i * i`,
      `i * i + i`, `i * i + 2 * i`, … up to the end of the table, which then
      holds what survives every `d` up to `i`. */
  method StrikeMultiples(marks: array<bool>, i: int)
    requires i >= 2 && i * i < marks.Length
    requires forall k :: 0 <= k < marks.Length ==> (marks[k] <==> Sieved(k, i))
    modifies marks
    ensures forall k :: 0 <= k < marks.Length ==> (marks[k] <==> Sieved(k, i + 1))
  {
    var upTo := marks.Length - 1;
    var iSquare := i * i;
    var j := iSquare;
    var x := 1;
    DividesIff(i, j);
    while j <= upTo
      invariant iSquare <= j && x >= 1 && j == iSquare + (x - 1) * i
      invariant Divides(i, j)
      invariant forall k | 0 <= k < marks.Length :: (marks[k] <==> Struck(k, i, j))
      decreases upTo - j
    {
      marks[j] := false;
      DividesStep(i, j);
      j := iSquare + x * i;
      x := x + 1;
    }
  }

  /** The sieve as evidently intended: afterwards `marks[k]` holds exactly
      when `k` is prime. */
  method Sieve(upTo: int) returns (marks: seq<bool>)
    requires upTo + 1 >= 0
    ensures |marks| == upTo + 1
    ensures forall k :: 0 <= k < |marks| ==> (marks[k] <==> IsPrime(k))
  {
    var sqrt := FloorSqrt(upTo);
    var table := InitialTable(upTo);
    assert forall k :: 0 <= k < table.Length ==> (table[k] <==> Sieved(k, 2));

    var i := 2;
    while i <= sqrt
      invariant 2 <= i && (i <= sqrt + 1 || sqrt < 2)
      invariant forall k :: 0 <= k < table.Length ==> (table[k] <==> Sieved(k, i))
    {
      SquareMonotone(i, sqrt);
      if table[i] {
        StrikeMultiples(table, i);
      } else {
        forall k | 0 <= k < table.Length && Sieved(k, i) ensures Sieved(k, i + 1) {
          SkipStruck(i, k);
        }
      }
      i := i + 1;
    }
    SquareMonotone(sqrt + 1, i);
    forall k | 0 <= k < table.Length ensures table[k] <==> IsPrime(k) {
      SievedPrime(k, i);
    }
    marks := table[..];
  }

  /** The last loop: the indices from `from` to `upTo` that the table marks. */
  method Collect(marks: seq<bool>, from: int, upTo: int) returns (primes: seq<int>)
    requires |marks| == upTo + 1
    ensures forall p :: p in primes <==> from <= p <= upTo && 0 <= p && marks[p]
    ensures forall a, b :: 0 <= a < b < |primes| ==> primes[a] < primes[b]
  {
    primes := [];
    var i := from;
    while i <= upTo
      invariant from <= i && (i <= upTo + 1 || i == from)
      invariant forall p :: p in primes <==> from <= p < i && 0 <= p < |marks| && marks[p]
      invariant forall a, b :: 0 <= a < b < |primes| ==> primes[a] < primes[b]
      invariant forall a :: 0 <= a < |primes| ==> primes[a] < i
    {
      if 0 <= i && marks[i] {
        primes := primes + [i];
      }
      i := i + 1;
    }
  }

  /** `findPrimes(from, to, ...)` as the source computes it: every prime `p`
      with `from <= p <= to`, and 6 as well whenever the range holds it, in
      ascending order. Extra arguments are ignored. */
  method FindPrimes(args: seq<int>) returns (r: Result<seq<int>, Error>)
    ensures |args| < 2 <==> r == Err(NoRange)
    ensures r == Err(InvalidLength) <==> |args| >= 2 && !(0 <= args[1] + 1 <= MaxArrayLength)
    ensures r.Ok? ==> forall x :: x in r.value <==> args[0] <= x <= args[1] && (IsPrime(x) || x == 6)
    ensures r.Ok? ==> (6 in r.value <==> args[0] <= 6 <= args[1])
    ensures r.Ok? ==> forall i, j :: 0 <= i < j < |r.value| ==> r.value[i] < r.value[j]
  {
    if |args| < 2 {
      return Err(NoRange);
    }
    var from, upTo := args[0], args[1];
    if upTo + 1 < 0 || upTo + 1 > MaxArrayLength {
      return Err(InvalidLength);
    }
    var marks := SieveAsWritten(upTo);
    var primes := Collect(marks, from, upTo);
    return Ok(primes);
  }

  /** `findPrimes` as evidently intended: every prime `p` with
      `from <= p <= to`, and nothing else, in ascending order. */
  method FindPrimesIntended(args: seq<int>) returns (r: Result<seq<int>, Error>)
    ensures |args| < 2 <==> r == Err(NoRange)
    ensures r == Err(InvalidLength) <==> |args| >= 2 && !(0 <= args[1] + 1 <= MaxArrayLength)
    ensures r.Ok? ==> forall x :: x in r.value <==> args[0] <= x <= args[1] && IsPrime(x)
    ensures r.Ok? ==> forall i, j :: 0 <= i < j < |r.value| ==> r.value[i] < r.value[j]
  {
    if |args| < 2 {
      return Err(NoRange);
    }
    var from, upTo := args[0], args[1];
    if upTo + 1 < 0 || upTo + 1 > MaxArrayLength {
      return Err(InvalidLength);
    }
    var marks := Sieve(upTo);
    var primes := Collect(marks, from, upTo);
    return Ok(primes);
  }
}

=== FILE: results.dfy ===
/** Failure-carrying values shared by every module of the model: the
    JavaScript sources signal failure by throwing, and each thrown error
    becomes an `Err` carrying a tagged error kind. */
module Results {

  /** A value that may be absent (JavaScript's `undefined` / `null`). */
  datatype Option<+T> = None | Some(value: T)

  /** Either a value or the error kind the source would have thrown. */
  datatype Result<+T, +E> = Ok(value: T) | Err(error: E)
}

=== FILE: sequences.dfy ===
/** Sequence helpers standing in for `Array.prototype.filter` and for
    `Array.prototype.sort` with a well-behaved comparator (an insertion
    sort over an arbitrary total preorder). */
module Sequences {

  /** The elements of `s` that satisfy `p`, in their original order. */
  function Filter<T(!new)>(s: seq<T>, p: T -> bool): (r: seq<T>)
    ensures forall x :: multiset(r)[x] == if p(x) then multiset(s)[x] else 0
    ensures forall i :: 0 <= i < |r| ==> p(r[i])
  {
    if |s| == 0 then []
    else
      assert s == [s[0]] + s[1..];
      (if p(s[0]) then [s[0]] else []) + Filter(s[1..], p)
  }

  /** One step of filtering: the first element is kept or dropped. */
  lemma FilterCons<T(!new)>(x: T, s: seq<T>, p: T -> bool)
    ensures Filter([x] + s, p) == (if p(x) then [x] else []) + Filter(s, p)
  {
    assert ([x] + s)[0] == x && ([x] + s)[1..] == s;
  }

  /** Filtering keeps the original order: the matches of a concatenation
      are the matches of its first part followed by those of its second. */
  lemma {:induction false} FilterConcat<T(!new)>(a: seq<T>, b: seq<T>, p: T -> bool)
    ensures Filter(a + b, p) == Filter(a, p) + Filter(b, p)
  {
    if |a| == 0 {
      assert a + b == b;
    } else {
      var x, rest := a[0], a[1..];
      ConsSplit(a, b);
      FilterCons(x, rest + b, p);
      FilterCons(x, rest, p);
      FilterConcat(rest, b, p);
      AppendAssoc(if p(x) then [x] else [], Filter(rest, p), Filter(b, p));
    }
  }

  lemma ConsSplit<T>(a: seq<T>, b: seq<T>)
    requires 0 < |a|
    ensures a == [a[0]] + a[1..] && a + b == [a[0]] + (a[1..] + b)
  {
  }

  lemma AppendAssoc<T>(a: seq<T>, b: seq<T>, c: seq<T>)
    ensures a + (b + c) == (a + b) + c
  {
  }

  /** `Array.prototype.find` and `findIndex`: the position of the first
      element that satisfies `p`, or `|s|` when none does. */
  function FindIndex<T>(s: seq<T>, p: T -> bool): (k: nat)
    ensures k <= |s|
    ensures k < |s| ==> p(s[k])
    ensures forall i :: 0 <= i < k ==> !p(s[i])
  {
    if |s| == 0 then 0 else if p(s[0]) then 0 else 1 + FindIndex(s[1..], p)
  }

  /** Every two elements are comparable one way or the other. */
  ghost predicate Total<T(!new)>(le: (T, T) -> bool) {
    forall a, b :: le(a, b) || le(b, a)
  }

  /** Each element is ordered before its successor. */
  predicate Sorted<T>(s: seq<T>, le: (T, T) -> bool) {
    forall i :: 0 < i < |s| ==> le(s[i - 1], s[i])
  }

  /** Puts `x` before the first element it is ordered before. */
  function Insert<T(!new)>(x: T, s: seq<T>, le: (T, T) -> bool): (r: seq<T>)
    requires Total(le)
    ensures multiset(r) == multiset(s) + multiset{x}
    ensures |r| == |s| + 1
    ensures r[0] == x || (0 < |s| && r[0] == s[0])
    ensures Sorted(s, le) ==> Sorted(r, le)
  {
    if |s| == 0 then [x]
    else if le(x, s[0]) then [x] + s
    else
      assert s == [s[0]] + s[1..];
      [s[0]] + Insert(x, s[1..], le)
  }

  /** The elements of `s`, rearranged so that each is ordered before the next. */
  function Sort<T(!new)>(s: seq<T>, le: (T, T) -> bool): (r: seq<T>)
    requires Total(le)
    ensures multiset(r) == multiset(s)
    ensures Sorted(r, le)
  {
    if |s| == 0 then []
    else
      assert s == [s[0]] + s[1..];
      Insert(s[0], Sort(s[1..], le), le)
  }

  /** With a transitive order, sorted-by-neighbours means sorted pairwise. */
  lemma {:induction false} SortedPairwise<T(!new)>(s: seq<T>, le: (T, T) -> bool, i: int, j: int)
    requires Sorted(s, le)
    requires forall a, b, c :: le(a, b) && le(b, c) ==> le(a, c)
    requires 0 <= i <= j < |s|
    requires i < j || le(s[i], s[i])
    ensures le(s[i], s[j])
    decreases j - i
  {
    if i + 1 < j {
      SortedPairwise(s, le, i + 1, j);
      assert le(s[i], s[i + 1]);
    }
  }
}

=== FILE: strings.dfy ===
/** String helpers the modules share: decimal rendering of numbers (as in
    template literals), `split` on one character, `join` with a separator,
    and the code-point lexicographic order used by `Array.prototype.sort`. */
module Strings {

  predicate IsDigit(c: char) {
    '0' <= c <= '9'
  }

  function DigitChar(d: nat): (c: char)
    requires d < 10
    ensures IsDigit(c)
  {
    ('0' as int + d) as char
  }

  function DigitValue(c: char): (d: nat)
    requires IsDigit(c)
    ensures d < 10
  {
    c as int - '0' as int
  }

  /** The decimal digits of `n`, most significant first, no leading zero. */
  function NatToString(n: nat): (s: string)
    ensures 1 <= |s|
    ensures forall i :: 0 <= i < |s| ==> IsDigit(s[i])
    ensures s[0] == '0' ==> n == 0
  {
    if n < 10 then [DigitChar(n)] else NatToString(n / 10) + [DigitChar(n % 10)]
  }

  /** The decimal form of an integer, with a leading `-` when negative. */
  function IntToString(n: int): (s: string)
    ensures 0 <= n ==> s == NatToString(n)
  {
    if n < 0 then "-" + NatToString(-n) else NatToString(n)
  }

  predicate AllDigits(s: string) {
    forall i :: 0 <= i < |s| ==> IsDigit(s[i])
  }

  /** Reads a string of decimal digits back as a number. */
  function ParseNat(s: string): nat
    requires AllDigits(s)
  {
    if |s| == 0 then 0 else ParseNat(s[..|s| - 1]) * 10 + DigitValue(s[|s| - 1])
  }

  /** Rendering a number and reading it back gives the number again. */
  lemma {:induction false} ParseNatToString(n: nat)
    ensures AllDigits(NatToString(n))
    ensures ParseNat(NatToString(n)) == n
  {
    var s := NatToString(n);
    if n >= 10 {
      ParseNatToString(n / 10);
      assert s[..|s| - 1] == NatToString(n / 10);
      assert DigitValue(s[|s| - 1]) == n % 10;
    }
  }

  /** Index of the first occurrence of `c` in `s`, or `|s|` if there is none. */
  function FirstIndex(s: string, c: char): (k: nat)
    ensures k <= |s|
    ensures k < |s| ==> s[k] == c
    ensures forall i :: 0 <= i < k ==> s[i] != c
  {
    if |s| == 0 then 0 else if s[0] == c then 0 else 1 + FirstIndex(s[1..], c)
  }

  /** `s.split(c)` for a one-character separator: the pieces between the
      occurrences of `c`, empty pieces included. */
  function Split(s: string, c: char): (parts: seq<string>)
    ensures 1 <= |parts|
    ensures forall i :: 0 <= i < |parts| ==> c !in parts[i]
    decreases |s|
  {
    var k := FirstIndex(s, c);
    if k == |s| then [s] else [s[..k]] + Split(s[k + 1..], c)
  }

  /** `parts.join(sep)`: the parts with `sep` between neighbours; `""` for no parts. */
  function Join(parts: seq<string>, sep: string): string
  {
    if |parts| == 0 then ""
    else if |parts| == 1 then parts[0]
    else parts[0] + sep + Join(parts[1..], sep)
  }

  /** Splitting and joining with the same character gives back the string. */
  lemma {:induction false} JoinSplit(s: string, c: char)
    ensures Join(Split(s, c), [c]) == s
    decreases |s|
  {
    var k := FirstIndex(s, c);
    if k < |s| {
      JoinSplit(s[k + 1..], c);
      assert s == s[..k] + [c] + s[k + 1..];
    }
  }

  /** Joining pieces that do not contain the separator and splitting again
      gives back the pieces. */
  lemma {:induction false} SplitJoin(parts: seq<string>, c: char)
    requires 1 <= |parts|
    requires forall i :: 0 <= i < |parts| ==> c !in parts[i]
    ensures Split(Join(parts, [c]), c) == parts
  {
    var s := Join(parts, [c]);
    if |parts| == 1 {
      FirstIndexAbsent(parts[0], c);
    } else {
      var rest := Join(parts[1..], [c]);
      assert s == parts[0] + [c] + rest;
      FirstIndexAfter(parts[0], c, rest);
      assert s[..|parts[0]|] == parts[0];
      assert s[|parts[0]| + 1..] == rest;
      SplitJoin(parts[1..], c);
    }
  }

  lemma FirstIndexAbsent(s: string, c: char)
    requires c !in s
    ensures FirstIndex(s, c) == |s|
  {
    if 0 < |s| {
      assert s[0] in s;
      assert c !in s[1..] by {
        forall i | 0 <= i < |s[1..]| ensures s[1..][i] != c {
          assert s[1..][i] == s[i + 1];
        }
      }
      FirstIndexAbsent(s[1..], c);
    }
  }

  lemma FirstIndexAfter(a: string, c: char, b: string)
    requires c !in a
    ensures FirstIndex(a + [c] + b, c) == |a|
  {
    assert (a + [c] + b)[|a|] == c;
  }

  /** Code-point lexicographic order on strings: a prefix comes first. */
  predicate StrLe(a: string, b: string) {
    |a| == 0 || (0 < |b| && (a[0] < b[0] || (a[0] == b[0] && StrLe(a[1..], b[1..]))))
  }

  lemma {:induction false} StrLeTotal(a: string, b: string)
    ensures StrLe(a, b) || StrLe(b, a)
  {
    if 0 < |a| && 0 < |b| && a[0] == b[0] {
      StrLeTotal(a[1..], b[1..]);
    }
  }

  lemma {:induction false} StrLeAntisymmetric(a: string, b: string)
    requires StrLe(a, b) && StrLe(b, a)
    ensures a == b
  {
    if 0 < |a| {
      StrLeAntisymmetric(a[1..], b[1..]);
      assert a == [a[0]] + a[1..];
      assert b == [b[0]] + b[1..];
    }
  }

  lemma {:induction false} StrLeTransitive(a: string, b: string, c: string)
    requires StrLe(a, b) && StrLe(b, c)
    ensures StrLe(a, c)
  {
    if 0 < |a| && a[0] == b[0] && b[0] == c[0] {
      StrLeTransitive(a[1..], b[1..], c[1..]);
    }
  }
}
